=== FILE: README.md ===
# Weblounge content repository core, modelled in Dafny

This project models the storage core of the Weblounge content management system and proves properties of it:

- **URI index**: a file of fixed-width slots that maps resource identifiers to paths, behind a 24-byte header. It covers adding, deleting, updating, reading back, clearing and resizing.
- **Abstract content repository**: connection and index guards on every query, listing defaults, the repository URI, and the bucketed directory (`/a/b/<id>`) derived from a UUID-like identifier.
- **File system repository**: where a resource version, its directory and its localized content file live on disk. It also covers the indexing filter and the naming of backup directories.
- **Resource utilities**: the mapping between version numbers, version names ("live", "work") and document names (`index.xml`, `work.xml`, `<n>.xml`).
- **Image content**: width and height, their setters, and the `<width>`/`<height>` XML fragment.
- **Movie resource serializer**: the MIME-type test and the conversion of search metadata into a search result item.
- **Composer tag**: the walk up the page hierarchy that inherits pagelets from parent pages, and the bracket of `beforeComposer`/`afterComposer` and `beforePagelet`/`afterPagelet` calls around rendering.

Everything is pure: the index file, the disk, the site's pages and the servlet request become values and parameters. Java's library semantics that matter are written out in `java_numbers.dfy` and `java_strings.dfy`. This includes `Long.parseLong`, `Long.toString`, the truncating `%`, `String.split` and `lastIndexOf`. Error paths are `Result` values that name the Java exception (`java_errors.dfy`).

The model follows the code wherever the code departs from its documented design. Each such place has two halves: a member ending in `AsWritten` (or a concrete lemma) that exhibits the behaviour, and the corrected definition that the rest of the model uses (see "## Findings"). Other differences between the code and its design:

- `doPagelet` calls `afterPagelet` whenever `beforePagelet` returned anything other than `SKIP_PAGELET`, not only when it returned `EVAL_PAGELET`.
- The composer's `contentProvider` field is shadowed by a local variable in `loadContent`, so it is never set and `getContent` reloads every time.
- `setURI` rejects a repository URI that starts with "/", although its message asks for an absolute URI.
- The URI index's `size()` counts `bytesPerEntry` bytes per slot. `init` and `resize` set it to the identifier width plus the path width, and the model's `Size` uses that sum. Reopening an existing file instead sets it from the default identifier width and the constructor's path-width argument.

## Model

| member | source | states |
|---|---|---|
| JavaNumbers.JavaRem | src/main/java/ch/o2it/weblounge/contentrepository/impl/AbstractContentRepository.java:371 | Java's `%`: a non-negative dividend leaves a remainder in [0, m), a negative one a remainder in (-m, 0], and quotient * m + remainder is the dividend |
| JavaNumbers.ParseLong | src/main/java/ch/o2it/weblounge/common/impl/content/ResourceUtils.java:49 | `Long.parseLong`: a success is a 64-bit value; null or empty text fails with NumberFormatException; text without a minus sign parses to a non-negative value |
| JavaNumbers.LongRoundTrip | src/main/java/ch/o2it/weblounge/common/impl/content/ResourceUtils.java:93 | parsing `Long.toString(v)` back gives v for every 64-bit v |
| JavaNumbers.LongToStringInjective | src/main/java/ch/o2it/weblounge/common/impl/content/ResourceUtils.java:73 | distinct 64-bit values have distinct decimal renderings |
| JavaStrings.LastIndexOf | modules/weblounge-taglib/src/main/java/ch/entwine/weblounge/taglib/ComposerTagSupport.java:335 | the index of the last occurrence, -1 exactly when the character is absent, and no occurrence after it |
| JavaStrings.Split | src/main/java/ch/o2it/weblounge/contentrepository/impl/AbstractContentRepository.java:366 | `String.split` on one character: no element contains the separator, and text without the separator is a single element |
| JavaStrings.Lower | modules/weblounge-contentrepository/src/main/java/ch/entwine/weblounge/contentrepository/impl/MovieResourceSerializer.java:103 | `toLowerCase` keeps the length and lower-cases position by position |
| ResourceUtils.GetVersion | src/main/java/ch/o2it/weblounge/common/impl/content/ResourceUtils.java:42-54 | "live" and "index" name the live version and "work" the work version. Any other name reads as what `Long.parseLong` gives for it, or -1 when that throws; null gives -1. Any result is a 64-bit value when the markers are |
| ResourceUtils.GetDocument | src/main/java/ch/o2it/weblounge/common/impl/content/ResourceUtils.java:67-74 | every document name ends in ".xml", and the live version's is "index.xml" |
| ResourceUtils.GetVersionString | src/main/java/ch/o2it/weblounge/common/impl/content/ResourceUtils.java:87-94 | the name is "live" exactly for the live version and "work" exactly for the work version, any other version is named by `Long.toString`, and the name is never "index" |
| ResourceUtils.LongToStringNotReserved | src/main/java/ch/o2it/weblounge/common/impl/content/ResourceUtils.java:93 | no decimal version number is spelled like a reserved version name |
| ResourceUtils.VersionRoundTrip | src/main/java/ch/o2it/weblounge/common/impl/content/ResourceUtils.java:42-94 | reading back a version's name gives the version, for every 64-bit version |
| ResourceUtils.IndexNameIsNotKept | src/main/java/ch/o2it/weblounge/common/impl/content/ResourceUtils.java:43-44 | "index" reads as the live version, but the live version's name is "live" |
| ResourceUtils.UnparseableCollidesWithMinusOne | src/main/java/ch/o2it/weblounge/common/impl/content/ResourceUtils.java:47-52 | an unparseable name and the name "-1" both read as version -1 |
| ResourceUtils.DecimalNamesItsValue | src/main/java/ch/o2it/weblounge/common/impl/content/ResourceUtils.java:47-49 | a decimal numeral with an optional sign, inside the 64-bit range, reads as the value its digits spell |
| ResourceUtils.NonNumeralNamesMinusOne | src/main/java/ch/o2it/weblounge/common/impl/content/ResourceUtils.java:47-52 | a name that is not a marker and has a non-digit other than a leading sign reads as -1, and so does the empty name |
| ResourceUtils.GetDocumentInjective | src/main/java/ch/o2it/weblounge/common/impl/content/ResourceUtils.java:67-74 | distinct versions have distinct document names when the two markers are distinct 64-bit values |
| ResourceUtils.StemOfDocument | src/main/java/ch/o2it/weblounge/common/impl/content/ResourceUtils.java:67-74 | without ".xml", a document name is "index", "work" or the decimal version |
| UriIndexHeader.EncodeBE | src/main/java/ch/o2it/weblounge/contentrepository/impl/index/URIIndex.java:438-442 | a big-endian field has exactly the requested width |
| UriIndexHeader.DecodeEncode | src/main/java/ch/o2it/weblounge/contentrepository/impl/index/URIIndex.java:438-442 | decoding a big-endian field gives back every value that fits its width |
| UriIndexHeader.SignedRoundTrip | src/main/java/ch/o2it/weblounge/contentrepository/impl/index/URIIndex.java:171-172 | a two's-complement field reads back as the signed value written into it |
| UriIndexHeader.WriteHeader | src/main/java/ch/o2it/weblounge/contentrepository/impl/index/URIIndex.java:438-442 | the header written by `init` is 24 bytes: two ints, then two longs |
| UriIndexHeader.ReadHeader | src/main/java/ch/o2it/weblounge/contentrepository/impl/index/URIIndex.java:56-68 | reading the four fields at their documented offsets succeeds exactly on 24 bytes or more and gives in-range values |
| UriIndexHeader.HeaderRoundTrip | src/main/java/ch/o2it/weblounge/contentrepository/impl/index/URIIndex.java:56-68 | reading back a written header gives the same four fields |
| UriIndexHeader.ReadHeaderAsWritten | src/main/java/ch/o2it/weblounge/contentrepository/impl/index/URIIndex.java:169-176 | the constructor reads an int at offset 0 into the path width and a long at offset 4 into the entry count; the identifier width stays 36 and the slot count 0 |
| UriIndexHeader.MisreadPathWidth | src/main/java/ch/o2it/weblounge/contentrepository/impl/index/URIIndex.java:171 | as written, the path width read back is the identifier width that was written |
| UriIndexHeader.MisreadDefaultIndex | src/main/java/ch/o2it/weblounge/contentrepository/impl/index/URIIndex.java:171-172 | a fresh default index (36, 128, 0, 0) reads back as path width 36 and 549755813888 entries |
| UriIndex.Create | src/main/java/ch/o2it/weblounge/contentrepository/impl/index/URIIndex.java:432-458 | a new index has no entries and no slots, and is valid for positive widths |
| UriIndex.Size | src/main/java/ch/o2it/weblounge/contentrepository/impl/index/URIIndex.java:204-206 | `size()` of an index with no slots is the header size, and every slot adds at least one byte |
| UriIndex.EntriesBelowSlots | src/main/java/ch/o2it/weblounge/contentrepository/impl/index/URIIndex.java:204-206 | in a valid index the entry count lies between 0 and the slot count |
| UriIndex.WidenAsWritten | src/main/java/ch/o2it/weblounge/contentrepository/impl/index/URIIndex.java:248-255 | as written, the doubled path width is at least the path length, so it can equal the length and leave no byte for the terminator |
| UriIndex.Widen | src/main/java/ch/o2it/weblounge/contentrepository/impl/index/URIIndex.java:248-255 | the corrected width is a power-of-two multiple of the old one, strictly longer than the path, and no more than twice the path length |
| UriIndex.WidenAsWrittenFillsField | src/main/java/ch/o2it/weblounge/contentrepository/impl/index/URIIndex.java:251 | a 256-byte path in a 128-byte field widens to 256 as written and to 512 corrected |
| UriIndex.Resize | src/main/java/ch/o2it/weblounge/contentrepository/impl/index/URIIndex.java:473-530 | fails with IllegalState exactly when the index is read-only or a field would shrink while entries exist; otherwise it sets both widths and keeps every entry, the counters and the read-only flag |
| UriIndex.ResizePreservesValid | src/main/java/ch/o2it/weblounge/contentrepository/impl/index/URIIndex.java:473-530 | resizing a valid index to positive widths gives a valid index |
| UriIndex.ResizeAsWritten | src/main/java/ch/o2it/weblounge/contentrepository/impl/index/URIIndex.java:510-517 | as written, the copy loop runs `entries` times, so only slots numbered below the entry count survive |
| UriIndex.ResizeAsWrittenDropsEntry | src/main/java/ch/o2it/weblounge/contentrepository/impl/index/URIIndex.java:511 | an index whose only entry sits in slot 1 (slot 0 freed) loses it on resize, while the corrected resize keeps it |
| UriIndex.FirstFree | src/main/java/ch/o2it/weblounge/contentrepository/impl/index/URIIndex.java:257-273 | the reused slot is the first free one: every slot before it is occupied |
| UriIndex.Add | src/main/java/ch/o2it/weblounge/contentrepository/impl/index/URIIndex.java:237-299 | a wrong-width identifier gives IllegalArgument; otherwise add succeeds exactly on a writable index. The entry goes to the first free slot, and a new slot is appended only when none is free. The entry count grows by one and the path field widens when the path does not fit |
| UriIndex.AddPreservesValid | src/main/java/ch/o2it/weblounge/contentrepository/impl/index/URIIndex.java:237-299 | adding to a valid index keeps it valid and never overwrites an occupied slot |
| UriIndex.AddSize | src/main/java/ch/o2it/weblounge/contentrepository/impl/index/URIIndex.java:285-292 | `size()` grows by one slot exactly when the entry is appended rather than reused |
| UriIndex.AddAsWritten | src/main/java/ch/o2it/weblounge/contentrepository/impl/index/URIIndex.java:257-273 | as written, the reuse scan compares a two-byte `readChar` with '\n', never finds a free slot, and always writes slot `entries` and appends a slot |
| UriIndex.AddAsWrittenOverwritesLiveEntry | src/main/java/ch/o2it/weblounge/contentrepository/impl/index/URIIndex.java:263 | after add, add, delete of the first, the as-written add overwrites the live second entry; the corrected add reuses the freed slot |
| UriIndex.PathField | src/main/java/ch/o2it/weblounge/contentrepository/impl/index/URIIndex.java:276-283 | the stored path field is a prefix of the path followed by its terminator |
| UriIndex.GetId | src/main/java/ch/o2it/weblounge/contentrepository/impl/index/URIIndex.java:386-394 | a negative entry is an I/O error in the model (see Left out), a free slot fails with IllegalState, and an occupied slot gives its identifier |
| UriIndex.GetPath | src/main/java/ch/o2it/weblounge/contentrepository/impl/index/URIIndex.java:407-421 | a negative entry is an I/O error in the model (see Left out), a free slot fails with IllegalState, and the path read is the stored text up to the first '\n' |
| UriIndex.ReadBackPath | src/main/java/ch/o2it/weblounge/contentrepository/impl/index/URIIndex.java:407-421 | a stored path that fits its field reads back exactly when it contains no '\n' |
| UriIndex.AddThenRead | src/main/java/ch/o2it/weblounge/contentrepository/impl/index/URIIndex.java:237-299 | after add, the returned slot reads back the identifier and the path, each exactly when it holds no terminator |
| UriIndex.AddKeepsOtherSlots | src/main/java/ch/o2it/weblounge/contentrepository/impl/index/URIIndex.java:237-299 | add changes what no other slot reads back |
| UriIndex.AddWithUnterminatedPath | src/main/java/ch/o2it/weblounge/contentrepository/impl/index/URIIndex.java:248-255 | with the as-written widening, a 256-byte path is stored without a terminator and reading it fails; the corrected add reads it back |
| UriIndex.Delete | src/main/java/ch/o2it/weblounge/contentrepository/impl/index/URIIndex.java:309-322 | delete succeeds exactly for a non-negative entry of a writable index. It frees that slot, keeps every other slot and the slot count, and lowers the entry count by one without checking the slot was occupied |
| UriIndex.DeletePreservesValid | src/main/java/ch/o2it/weblounge/contentrepository/impl/index/URIIndex.java:309-322 | deleting an occupied slot keeps the index valid, and the slot then reads as free |
| UriIndex.DeleteFreeSlotBreaksCount | src/main/java/ch/o2it/weblounge/contentrepository/impl/index/URIIndex.java:309-322 | deleting a free slot leaves an entry count that no longer matches the occupied slots |
| UriIndex.FillOverrunsSlot | src/main/java/ch/o2it/weblounge/contentrepository/impl/index/URIIndex.java:315-317 | the zero fill writes a long per byte of the entry, so it runs past its slot, and past seven slots once entries are 8 bytes wide |
| UriIndex.FillLengthAsWritten | src/main/java/ch/o2it/weblounge/contentrepository/impl/index/URIIndex.java:315-317 | the bytes written from the start of the slot by the as-written fill: one '\n' plus whole longs, within the slot only when the slot is one byte wide |
| UriIndex.AddWriteLengthAsWritten | src/main/java/ch/o2it/weblounge/contentrepository/impl/index/URIIndex.java:276-283 | the bytes `add` writes from the start of its slot: at least the identifier, path and terminator; exactly the entry width plus the identifier width minus 36 when the identifier is at least 36 wide; within the slot exactly when the identifier is at most 36 wide |
| UriIndex.AddOverrunsSlot | src/main/java/ch/o2it/weblounge/contentrepository/impl/index/URIIndex.java:276-283 | with an identifier wider than 36 bytes, `add` writes the excess past the end of its slot |
| UriIndex.Update | src/main/java/ch/o2it/weblounge/contentrepository/impl/index/URIIndex.java:337-361 | update succeeds only for a non-negative entry of a writable index. It replaces the path of an occupied slot and keeps its identifier. The counters and the identifier width are kept. The path field widens exactly when the new path does not fit. A free slot still reads as free (see Left out for what the source writes there) |
| UriIndex.UpdatePreservesValid | src/main/java/ch/o2it/weblounge/contentrepository/impl/index/URIIndex.java:337-361 | updating an occupied slot keeps the index valid; the slot keeps its identifier and reads back the new path exactly when it has no terminator |
| UriIndex.Clear | src/main/java/ch/o2it/weblounge/contentrepository/impl/index/URIIndex.java:369-371 | clearing a writable index removes every entry and keeps the widths and the slot count; a read-only index fails with an I/O error |
| UriIndex.ClearFreesAll | src/main/java/ch/o2it/weblounge/contentrepository/impl/index/URIIndex.java:369-371 | after clear the index is valid and every slot reads as free |
| ContentRepository.Connect | src/main/java/ch/o2it/weblounge/contentrepository/impl/AbstractContentRepository.java:85-92 | connecting without a site throws IllegalState and leaves the connection flag as it was; with a site it connects |
| ContentRepository.Disconnect | src/main/java/ch/o2it/weblounge/contentrepository/impl/AbstractContentRepository.java:100-102 | disconnecting clears only the connection flag |
| ContentRepository.FailedConnectKeepsConnection | src/main/java/ch/o2it/weblounge/contentrepository/impl/AbstractContentRepository.java:88-92 | a failed connect on a connected repository still leaves it connected, with no site |
| ContentRepository.Start | src/main/java/ch/o2it/weblounge/contentrepository/impl/AbstractContentRepository.java:112-118 | start installs the loaded index; an I/O failure becomes a repository failure and leaves the state unchanged |
| ContentRepository.Stop | src/main/java/ch/o2it/weblounge/contentrepository/impl/AbstractContentRepository.java:128-134 | stop never changes the state; with no index it throws NullPointer, and a close failure becomes a repository failure |
| ContentRepository.StoppedIndexStillAnswers | src/main/java/ch/o2it/weblounge/contentrepository/impl/AbstractContentRepository.java:128-134 | after start then stop, page counts, version counts and queries still reach the closed index |
| ContentRepository.Query | src/main/java/ch/o2it/weblounge/contentrepository/impl/AbstractContentRepository.java:141-186 | `exists` and `findPages`: a disconnected repository throws IllegalState, a missing index NullPointer, an I/O failure becomes a repository failure, and a success passes on the index's answer |
| ContentRepository.DisconnectedQueriesFail | src/main/java/ch/o2it/weblounge/contentrepository/impl/AbstractContentRepository.java:142-143 | after disconnect every query throws IllegalState |
| ContentRepository.ConnectedQueriesReachIndex | src/main/java/ch/o2it/weblounge/contentrepository/impl/AbstractContentRepository.java:141-149 | after a successful connect, a query with an index gives the index's answer |
| ContentRepository.GetPage | src/main/java/ch/o2it/weblounge/contentrepository/impl/AbstractContentRepository.java:193-201 | a page load needs only the connection; an I/O failure becomes a repository failure |
| ContentRepository.PagesLoadWithoutIndex | src/main/java/ch/o2it/weblounge/contentrepository/impl/AbstractContentRepository.java:193-201 | a connected repository without an index loads pages while its queries throw NullPointer |
| ContentRepository.GetVersionsOf | src/main/java/ch/o2it/weblounge/contentrepository/impl/AbstractContentRepository.java:227-242 | `getVersions` succeeds exactly when connected with an index whose lookup succeeds, and gives one URI per revision, in order, carrying that revision |
| ContentRepository.ListPages | src/main/java/ch/o2it/weblounge/contentrepository/impl/AbstractContentRepository.java:249-292 | listing needs the connection and an index; it passes the URI on, defaults the level to Integer.MAX_VALUE and the version to -1, and keeps explicit ones |
| ContentRepository.PageCount | src/main/java/ch/o2it/weblounge/contentrepository/impl/AbstractContentRepository.java:323-325 | the page count comes from the index, or is -1 without one |
| ContentRepository.VersionCount | src/main/java/ch/o2it/weblounge/contentrepository/impl/AbstractContentRepository.java:332-334 | the version count comes from the index, or is -1 without one |
| ContentRepository.SetUri | src/main/java/ch/o2it/weblounge/contentrepository/impl/AbstractContentRepository.java:299-307 | setting the URI succeeds exactly when disconnected with a non-null URI not starting with "/"; a connected repository throws IllegalState, a bad URI IllegalArgument, and nothing but the URI changes |
| ContentRepository.GetUri | src/main/java/ch/o2it/weblounge/contentrepository/impl/AbstractContentRepository.java:314-316 | `getURI` returns the stored root URI, which connect and disconnect never change (SetThenGetUri) |
| ContentRepository.SetThenGetUri | src/main/java/ch/o2it/weblounge/contentrepository/impl/AbstractContentRepository.java:299-316 | a set URI reads back, survives connect, and cannot be set again while connected |
| ContentRepository.Bucket | src/main/java/ch/o2it/weblounge/contentrepository/impl/AbstractContentRepository.java:371-375 | a bucket is the hexadecimal value of the segment modulo the bucket count, with Java's sign; a non-hex segment throws NumberFormat |
| ContentRepository.IdToDirectory | src/main/java/ch/o2it/weblounge/contentrepository/impl/AbstractContentRepository.java:363-382 | a null identifier throws IllegalArgument, a malformed one NumberFormat or IndexOutOfBounds. It succeeds exactly when the identifier has two hexadecimal segments, and the result is `/b1/b2/<id>` with b1 the first segment's value modulo 100 and b2 the second's modulo 10 |
| ContentRepository.BucketsOf | src/main/java/ch/o2it/weblounge/contentrepository/impl/AbstractContentRepository.java:366-375 | the two buckets of an identifier, b1 below 100 and b2 below 10, exist exactly when both segments are present and parse as hexadecimal |
| ContentRepository.DirectoryParts | src/main/java/ch/o2it/weblounge/contentrepository/impl/AbstractContentRepository.java:363-382 | splitting a directory at its first two separators rebuilds it exactly |
| ContentRepository.DirectoryPartsOf | src/main/java/ch/o2it/weblounge/contentrepository/impl/AbstractContentRepository.java:363-382 | a directory whose first two parts have no separator splits back into those parts |
| ContentRepository.IdToDirectoryReadBack | src/main/java/ch/o2it/weblounge/contentrepository/impl/AbstractContentRepository.java:363-382 | a computed directory splits back into two decimal buckets in range and the original identifier |
| ContentRepository.IdToDirectoryInjective | src/main/java/ch/o2it/weblounge/contentrepository/impl/AbstractContentRepository.java:363-382 | distinct identifiers get distinct directories |
| ContentRepository.HexSegmentParses | src/main/java/ch/o2it/weblounge/contentrepository/impl/AbstractContentRepository.java:371 | a hex segment of 1 to 15 digits always parses as a long |
| ContentRepository.SplitUuid | src/main/java/ch/o2it/weblounge/contentrepository/impl/AbstractContentRepository.java:366 | splitting a dashed identifier at '-' gives its first two segments |
| ContentRepository.UuidHasDirectory | src/main/java/ch/o2it/weblounge/contentrepository/impl/AbstractContentRepository.java:363-382 | every identifier whose first two segments are 1 to 15 hex digits has a directory: the first segment's hexadecimal digit value modulo 100, the second's modulo 10, then the identifier |
| ContentRepository.AppendIdToPath | src/main/java/ch/o2it/weblounge/contentrepository/impl/AbstractContentRepository.java:347-352 | a null identifier throws IllegalArgument; otherwise the directory is appended to the path unchanged |
| FileSystemRepository.IdentifierOf | src/main/java/ch/o2it/weblounge/contentrepository/impl/fs/FileSystemContentRepository.java:341-350 | the URI's own identifier wins over the index's |
| FileSystemRepository.UriToFile | src/main/java/ch/o2it/weblounge/contentrepository/impl/fs/FileSystemContentRepository.java:336-364 | a URI without a type throws IllegalArgument; one with no known identifier has no file; otherwise the file is the live document name in its version directory |
| FileSystemRepository.VersionFile | src/main/java/ch/o2it/weblounge/contentrepository/impl/fs/FileSystemContentRepository.java:357-362 | a version file always ends in "/index.xml" |
| FileSystemRepository.UriToDirectoryAsWritten | src/main/java/ch/o2it/weblounge/contentrepository/impl/fs/FileSystemContentRepository.java:402-419 | as written, the directory is built from the URI's own identifier, so a URI resolved through the index fails |
| FileSystemRepository.UriToDirectory | src/main/java/ch/o2it/weblounge/contentrepository/impl/fs/FileSystemContentRepository.java:402-419 | corrected: a typed URI with a known identifier gets a directory under its type directory that ends in that identifier |
| FileSystemRepository.IndexedUriHasNoDirectoryAsWritten | src/main/java/ch/o2it/weblounge/contentrepository/impl/fs/FileSystemContentRepository.java:417 | for a URI identified only through the index, the as-written directory throws IllegalArgument while the corrected one exists |
| FileSystemRepository.FileInDirectory | src/main/java/ch/o2it/weblounge/contentrepository/impl/fs/FileSystemContentRepository.java:336-419 | the resource file is `<directory>/<version>/index.xml`: both exist together and the file lies inside the directory |
| FileSystemRepository.UriToFileShape | src/main/java/ch/o2it/weblounge/contentrepository/impl/fs/FileSystemContentRepository.java:336-364 | the file is the version file of the type directory with the bucketed identifier appended |
| FileSystemRepository.UriToFileInjective | src/main/java/ch/o2it/weblounge/contentrepository/impl/fs/FileSystemContentRepository.java:336-364 | two URIs of one type with separator-free identifiers and 64-bit versions share a file only if identifier and version agree |
| FileSystemRepository.ResourceTail | src/main/java/ch/o2it/weblounge/contentrepository/impl/fs/FileSystemContentRepository.java:356-362 | below the type directory, a resource file splits into two buckets and the identifier followed by `/<version>/index.xml` |
| FileSystemRepository.Extension | src/main/java/ch/o2it/weblounge/contentrepository/impl/fs/FileSystemContentRepository.java:386 | the extension holds no '.', '/' or '\\' and is empty or the text after the name's last '.' |
| FileSystemRepository.ExtensionOf | src/main/java/ch/o2it/weblounge/contentrepository/impl/fs/FileSystemContentRepository.java:386 | the extension of `stem.ext` is `ext` |
| FileSystemRepository.ContentFileName | src/main/java/ch/o2it/weblounge/contentrepository/impl/fs/FileSystemContentRepository.java:385-389 | the content file name starts with the language; a null filename gives `<language>.null`, an extensionless one just the language |
| FileSystemRepository.ContentFileIn | src/main/java/ch/o2it/weblounge/contentrepository/impl/fs/FileSystemContentRepository.java:382-390 | the content file is `<dir>/<version>/<name>`, or the relative `<version>/<name>` without a directory, and always ends in `/<name>` |
| FileSystemRepository.UriToContentFile | src/main/java/ch/o2it/weblounge/contentrepository/impl/fs/FileSystemContentRepository.java:379-392 | the content file fails exactly when the directory does, with the same exception. With a resource directory d it is `d/<version>/<name>`. Without one it is the relative `<version>/<name>` |
| FileSystemRepository.UriToContentFileAsWritten | src/main/java/ch/o2it/weblounge/contentrepository/impl/fs/FileSystemContentRepository.java:381 | as written, the content file inherits the as-written directory lookup: it fails exactly when that does, and agrees with the corrected lookup for a URI with its own identifier |
| FileSystemRepository.IndexedUriHasNoContentFileAsWritten | src/main/java/ch/o2it/weblounge/contentrepository/impl/fs/FileSystemContentRepository.java:381 | for a URI identified only through the index, the as-written content file throws IllegalArgument while the corrected one exists |
| FileSystemRepository.ExtensionlessContentIsNotLocalized | src/main/java/ch/o2it/weblounge/contentrepository/impl/fs/FileSystemContentRepository.java:387-389 | content stored without an extension is not found by the lookup for `<language>.` |
| FileSystemRepository.ContentWithExtensionIsLocalized | src/main/java/ch/o2it/weblounge/contentrepository/impl/fs/FileSystemContentRepository.java:387-389 | content stored with an extension (or a null name) is found by that lookup |
| FileSystemRepository.LocalizedContent | src/main/java/ch/o2it/weblounge/contentrepository/impl/fs/FileSystemContentRepository.java:494-508 | the lookup fails with NullPointer exactly when the listing is missing, and otherwise gives the first file whose name starts with `<language>.` |
| FileSystemRepository.FirstLocalized | src/main/java/ch/o2it/weblounge/contentrepository/impl/fs/FileSystemContentRepository.java:495-499 | the first matching file, or none when no file matches |
| FileSystemRepository.IndexingFilter | src/main/java/ch/o2it/weblounge/contentrepository/impl/fs/FileSystemContentRepository.java:221-227 | a name starting with '.' is refused; a visible directory is accepted; a visible file is accepted exactly when it ends in ".xml" |
| FileSystemRepository.DocumentsAreIndexed | src/main/java/ch/o2it/weblounge/contentrepository/impl/fs/FileSystemContentRepository.java:221-227 | every version document passes the indexing filter, hidden files do not |
| FileSystemRepository.BackupDirectory | src/main/java/ch/o2it/weblounge/contentrepository/impl/fs/FileSystemContentRepository.java:284-293 | the backup is `<dir>-old` when free, else `<dir>-old <i>` for the first free i, every earlier candidate being taken |
| FileSystemRepository.BackupNamesDistinct | src/main/java/ch/o2it/weblounge/contentrepository/impl/fs/FileSystemContentRepository.java:285-289 | the candidate backup names are pairwise distinct |
| ImageContent.Create | src/main/java/ch/o2it/weblounge/common/impl/content/image/ImageContentImpl.java:94-99 | the full constructor keeps width, height and file content |
| ImageContent.CreateUnsized | src/main/java/ch/o2it/weblounge/common/impl/content/image/ImageContentImpl.java:55-57 | without dimensions, width, height and size are -1 |
| ImageContent.CreateSized | src/main/java/ch/o2it/weblounge/common/impl/content/image/ImageContentImpl.java:73-76 | with dimensions only, the size is -1 |
| ImageContent.SetWidth | src/main/java/ch/o2it/weblounge/common/impl/content/image/ImageContentImpl.java:106-110 | a width of 0 or less throws IllegalArgument; otherwise only the width changes |
| ImageContent.SetHeight | src/main/java/ch/o2it/weblounge/common/impl/content/image/ImageContentImpl.java:126-130 | a height of 0 or less throws IllegalArgument; otherwise only the height changes |
| ImageContent.ElementRoundTrip | src/main/java/ch/o2it/weblounge/common/impl/content/image/ImageContentImpl.java:153-154 | a number written between its tags reads back with the rest of the text |
| ImageContent.DimensionsRoundTrip | src/main/java/ch/o2it/weblounge/common/impl/content/image/ImageContentImpl.java:153-154 | the `<width>`/`<height>` fragment reads back as the written dimensions |
| ImageContent.ExtendXml | src/main/java/ch/o2it/weblounge/common/impl/content/image/ImageContentImpl.java:147-156 | serialising succeeds exactly for positive dimensions, keeps the inherited XML as prefix, and appends a fragment that reads back as the dimensions |
| ImageContent.UnsizedImageIsNotSerializable | src/main/java/ch/o2it/weblounge/common/impl/content/image/ImageContentImpl.java:55-57 | an image made without dimensions cannot be serialised |
| ImageContent.SettersEnableSerialization | src/main/java/ch/o2it/weblounge/common/impl/content/image/ImageContentImpl.java:106-156 | after setting positive dimensions the image serialises |
| ImageContent.Equals | src/main/java/ch/o2it/weblounge/common/impl/content/image/ImageContentImpl.java:174-184 | equal exactly to an image with the same width, height and equal file content; never equal to a non-image |
| ImageContent.EqualsSymmetric | src/main/java/ch/o2it/weblounge/common/impl/content/image/ImageContentImpl.java:174-184 | equality between images is symmetric when the inherited equality is |
| ImageContent.EqualsReflexive | src/main/java/ch/o2it/weblounge/common/impl/content/image/ImageContentImpl.java:174-184 | every image equals itself when the inherited equality is reflexive |
| MovieSerializer.Supports | modules/weblounge-contentrepository/src/main/java/ch/entwine/weblounge/contentrepository/impl/MovieResourceSerializer.java:100-108 | a null MIME type is not supported |
| MovieSerializer.SupportsByPrefix | modules/weblounge-contentrepository/src/main/java/ch/entwine/weblounge/contentrepository/impl/MovieResourceSerializer.java:100-108 | a MIME type is supported exactly when it starts with "audio/" or "video/" ignoring case |
| MovieSerializer.SupportsIgnoresCase | modules/weblounge-contentrepository/src/main/java/ch/entwine/weblounge/contentrepository/impl/MovieResourceSerializer.java:103-105 | lower-casing a MIME type does not change whether it is supported |
| MovieSerializer.FirstText | modules/weblounge-contentrepository/src/main/java/ch/entwine/weblounge/contentrepository/impl/MovieResourceSerializer.java:169 | the first value of a metadata item, when it is text |
| MovieSerializer.FirstLong | modules/weblounge-contentrepository/src/main/java/ch/entwine/weblounge/contentrepository/impl/MovieResourceSerializer.java:207 | the first value of a metadata item, when it is a long |
| MovieSerializer.FirstNamed | modules/weblounge-contentrepository/src/main/java/ch/entwine/weblounge/contentrepository/impl/MovieResourceSerializer.java:167-168 | the first metadata item with the given name, or -1 |
| MovieSerializer.LastNamed | modules/weblounge-contentrepository/src/main/java/ch/entwine/weblounge/contentrepository/impl/MovieResourceSerializer.java:198-201 | the last metadata item with the given name (the map keeps the last), or -1 |
| MovieSerializer.ResourceXml | modules/weblounge-contentrepository/src/main/java/ch/entwine/weblounge/contentrepository/impl/MovieResourceSerializer.java:166-187 | no XML item means no resource. Otherwise the result is the text of the first XML item, and it succeeds exactly when that item's first value is a string, failing with that item's error otherwise |
| MovieSerializer.ResourceXmlIsScan | modules/weblounge-contentrepository/src/main/java/ch/entwine/weblounge/contentrepository/impl/MovieResourceSerializer.java:167-185 | reading the first XML item equals the `for` loop over the list that returns at the first XML item |
| MovieSerializer.ToSearchResultItem | modules/weblounge-contentrepository/src/main/java/ch/entwine/weblounge/contentrepository/impl/MovieResourceSerializer.java:195-229 | no identifier throws NullPointer. It succeeds exactly when the identifier, version, path, XML and header XML items kept by the map have first values of the right type. A result takes its identifier, version and path from the last items of those names. Without a path item the path is the movie prefix, "/" and the identifier. The resource XML and header XML are present exactly when items of those names exist, and each is the first value of the last such item |
| MovieSerializer.MapOfKeepsLast | modules/weblounge-contentrepository/src/main/java/ch/entwine/weblounge/contentrepository/impl/MovieResourceSerializer.java:198-201 | filling the map in list order keeps, for each name, exactly the last item of that name |
| MovieSerializer.ToSearchResultItemReadsMap | modules/weblounge-contentrepository/src/main/java/ch/entwine/weblounge/contentrepository/impl/MovieResourceSerializer.java:195-229 | the result, error included, is what the method's statements read from that map |
| MovieSerializer.DefaultPathHasDoubleSlash | modules/weblounge-contentrepository/src/main/java/ch/entwine/weblounge/contentrepository/impl/MovieResourceSerializer.java:214 | the default path is `/weblounge-movies//<id>` |
| MovieSerializer.FirstAndLastXmlDiffer | modules/weblounge-contentrepository/src/main/java/ch/entwine/weblounge/contentrepository/impl/MovieResourceSerializer.java:166-225 | with two XML items the resource is read from the first, while the search item keeps the second |
| ComposerContent.ParentStep | modules/weblounge-taglib/src/main/java/ch/entwine/weblounge/taglib/ComposerTagSupport.java:333-342 | one step up: no parent without a '/', a parent is a non-empty prefix, and it is strictly shorter unless the path is "/" |
| ComposerContent.RootIsOwnParent | modules/weblounge-taglib/src/main/java/ch/entwine/weblounge/taglib/ComposerTagSupport.java:341-342 | the parent of "/" is "/" |
| ComposerContent.ParentStepExamples | modules/weblounge-taglib/src/main/java/ch/entwine/weblounge/taglib/ComposerTagSupport.java:333-342 | `/a/b/` steps to `/a`, `/a` to `/`, and `a/` has no parent |
| ComposerContent.Walk | modules/weblounge-taglib/src/main/java/ch/entwine/weblounge/taglib/ComposerTagSupport.java:330-356 | the walk stops at a missing or failing parent that is a proper prefix of the page, and leaves non-empty content alone |
| ComposerContent.Ancestors | modules/weblounge-taglib/src/main/java/ch/entwine/weblounge/taglib/ComposerTagSupport.java:332-342 | the ancestors are proper prefixes of the path, in strictly decreasing length |
| ComposerContent.Search | modules/weblounge-taglib/src/main/java/ch/entwine/weblounge/taglib/ComposerTagSupport.java:330-356 | reference search: any content found belongs to one of the ancestors |
| ComposerContent.WalkIsSearch | modules/weblounge-taglib/src/main/java/ch/entwine/weblounge/taglib/ComposerTagSupport.java:330-356 | the walk from an empty page equals the search of its ancestors, nearest first |
| ComposerContent.LoadContent | modules/weblounge-taglib/src/main/java/ch/entwine/weblounge/taglib/ComposerTagSupport.java:293-370 | loading always marks the composer initialised. An offline repository throws. The target is the request page; without one it is the home page "/", and when "/" is not found the load ends with no target and nothing else changed. Without inheritance, or when the request page has pagelets of its own, the composer takes the request page's pagelets and no walk happens. A failure leaves the pagelets unchanged, and only the offline and repository failures are thrown. Empty content adds the empty-composer class |
| ComposerContent.InheritsNearestContent | modules/weblounge-taglib/src/main/java/ch/entwine/weblounge/taglib/ComposerTagSupport.java:330-364 | an empty page inherits the nearest ancestor's pagelets, or is marked empty |
| ComposerContent.MissingAncestorLeavesNoPagelets | modules/weblounge-taglib/src/main/java/ch/entwine/weblounge/taglib/ComposerTagSupport.java:345-349 | when an ancestor is missing, loading returns with no pagelets and no empty class |
| ComposerContent.FailingAncestorThrows | modules/weblounge-taglib/src/main/java/ch/entwine/weblounge/taglib/ComposerTagSupport.java:344-353 | a failing ancestor reached before any content throws the repository failure, with the target page set and the pagelets untouched |
| ComposerContent.HomePageFallback | modules/weblounge-taglib/src/main/java/ch/entwine/weblounge/taglib/ComposerTagSupport.java:306-322 | without a request page, a found home page becomes the target and supplies the pagelets |
| ComposerContent.GetContent | modules/weblounge-taglib/src/main/java/ch/entwine/weblounge/taglib/ComposerTagSupport.java:421-428 | with no recorded provider it loads. It fails exactly when loading throws, with that exception and the loaded state. Otherwise it returns the loaded pagelets, or an empty array when loading left none, and records them. With a provider it returns the current pagelets without loading |
| ComposerContent.GetContentAlwaysReloads | modules/weblounge-taglib/src/main/java/ch/entwine/weblounge/taglib/ComposerTagSupport.java:423-424 | a second call reloads and sees a changed site, because the provider is never recorded |
| ComposerContent.GetTargetPage | modules/weblounge-taglib/src/main/java/ch/entwine/weblounge/taglib/ComposerTagSupport.java:385-391 | an initialised composer answers its target page without loading. Otherwise the composer becomes the loaded state, and the call fails exactly when loading throws, with that exception. An offline repository throws RepositoryUnavailable |
| ComposerContent.GetContentProvider | modules/weblounge-taglib/src/main/java/ch/entwine/weblounge/taglib/ComposerTagSupport.java:398-407 | the answer is always the recorded provider. An uninitialised composer becomes the loaded state, with loading errors swallowed; an initialised one is unchanged |
| ComposerContent.InheritedContentHasNoProvider | modules/weblounge-taglib/src/main/java/ch/entwine/weblounge/taglib/ComposerTagSupport.java:325 | content inherited from "/" is loaded, yet the provider stays null |
| ComposerRendering.PageletBody | modules/weblounge-taglib/src/main/java/ch/entwine/weblounge/taglib/ComposerTagSupport.java:633-686 | the state becomes InsidePagelet exactly when the pagelet opens, and it renders exactly when it opens and the action does not skip |
| ComposerRendering.DoPagelet | modules/weblounge-taglib/src/main/java/ch/entwine/weblounge/taglib/ComposerTagSupport.java:566-715 | `afterPagelet` runs exactly when the pagelet opened. An escaping `afterPagelet` leaves InsidePagelet unless repaired. Rendering implies `afterPagelet` |
| ComposerRendering.RunPagelets | modules/weblounge-taglib/src/main/java/ch/entwine/weblounge/taglib/ComposerTagSupport.java:509-517 | the loop never calls the composer callbacks, and ends InsideComposer unless an `afterPagelet` escapes |
| ComposerRendering.EndTag | modules/weblounge-taglib/src/main/java/ch/entwine/weblounge/taglib/ComposerTagSupport.java:451-552 | the end tag always starts with `beforeComposer`, ends with `afterComposer` when it runs, never escapes, and invalidates output when `beforeComposer` fails |
| ComposerRendering.ComposerBracket | modules/weblounge-taglib/src/main/java/ch/entwine/weblounge/taglib/ComposerTagSupport.java:451-552 | with contained pagelets, rendering from Outside ends Outside, and `afterComposer` runs exactly when `beforeComposer` succeeded |
| ComposerRendering.EscapeSkipsAfterComposer | modules/weblounge-taglib/src/main/java/ch/entwine/weblounge/taglib/ComposerTagSupport.java:692-704 | an `afterPagelet` that throws IOException leaves InsidePagelet, so the finally of `doEndTag` skips `afterComposer` |
| ComposerRendering.ComposerBracketRepaired | modules/weblounge-taglib/src/main/java/ch/entwine/weblounge/taglib/ComposerTagSupport.java:519-526 | when the pagelet finally always restores InsideComposer, `afterComposer` runs exactly when `beforeComposer` succeeded |
| ComposerRendering.PageletBracket | modules/weblounge-taglib/src/main/java/ch/entwine/weblounge/taglib/ComposerTagSupport.java:636-704 | within the loop, pagelet i gets its `afterPagelet` exactly when it opened |
| ComposerRendering.OtherCodesRender | modules/weblounge-taglib/src/main/java/ch/entwine/weblounge/taglib/ComposerTagSupport.java:636-704 | a `beforePagelet` code other than SKIP_PAGELET renders and closes like EVAL_PAGELET |

## Left out

- Byte-level I/O of the index file: seeks, `RandomAccessFile` failures and the file length are not modelled; slots are modelled as a map.
- Concurrency: the `synchronized` methods of the URI index are treated as atomic.
- UriIndex.Delete: a negative entry is rejected with an I/O error. The source does the same when 24 plus the entry times the entry width is negative (`seek` throws); when that offset is not negative, which needs an entry width of at most 24, it writes into the header and corrupts it.
- UriIndex.Update: a negative entry gives an I/O error and the model discards any widening. The source throws the same way only when 24 plus the entry times the entry width is negative, and by then `resize` at URIIndex.java line 347 has already written the widened index; with an entry width of at most 24 the offset lands in the header and the source writes there instead.
- UriIndex.Add: the model writes the new entry into its own slot only. The source pads with zeros computed from the default identifier width 36 instead of the index's own (URIIndex.java line 280), so with a wider identifier it writes past its slot into the next one (see Findings).
- UriIndex.Update: on a free slot the source writes the path and '\n' without checking occupancy, and its `getPath` then reads that path back while `getId` still reports the slot free. The model keeps a free slot unchanged and unreadable, because its slot map has no place for a path without an identifier.
- UriIndex.Update: uses the corrected widening; the source's loop at URIIndex.java lines 345-346 has the same defect as `add` (see Findings). With a zero path width that loop never ends; the model then skips widening.
- UpdatePreservesValid: holds for the corrected zero fill only. The as-written fill at URIIndex.java lines 356-358 writes a long per byte of the entry like `delete`'s, and it zeroes the slots after the updated one (see Findings).
- UriIndex.Size: models `size()` with the entry width set by `init` and `resize`. After reopening an existing file the source's entry width comes from the default identifier width, which the model does not track.
- UriIndex.Resize: widening the identifier field while entries exist keeps the stored entries as they are; the source copies each old slot unchanged and pads its end, which shifts the path fields. The byte layout is not modelled.
- UriIndex.Add: a zero path width gives IllegalState. In the source a non-empty path then makes the doubling loop at URIIndex.java lines 251-252 run forever, while an empty path resizes the field to width 0 and writes its '\n' past it. Integer overflow of the doubled width is not modelled.
- UriIndex.GetId: a negative entry is modelled as an I/O error. The source seeks to 24 plus the entry times the entry width, which is inside the header when that width is at most 24, and then returns header bytes as the identifier.
- UriIndex.GetPath: a negative entry is modelled as an I/O error; as with `getId`, the source reads header bytes when the entry width is at most 24.
- UriIndex.Add: identifier and path lengths are counted in characters. The source counts bytes in the platform charset (`getBytes()` at URIIndex.java lines 238 and 244), so a 36-character identifier holding a non-ASCII character throws IllegalArgumentException under UTF-8 but is accepted by the model; the path widening differs in the same way.
- UriIndex.FillOverrunsSlot: states only the number of bytes the fill writes, not which later slots it destroys.
- ContentRepository.ListPages: the level contract cannot tell an explicit Integer.MAX_VALUE from the default, because the two give the same request.
- JavaStrings.Lower: lower-cases ASCII letters only; Unicode case mapping is not modelled.
- JavaNumbers.ParseLong: accepts ASCII digits only; Java also accepts other Unicode digits.
- The Windows path separator: the model uses '/'.
- getMimeType of the movie serializer: a plain accessor.
- loadPage, loadPageURI, index(), storeResource, storeResourceContent and loadIndex: disk and serialiser I/O. They appear only as `Result` parameters.
- The pruning loop of deleteResource: directory I/O.
- The file system repository's connect: disk set-up.
- The live and work version numbers: kept as parameters (`Markers`), because their values are defined outside this model.
- doEndTag and doPagelet: writer flush failures, HTML output, caching tags and actions beyond their skip flags are not modelled.
- Whether the composer tag is reset between uses: `reset` is modelled only as the initial state `Fresh`.

## Findings

| source | as written | input that shows it | evidently intended | confidence | as-written member | corrected member |
|---|---|---|---|---|---|---|
| src/main/java/ch/o2it/weblounge/contentrepository/impl/index/URIIndex.java:262-263 | the reuse scan compares a two-byte `readChar` with '\n', but a free slot starts with '\n', 0 | add "a", add "b", delete slot 0, add "c": "c" overwrites "b" in slot 1 | reuse the first free slot | not executed | UriIndex.AddAsWrittenOverwritesLiveEntry | UriIndex.AddPreservesValid |
| src/main/java/ch/o2it/weblounge/contentrepository/impl/index/URIIndex.java:251 | the width doubles while it is below the path length | a 256-byte path in a 128-byte field gets a 256-byte field with no room for '\n' | the field must hold the path and its terminator | not executed | UriIndex.AddWithUnterminatedPath | UriIndex.AddThenRead |
| src/main/java/ch/o2it/weblounge/contentrepository/impl/index/URIIndex.java:511 | the resize copy loop runs `entries` times, not `slots` times | one entry in slot 1 after slot 0 was freed; resize drops it | copy every slot | not executed | UriIndex.ResizeAsWrittenDropsEntry | UriIndex.ResizePreservesValid |
| src/main/java/ch/o2it/weblounge/contentrepository/impl/index/URIIndex.java:315-317 | the zero fill writes a long per byte of the entry | any entry wider than one byte | fill the rest of the slot with zeros | not executed | UriIndex.FillOverrunsSlot | UriIndex.DeletePreservesValid |
| src/main/java/ch/o2it/weblounge/contentrepository/impl/index/URIIndex.java:171-172 | the constructor reads the path width at offset 0 and the entry count at offset 4 | a default index (36, 128, 0, 0) reopens with path width 36 and 549755813888 entries | read each field at its header offset | not executed | UriIndexHeader.MisreadDefaultIndex | UriIndexHeader.HeaderRoundTrip |
| src/main/java/ch/o2it/weblounge/contentrepository/impl/index/URIIndex.java:356-358 | `update`'s zero fill also writes a long per byte of the entry | updating any entry wider than one byte | fill the rest of the slot with zeros | not executed | UriIndex.FillLengthAsWritten | UriIndex.UpdatePreservesValid |
| src/main/java/ch/o2it/weblounge/contentrepository/impl/index/URIIndex.java:280 | `add` pads with `bytesPerEntry - 36 - pathLength - 1` zeros, using the default identifier width 36 instead of `bytesPerId` | an index with 40-byte identifiers, slots 0 to 20 live, slots 0 and 1 deleted, then an add: it writes at slot 19 and zeroes the first 4 bytes of slot 20's identifier | pad to the end of the entry's own slot | not executed | UriIndex.AddOverrunsSlot | UriIndex.AddKeepsOtherSlots |
| src/main/java/ch/o2it/weblounge/contentrepository/impl/fs/FileSystemContentRepository.java:417 | `uriToDirectory` appends the URI's own identifier, not the one found in the index | a URI with type and no identifier, whose identifier the index knows | use the resolved identifier as `uriToFile` does | not executed | FileSystemRepository.IndexedUriHasNoDirectoryAsWritten | FileSystemRepository.FileInDirectory |
| modules/weblounge-taglib/src/main/java/ch/entwine/weblounge/taglib/ComposerTagSupport.java:692-704 | the pagelet finally restores InsideComposer only after `afterPagelet` returns normally | `afterPagelet` throws IOException: `doEndTag` skips `afterComposer` | restore the state whatever `afterPagelet` does | not executed | ComposerRendering.EscapeSkipsAfterComposer | ComposerRendering.ComposerBracketRepaired |
| src/main/java/ch/o2it/weblounge/contentrepository/impl/fs/FileSystemContentRepository.java:381 | `uriToContentFile` asks the as-written `uriToDirectory` | a URI with type and no identifier, whose identifier the index knows | find the content in the resolved resource directory | not executed | FileSystemRepository.IndexedUriHasNoContentFileAsWritten | FileSystemRepository.UriToContentFile |

=== FILE: composer_content.dfy ===
/**
 * How a composer finds its content (class ComposerTagSupport, method
 * `loadContent`): the pagelets of the target page, or, with content
 * inheritance on, those of the nearest ancestor page that has any.
 *
 * The content repository enters as a lookup from page paths to what
 * `get` answers for them.
 */
module ComposerContent {
  import opened JavaErrors
  import opened JavaStrings

  /** A pagelet: the module and the renderer that draw it. */
  datatype Pagelet = Pagelet(moduleId: string, rendererId: string)

  /** A page and its pagelets in this composer. */
  datatype Page = Page(path: string, pagelets: seq<Pagelet>)

  /**
   * What the repository answers for a page path: the page's pagelets in
   * this composer, no page (null), a SecurityException, or a
   * ContentRepositoryException.
   */
  datatype Lookup = Found(pagelets: seq<Pagelet>) | Missing | Denied | Failing

  /** The pages of a site; a path without an entry has no page. */
  type Site = map<string, Lookup>

  function Fetch(site: Site, path: string): Lookup {
    if path in site then site[path] else Missing
  }

  // ---------------------------------------------------------------------
  // The parent walk

  /**
   * One step up the page tree: drop a trailing '/' (unless the path is
   * "/"), then cut at the last '/'; the empty result is the root "/". A
   * path without '/' has no parent (None).
   */
  function ParentStep(path: string): (r: Option<string>)
    ensures '/' !in path ==> r.None?
    ensures r.Some? ==> r.value != "" && StartsWith(path, r.value)
    ensures r.Some? && |path| > 1 ==> |r.value| < |path|
  {
    var trimmed := if EndsWith(path, "/") && path != "/" then path[..|path| - 1] else path;
    assert trimmed == path[..|trimmed|];
    var k := LastIndexOf(trimmed, '/');
    if k < 0 then None
    else if k == 0 then
      assert path[..1] == "/";
      Some("/")
    else
      assert trimmed[..k] == path[..k];
      Some(trimmed[..k])
  }

  /** The root is its own parent, which is why the walk stops at length 1. */
  lemma RootIsOwnParent()
    ensures ParentStep("/") == Some("/")
  {
    assert LastIndexOf("/", '/') == 0;
  }

  /** Examples: a trailing '/' is ignored and a top-level page's parent is the root. */
  lemma ParentStepExamples()
    ensures ParentStep("/a/b/") == Some("/a")
    ensures ParentStep("/a") == Some("/")
    ensures ParentStep("a/") == None
  {
    assert "/a/b/"[..4] == "/a/b";
    assert LastIndexOf("/a/b", '/') == 2;
    assert "/a/b"[..2] == "/a";
    assert LastIndexOf("/a", '/') == 0;
    assert "a/"[..1] == "a";
    assert LastIndexOf("a", '/') == -1;
  }

  /** How the walk ends. */
  datatype WalkEnd =
    | Settled(content: seq<Pagelet>)   // the loop ran out; this is the content
    | ParentMissing(path: string)      // an ancestor has no page: `loadContent` returns
    | ParentFailing(path: string)      // the repository failed on an ancestor

  /**
   * The loop of `loadContent`: while the content is empty and the path is
   * longer than one character, step to the parent; a missing parent ends
   * the load, a protected parent is skipped, and a found parent supplies
   * its pagelets. A path without a parent ends the loop.
   */
  function Walk(site: Site, path: string, content: seq<Pagelet>): (r: WalkEnd)
    ensures r.ParentMissing? || r.ParentFailing? ==> StartsWith(path, r.path) && |r.path| < |path|
    ensures r.ParentMissing? ==> Fetch(site, r.path) == Missing
    ensures r.ParentFailing? ==> Fetch(site, r.path) == Failing
    ensures |content| > 0 ==> r == Settled(content)
    decreases |path|
  {
    if |content| > 0 || |path| <= 1 then Settled(content)
    else match ParentStep(path)
      case None => Settled(content)
      case Some(parent) =>
        match Fetch(site, parent)
        case Missing => ParentMissing(parent)
        case Failing => ParentFailing(parent)
        case Denied => Descend(site, path, parent, content)
        case Found(pagelets) => Descend(site, path, parent, pagelets)
  }

  /** The walk continued from a parent, with the ancestor facts lifted to the child. */
  function Descend(site: Site, path: string, parent: string, content: seq<Pagelet>): (r: WalkEnd)
    requires |parent| < |path| && StartsWith(path, parent)
    ensures r == Walk(site, parent, content)
    decreases |path|, 0
  {
    var r := Walk(site, parent, content);
    if r.ParentMissing? || r.ParentFailing? then
      assert path[..|r.path|] == parent[..|r.path|];
      r
    else r
  }

  /** The ancestors the walk visits, nearest first. */
  function Ancestors(path: string): (r: seq<string>)
    ensures forall i :: 0 <= i < |r| ==> StartsWith(path, r[i]) && |r[i]| < |path|
    ensures forall i, j :: 0 <= i < j < |r| ==> |r[j]| < |r[i]|
    decreases |path|
  {
    if |path| <= 1 then []
    else match ParentStep(path)
      case None => []
      case Some(parent) =>
        var rest := Ancestors(parent);
        forall i | 0 <= i < |rest|
          ensures StartsWith(path, rest[i])
        {
          PrefixOfPrefix(path, parent, rest[i]);
        }
        [parent] + rest
  }

  lemma PrefixOfPrefix(a: string, b: string, c: string)
    requires StartsWith(a, b) && StartsWith(b, c)
    ensures StartsWith(a, c)
  {
    assert a[..|c|] == b[..|c|];
  }

  /**
   * The walk as a search along the ancestors: the first ancestor that is
   * missing or failing ends it, protected ones and empty ones are passed
   * over, and the first with pagelets supplies them.
   */
  function Search(site: Site, ancestors: seq<string>): (r: WalkEnd)
    ensures r.Settled? && r.content != [] ==> exists i :: 0 <= i < |ancestors| && Fetch(site, ancestors[i]) == Found(r.content)
  {
    if ancestors == [] then Settled([])
    else match Fetch(site, ancestors[0])
      case Missing => ParentMissing(ancestors[0])
      case Failing => ParentFailing(ancestors[0])
      case Denied => Search(site, ancestors[1..])
      case Found(pagelets) =>
        if pagelets != [] then Settled(pagelets)
        else
          var r := Search(site, ancestors[1..]);
          if r.Settled? && r.content != [] then
            var i :| 0 <= i < |ancestors[1..]| && Fetch(site, ancestors[1..][i]) == Found(r.content);
            assert ancestors[i + 1] == ancestors[1..][i];
            r
          else r
  }

  /**
   * From a page without content of its own, the walk is the search along
   * its ancestors: the content comes from the nearest ancestor that has
   * any, provided no nearer one is missing or failing.
   */
  lemma {:induction false} WalkIsSearch(site: Site, path: string)
    ensures Walk(site, path, []) == Search(site, Ancestors(path))
    decreases |path|
  {
    if |path| > 1 {
      match ParentStep(path)
      case None =>
      case Some(parent) =>
        var rest := Ancestors(parent);
        assert Ancestors(path) == [parent] + rest;
        assert ([parent] + rest)[1..] == rest;
        match Fetch(site, parent)
        case Missing =>
        case Failing =>
        case Denied =>
          WalkIsSearch(site, parent);
        case Found(pagelets) =>
          if pagelets == [] {
            WalkIsSearch(site, parent);
          } else {
            assert Walk(site, parent, pagelets) == Settled(pagelets);
          }
    }
  }

  // ---------------------------------------------------------------------
  // Loading

  /** The composer fields `loadContent` writes. */
  datatype Composer = Composer(
    targetPage: Option<Page>,
    pagelets: Option<seq<Pagelet>>,  // null until content was found
    emptyClass: bool,                // the "empty" CSS class was added
    initialized: bool,
    contentProvider: Option<Page>)   // the field, which nothing assigns

  /** A fresh composer tag. */
  const Fresh: Composer := Composer(None, None, false, false, None)

  /** A load that may end in an exception; `initialized` is set either way. */
  datatype LoadOutcome = LoadOutcome(state: Composer, thrown: Option<Exception>)

  /**
   * `loadContent(inherit)`: the target page is the request's page, or the
   * home page "/" when the request has none (its absence, protection or
   * failure ends the load). Its pagelets, or with inheritance the walk's,
   * become the composer's; empty content gives an empty composer with the
   * "empty" class. A missing ancestor ends the load before the pagelets are
   * set, and a failing one throws. The walk's provider is a local variable
   * that shadows the field, so the field stays null.
   */
  function LoadContent(c: Composer, site: Site, available: bool, requestPage: Option<Page>, inherit: bool)
    : (r: LoadOutcome)
    ensures r.state.initialized
    ensures r.state.contentProvider == c.contentProvider
    ensures !available ==> r.thrown == Some(RepositoryUnavailable) && r.state == c.(initialized := true)
    ensures r.thrown.Some? ==> r.state.pagelets == c.pagelets
    ensures r.state.pagelets != c.pagelets ==> r.state.pagelets.Some?
    ensures r.state.pagelets == Some([]) && c.pagelets != Some([]) ==> r.state.emptyClass
    ensures available && requestPage.Some? && (!inherit || requestPage.value.pagelets != []) ==>
      r == LoadOutcome(c.(targetPage := requestPage, pagelets := Some(requestPage.value.pagelets),
                          emptyClass := c.emptyClass || requestPage.value.pagelets == [],
                          initialized := true), None)
    ensures available && requestPage.Some? ==> r.state.targetPage == requestPage
    ensures available && requestPage.None? ==>
      r.state.targetPage == (if Fetch(site, "/").Found? then Some(Page("/", Fetch(site, "/").pagelets)) else None)
    ensures available && requestPage.None? && !Fetch(site, "/").Found? ==>
      r == LoadOutcome(c.(targetPage := None, initialized := true), None)
    ensures r.thrown.Some? ==> r.thrown == Some(RepositoryUnavailable) || r.thrown == Some(RepositoryFailure)
  {
    var done := c.(initialized := true);
    if !available then LoadOutcome(done, Some(RepositoryUnavailable))
    else
      var target :=
        if requestPage.Some? then requestPage
        else match Fetch(site, "/")
          case Found(pagelets) => Some(Page("/", pagelets))
          case _ => None;
      if target.None? then LoadOutcome(done.(targetPage := None), None)
      else
        var found := done.(targetPage := target);
        var own := target.value.pagelets;
        var end := if inherit then Walk(site, target.value.path, own) else Settled(own);
        match end
        case ParentMissing(_) => LoadOutcome(found, None)
        case ParentFailing(_) => LoadOutcome(found, Some(RepositoryFailure))
        case Settled(content) =>
          if content != [] then LoadOutcome(found.(pagelets := Some(content)), None)
          else LoadOutcome(found.(pagelets := Some([]), emptyClass := true), None)
  }

  /**
   * With inheritance, a page without pagelets of its own takes those of
   * its nearest ancestor that has any, as long as no nearer ancestor is
   * missing or failing.
   */
  lemma InheritsNearestContent(c: Composer, site: Site, page: Page)
    requires page.pagelets == []
    requires Search(site, Ancestors(page.path)).Settled?
    ensures var r := LoadContent(c, site, true, Some(page), true);
      && r.thrown.None?
      && r.state.pagelets == Some(Search(site, Ancestors(page.path)).content)
      && (r.state.pagelets == Some([]) ==> r.state.emptyClass)
  {
    WalkIsSearch(site, page.path);
  }

  /**
   * A missing ancestor ends the load with the composer initialized but
   * without pagelets, and no "empty" class is added.
   */
  lemma MissingAncestorLeavesNoPagelets(site: Site, page: Page)
    requires page.pagelets == []
    requires Search(site, Ancestors(page.path)).ParentMissing?
    ensures var r := LoadContent(Fresh, site, true, Some(page), true);
      r.state.initialized && r.state.pagelets.None? && !r.state.emptyClass && r.thrown.None?
  {
    WalkIsSearch(site, page.path);
  }

  /**
   * A failing ancestor, reached before any ancestor supplies content,
   * makes the load throw the repository's exception, after the target page
   * was set and before the pagelets are.
   */
  lemma FailingAncestorThrows(c: Composer, site: Site, page: Page)
    requires page.pagelets == []
    requires Search(site, Ancestors(page.path)).ParentFailing?
    ensures var r := LoadContent(c, site, true, Some(page), true);
      && r.thrown == Some(RepositoryFailure)
      && r.state == c.(targetPage := Some(page), initialized := true)
  {
    WalkIsSearch(site, page.path);
  }

  /**
   * Without a page in the request the home page "/" is the target; with
   * inheritance its content is never searched for above it, because the
   * walk stops at a path of length one.
   */
  lemma HomePageFallback(c: Composer, site: Site, pagelets: seq<Pagelet>)
    requires Fetch(site, "/") == Found(pagelets)
    ensures var r := LoadContent(c, site, true, None, true);
      && r.thrown.None?
      && r.state.targetPage == Some(Page("/", pagelets))
      && r.state.pagelets == Some(pagelets)
      && r.state.emptyClass == (c.emptyClass || pagelets == [])
  {
  }

  /**
   * `getContent()`: loads the content whenever the content provider field
   * is null, which it always is, so every call reloads even after
   * `initialized` was set; a null pagelet array is then replaced by an
   * empty one.
   */
  function GetContent(c: Composer, site: Site, available: bool, requestPage: Option<Page>, inherit: bool)
    : (r: (Composer, Result<seq<Pagelet>>))
    ensures r.1.Ok? ==> r.0.pagelets == Some(r.1.value)
    ensures c.contentProvider.None? ==>
      (r.1.Err? <==> LoadContent(c, site, available, requestPage, inherit).thrown.Some?)
    ensures c.contentProvider.None? ==>
      var loaded := LoadContent(c, site, available, requestPage, inherit);
      && (r.1.Err? ==> r.0 == loaded.state && r.1.error == loaded.thrown.value)
      && (r.1.Ok? ==> r.1.value == (if loaded.state.pagelets.None? then [] else loaded.state.pagelets.value))
    ensures c.contentProvider.Some? ==> r.1 == Ok(if c.pagelets.None? then [] else c.pagelets.value)
  {
    var loaded :=
      if c.contentProvider.None? then LoadContent(c, site, available, requestPage, inherit)
      else LoadOutcome(c, None);
    if loaded.thrown.Some? then (loaded.state, Err(loaded.thrown.value))
    else
      var pagelets := if loaded.state.pagelets.None? then [] else loaded.state.pagelets.value;
      (loaded.state.(pagelets := Some(pagelets)), Ok(pagelets))
  }

  /**
   * Starting from a fresh tag the provider field is never set, so the
   * `initialized` flag does not spare a second `getContent` its reload:
   * the second call sees the repository as it is then.
   */
  lemma GetContentAlwaysReloads(site1: Site, site2: Site, available: bool, page: Page)
    requires page.pagelets == [] && page.path == "/a"
    requires Fetch(site1, "/") == Found([Pagelet("m", "r")])
    requires Fetch(site2, "/") == Found([])
    ensures var (c1, r1) := GetContent(Fresh, site1, true, Some(page), true);
      && c1.initialized && c1.contentProvider.None?
      && r1 == Ok([Pagelet("m", "r")])
      && GetContent(c1, site2, true, Some(page), true).1 == Ok([])
  {
    assert ParentStep("/a") == Some("/") by {
      assert LastIndexOf("/a", '/') == 0;
    }
    assert Walk(site1, "/a", []) == Settled([Pagelet("m", "r")]);
    assert Walk(site2, "/a", []) == Walk(site2, "/", []);
  }

  /**
   * `getTargetPage()`: loads the content once, unless the composer is
   * initialized, and answers the target page; an exception of the load
   * propagates.
   */
  function GetTargetPage(c: Composer, site: Site, available: bool, requestPage: Option<Page>, inherit: bool)
    : (r: (Composer, Result<Option<Page>>))
    ensures c.initialized ==> r == (c, Ok(c.targetPage))
    ensures r.0.initialized
    ensures r.1.Ok? ==> r.1.value == r.0.targetPage
    ensures !c.initialized && !available ==> r.1 == Err(RepositoryUnavailable)
    ensures !c.initialized ==>
      var loaded := LoadContent(c, site, available, requestPage, inherit);
      && r.0 == loaded.state
      && (r.1.Err? <==> loaded.thrown.Some?)
      && (r.1.Err? ==> r.1.error == loaded.thrown.value)
  {
    if c.initialized then (c, Ok(c.targetPage))
    else
      var loaded := LoadContent(c, site, available, requestPage, inherit);
      if loaded.thrown.Some? then (loaded.state, Err(loaded.thrown.value))
      else (loaded.state, Ok(loaded.state.targetPage))
  }

  /**
   * `getContentProvider()`: loads the content once, unless the composer is
   * initialized, swallowing any exception, and answers the provider field.
   */
  function GetContentProvider(c: Composer, site: Site, available: bool, requestPage: Option<Page>, inherit: bool)
    : (r: (Composer, Option<Page>))
    ensures r.0.initialized
    ensures r.1 == c.contentProvider
    ensures !c.initialized ==> r.0 == LoadContent(c, site, available, requestPage, inherit).state
    ensures c.initialized ==> r.0 == c
  {
    var state := if c.initialized then c else LoadContent(c, site, available, requestPage, inherit).state;
    (state, state.contentProvider)
  }

  /**
   * A page that inherits its pagelets from its parent still has no
   * content provider: the walk's provider never reaches the field.
   */
  lemma InheritedContentHasNoProvider(site: Site, pagelets: seq<Pagelet>)
    requires pagelets != [] && Fetch(site, "/") == Found(pagelets)
    ensures var loaded := LoadContent(Fresh, site, true, Some(Page("/a", [])), true).state;
      && loaded.pagelets == Some(pagelets)
      && GetContentProvider(Fresh, site, true, Some(Page("/a", [])), true).1.None?
  {
    assert ParentStep("/a") == Some("/") by {
      assert LastIndexOf("/a", '/') == 0;
    }
  }
}

=== FILE: composer_rendering.dfy ===
/**
 * The rendering-state bracket of a composer tag (class
 * ComposerTagSupport, methods `doEndTag` and `doPagelet`): every composer
 * that was opened with `beforeComposer` is to be closed with
 * `afterComposer`, and every pagelet opened past `beforePagelet` with
 * `afterPagelet`, the field `renderingState` recording which is open.
 *
 * The callbacks, the action handler and the renderers are outside the
 * model; a script says what each of them does, and a run records which
 * callbacks were entered.
 */
module ComposerRendering {

  datatype RenderingState = Outside | InsideComposer | InsidePagelet

  /** What `beforePagelet` may return. */
  const EVAL_PAGELET := 0
  const SKIP_PAGELET := 1

  /** `beforePagelet`: returns a code or throws. */
  datatype Call = Returns(code: int) | Throws

  /**
   * `afterPagelet`: returns, throws one of the two repository exceptions
   * `doPagelet` catches, or throws anything else (an IOException or an
   * unchecked exception), which escapes `doPagelet`.
   */
  datatype Closing = Closes | RepositoryError | Escapes

  /**
   * One pagelet: whether its module and renderer are installed, what
   * `beforePagelet` does, whether the action's `startPagelet` skips it,
   * whether rendering throws, and what `afterPagelet` does.
   */
  datatype PageletScript = PageletScript(
    installed: bool, before: Call, actionSkips: bool, renderFails: bool, after: Closing)

  /**
   * One composer: whether `beforeComposer` returns, whether `getContent`
   * returns, whether the action's `startStage` or `startComposer` skips
   * the composer, its pagelets, and whether `afterComposer` returns.
   */
  datatype ComposerScript = ComposerScript(
    beforeOk: bool, contentOk: bool, actionSkips: bool, pagelets: seq<PageletScript>, afterOk: bool)

  /** The callbacks a run enters, in order. */
  datatype Event =
    | BeforeComposer
    | AfterComposer
    | BeforePagelet(position: nat)
    | Render(position: nat)
    | AfterPagelet(position: nat)

  /**
   * The end of a run: the rendering state, the callbacks entered, whether
   * the response was invalidated, and whether an exception escaped.
   */
  datatype Run = Run(state: RenderingState, trace: seq<Event>, invalidated: bool, escaped: bool)

  /** Whether `doPagelet` opens the pagelet: installed, and not skipped by `beforePagelet`. */
  predicate Opens(p: PageletScript) {
    p.installed && p.before.Returns? && p.before.code != SKIP_PAGELET
  }

  /**
   * The try block of `doPagelet`: the state and the callbacks entered when
   * it ends, and whether it ended by throwing (the catch then invalidates
   * the response).
   */
  function PageletBody(state: RenderingState, position: nat, p: PageletScript)
    : (r: (RenderingState, seq<Event>, bool))
    ensures r.0 == InsidePagelet <==> state == InsidePagelet || Opens(p)
    ensures Render(position) in r.1 <==> Opens(p) && !p.actionSkips
    ensures AfterPagelet(position) !in r.1
  {
    if !p.installed then (state, [], false)
    else match p.before
      case Throws => (state, [BeforePagelet(position)], true)
      case Returns(code) =>
        if code == SKIP_PAGELET then (state, [BeforePagelet(position)], false)
        else if p.actionSkips then (InsidePagelet, [BeforePagelet(position)], false)
        else (InsidePagelet, [BeforePagelet(position), Render(position)], p.renderFails)
  }

  /**
   * `doPagelet`: the try block, then the finally block, which closes the
   * pagelet when the state is InsidePagelet. As written, the state goes
   * back to InsideComposer only when `afterPagelet` returns or throws a
   * repository exception; with `repaired` it goes back in every case.
   */
  function DoPagelet(state: RenderingState, position: nat, p: PageletScript, repaired: bool): (r: Run)
    ensures state == InsideComposer ==>
      (AfterPagelet(position) in r.trace <==> Opens(p))
    ensures r.escaped <==> AfterPagelet(position) in r.trace && p.after == Escapes
    ensures state == InsideComposer && !r.escaped ==> r.state == InsideComposer
    ensures r.escaped ==> (r.state == InsidePagelet <==> !repaired)
    ensures repaired && state != Outside ==> r.state == InsideComposer
    ensures Render(position) in r.trace ==> AfterPagelet(position) in r.trace
    ensures BeforeComposer !in r.trace && AfterComposer !in r.trace
  {
    var (inner, trace, thrown) := PageletBody(state, position, p);
    if inner != InsidePagelet then Run(inner, trace, thrown, false)
    else
      var closed := trace + [AfterPagelet(position)];
      match p.after
      case Closes => Run(InsideComposer, closed, thrown, false)
      case RepositoryError => Run(InsideComposer, closed, true, false)
      case Escapes => Run(if repaired then InsideComposer else InsidePagelet, closed, thrown, true)
  }

  /** No pagelet's `afterPagelet` throws anything `doPagelet` does not catch. */
  predicate Contained(ps: seq<PageletScript>) {
    forall i :: 0 <= i < |ps| ==> ps[i].after != Escapes
  }

  /** The pagelet loop of `doEndTag`; an exception out of `doPagelet` ends it. */
  function RunPagelets(state: RenderingState, position: nat, ps: seq<PageletScript>, repaired: bool): (r: Run)
    ensures BeforeComposer !in r.trace && AfterComposer !in r.trace
    ensures state == InsideComposer && !r.escaped ==> r.state == InsideComposer
    ensures state == InsideComposer && r.escaped ==> (r.state == InsidePagelet <==> !repaired)
    ensures repaired && state == InsideComposer ==> r.state == InsideComposer
    ensures Contained(ps) ==> !r.escaped
    decreases |ps|
  {
    if ps == [] then Run(state, [], false, false)
    else
      var first := DoPagelet(state, position, ps[0], repaired);
      if first.escaped then first
      else
        var rest := RunPagelets(first.state, position + 1, ps[1..], repaired);
        assert Contained(ps) ==> Contained(ps[1..]);
        Run(rest.state, first.trace + rest.trace, first.invalidated || rest.invalidated, rest.escaped)
  }

  /**
   * `doEndTag`: open the composer, load its content, let the action skip
   * it, render the pagelets; then the finally block closes the composer
   * when the state is InsideComposer. Every exception is caught and
   * invalidates the response, so none escapes.
   */
  function EndTag(state: RenderingState, s: ComposerScript, repaired: bool): (r: Run)
    ensures !r.escaped
    ensures r.trace != [] && r.trace[0] == BeforeComposer
    ensures AfterComposer in r.trace ==> r.trace[|r.trace| - 1] == AfterComposer
    ensures !s.beforeOk ==> r.invalidated
  {
    var (inner, trace, thrown, invalidated) :=
      if !s.beforeOk then (state, [BeforeComposer], true, false)
      else if !s.contentOk then (InsideComposer, [BeforeComposer], true, false)
      else if s.actionSkips then (InsideComposer, [BeforeComposer], false, false)
      else
        var loop := RunPagelets(InsideComposer, 0, s.pagelets, repaired);
        (loop.state, [BeforeComposer] + loop.trace, loop.escaped, loop.invalidated);
    if inner == InsideComposer then
      Run(if s.afterOk then Outside else InsideComposer, trace + [AfterComposer],
          invalidated || thrown || !s.afterOk, false)
    else Run(inner, trace, invalidated || thrown, false)
  }

  /**
   * As written, starting outside: when no `afterPagelet` exception escapes
   * and `afterComposer` returns, the composer is closed exactly when it was
   * opened, and the tag ends outside again.
   */
  lemma ComposerBracket(s: ComposerScript)
    requires Contained(s.pagelets) && s.afterOk
    ensures var r := EndTag(Outside, s, false);
      && r.state == Outside
      && (AfterComposer in r.trace <==> s.beforeOk)
  {
    var loop := RunPagelets(InsideComposer, 0, s.pagelets, false);
    assert !loop.escaped;
  }

  /**
   * As written: an `afterPagelet` that throws an IOException leaves the
   * state InsidePagelet, so the composer opened by `beforeComposer` is never
   * closed and the tag stays InsidePagelet.
   */
  lemma EscapeSkipsAfterComposer()
    ensures var p := PageletScript(true, Returns(EVAL_PAGELET), false, false, Escapes);
      var r := EndTag(Outside, ComposerScript(true, true, false, [p], true), false);
      && r.trace == [BeforeComposer, BeforePagelet(0), Render(0), AfterPagelet(0)]
      && AfterComposer !in r.trace
      && r.state == InsidePagelet
  {
    var p := PageletScript(true, Returns(EVAL_PAGELET), false, false, Escapes);
    assert RunPagelets(InsideComposer, 0, [p], false) == DoPagelet(InsideComposer, 0, p, false);
  }

  /**
   * With the state put back to InsideComposer whatever `afterPagelet`
   * throws, every opened composer is closed and a tag starting outside
   * ends outside whenever `afterComposer` returns.
   */
  lemma ComposerBracketRepaired(s: ComposerScript)
    ensures var r := EndTag(Outside, s, true);
      && (AfterComposer in r.trace <==> s.beforeOk)
      && (s.afterOk ==> r.state == Outside)
  {
    var loop := RunPagelets(InsideComposer, 0, s.pagelets, true);
    assert loop.state == InsideComposer;
  }

  /**
   * Within a contained run, a pagelet is closed exactly when it is opened:
   * installed and given any code other than SKIP_PAGELET by
   * `beforePagelet`, EVAL_PAGELET or not.
   */
  lemma {:induction false} PageletBracket(ps: seq<PageletScript>, position: nat, i: nat, repaired: bool)
    requires Contained(ps) && i < |ps|
    ensures AfterPagelet(position + i) in RunPagelets(InsideComposer, position, ps, repaired).trace
      <==> Opens(ps[i])
    decreases |ps|
  {
    if i == 0 {
      FirstPageletBracket(ps, position, repaired);
    } else {
      assert ps[1..][i - 1] == ps[i];
      assert Contained(ps[1..]) by {
        forall j | 0 <= j < |ps[1..]| ensures ps[1..][j].after != Escapes {
          assert ps[1..][j] == ps[j + 1];
        }
      }
      var e := AfterPagelet(position + i);
      assert e == AfterPagelet(position + 1 + (i - 1));
      var a := DoPagelet(InsideComposer, position, ps[0], repaired).trace;
      var b := RunPagelets(InsideComposer, position + 1, ps[1..], repaired).trace;
      PageletBracket(ps[1..], position + 1, i - 1, repaired);
      assert e in b <==> Opens(ps[i]);
      LoopStep(ps, position, repaired);
      PageletEventsAt(InsideComposer, position, ps[0], repaired, position + i);
      InConcat(a, b, e);
    }
  }

  lemma InConcat(a: seq<Event>, b: seq<Event>, e: Event)
    requires e !in a
    ensures e in a + b <==> e in b
  {
  }

  /** The first pagelet of a contained loop is closed exactly when it is opened. */
  lemma FirstPageletBracket(ps: seq<PageletScript>, position: nat, repaired: bool)
    requires ps != [] && ps[0].after != Escapes
    ensures AfterPagelet(position) in RunPagelets(InsideComposer, position, ps, repaired).trace
      <==> Opens(ps[0])
  {
    var first := DoPagelet(InsideComposer, position, ps[0], repaired);
    var rest := RunPagelets(InsideComposer, position + 1, ps[1..], repaired);
    LoopStep(ps, position, repaired);
    AfterPageletsFrom(ps[1..], position + 1, position, repaired);
    assert AfterPagelet(position) !in rest.trace;
  }

  /** One turn of a contained loop: the first pagelet, then the rest from InsideComposer. */
  lemma LoopStep(ps: seq<PageletScript>, position: nat, repaired: bool)
    requires ps != [] && ps[0].after != Escapes
    ensures RunPagelets(InsideComposer, position, ps, repaired).trace
      == DoPagelet(InsideComposer, position, ps[0], repaired).trace
         + RunPagelets(InsideComposer, position + 1, ps[1..], repaired).trace
  {
    var first := DoPagelet(InsideComposer, position, ps[0], repaired);
    assert !first.escaped && first.state == InsideComposer;
  }

  /** A single pagelet's events carry its own position. */
  lemma PageletEventsAt(state: RenderingState, position: nat, p: PageletScript, repaired: bool, other: nat)
    requires other != position
    ensures AfterPagelet(other) !in DoPagelet(state, position, p, repaired).trace
  {
  }

  /** The loop's events carry positions from its first position on. */
  lemma {:induction false} AfterPageletsFrom(ps: seq<PageletScript>, position: nat, before: nat, repaired: bool)
    requires before < position
    ensures forall state :: AfterPagelet(before) !in RunPagelets(state, position, ps, repaired).trace
    decreases |ps|
  {
    forall state: RenderingState
      ensures AfterPagelet(before) !in RunPagelets(state, position, ps, repaired).trace
    {
      if ps != [] {
        var first := DoPagelet(state, position, ps[0], repaired);
        PageletEventsAt(state, position, ps[0], repaired, before);
        if !first.escaped {
          AfterPageletsFrom(ps[1..], position + 1, before, repaired);
        }
      }
    }
  }

  /** A code other than EVAL_PAGELET or SKIP_PAGELET still renders and closes the pagelet. */
  lemma OtherCodesRender()
    ensures var p := PageletScript(true, Returns(2), false, false, Closes);
      DoPagelet(InsideComposer, 0, p, false)
        == Run(InsideComposer, [BeforePagelet(0), Render(0), AfterPagelet(0)], false, false)
  {
  }
}

=== FILE: content_repository.dfy ===
/**
 * The content repository base class (class AbstractContentRepository):
 * the connection state machine, the guards in front of the index queries,
 * the repository URI, and the mapping of resource identifiers to bucketed
 * directories.
 *
 * The index itself is another component; its answers enter the functions
 * here as parameters.
 */
module ContentRepository {
  import opened JavaErrors
  import opened JavaNumbers
  import opened JavaStrings

  /** `File.separatorChar` on a Unix-like platform. */
  const SEP: char := '/'

  /** A page URI: its path, its identifier if known, and its version. */
  datatype PageUri = PageUri(path: string, id: Option<string>, version: int)

  /** The index counters the repository reports. */
  datatype IndexCounts = IndexCounts(pages: int, versions: int)

  datatype Repository = Repository(
    connected: bool,
    site: Option<string>,
    rootUri: Option<string>,
    index: Option<IndexCounts>)

  /** A state change that may end in an exception after the state has changed. */
  datatype Step = Step(state: Repository, thrown: Option<Exception>)

  /** A repository that was never connected, configured or started. */
  const Initial: Repository := Repository(false, None, None, None)

  // ---------------------------------------------------------------------
  // Connection state

  /**
   * `connect(properties)`: stores the site from the properties, then
   * refuses with IllegalStateException if there is none. The site is
   * overwritten even when the call fails, and a failing call leaves the
   * connected flag as it was.
   */
  function Connect(repo: Repository, site: Option<string>): (r: Step)
    ensures r.state.site == site
    ensures r.thrown.None? <==> site.Some?
    ensures r.thrown.Some? ==> r.thrown.value == IllegalState
    ensures r.state.connected <==> site.Some? || repo.connected
    ensures r.state.rootUri == repo.rootUri && r.state.index == repo.index
  {
    var stored := repo.(site := site);
    if site.None? then Step(stored, Some(IllegalState))
    else Step(stored.(connected := true), None)
  }

  /** `disconnect()`: clears the connected flag and nothing else. */
  function Disconnect(repo: Repository): (r: Repository)
    ensures !r.connected
    ensures r.site == repo.site && r.rootUri == repo.rootUri && r.index == repo.index
  {
    repo.(connected := false)
  }

  /**
   * Connecting a repository that is already connected without a site
   * throws but leaves it connected, with no site.
   */
  lemma FailedConnectKeepsConnection(repo: Repository)
    requires repo.connected
    ensures Connect(repo, None).state.connected && Connect(repo, None).state.site.None?
    ensures Connect(repo, None).thrown == Some(IllegalState)
  {
  }

  /**
   * `start()`: loads the index; an I/O failure becomes a repository
   * failure and leaves the previous index in place.
   */
  function Start(repo: Repository, loaded: Result<IndexCounts>): (r: Step)
    ensures loaded.Ok? ==> r == Step(repo.(index := Some(loaded.value)), None)
    ensures loaded.Err? ==> r.state == repo && r.thrown.Some?
    ensures loaded == Err(IOFailure) ==> r.thrown == Some(RepositoryFailure)
    ensures loaded.Err? && loaded.error != IOFailure ==> r.thrown == Some(loaded.error)
  {
    match loaded
    case Ok(counts) => Step(repo.(index := Some(counts)), None)
    case Err(IOFailure) => Step(repo, Some(RepositoryFailure))
    case Err(e) => Step(repo, Some(e))
  }

  /**
   * `stop()`: closes the index, which must have been loaded; an I/O
   * failure becomes a repository failure. The index is not released, so
   * the state does not change.
   */
  function Stop(repo: Repository, closeFails: bool): (r: Step)
    ensures r.state == repo
    ensures r.thrown.None? <==> repo.index.Some? && !closeFails
    ensures repo.index.None? ==> r.thrown == Some(NullPointer)
    ensures repo.index.Some? && closeFails ==> r.thrown == Some(RepositoryFailure)
  {
    if repo.index.None? then Step(repo, Some(NullPointer))
    else if closeFails then Step(repo, Some(RepositoryFailure))
    else Step(repo, None)
  }

  /**
   * A stopped repository still reports the counts of the index it closed,
   * and a connected one still forwards queries to it.
   */
  lemma StoppedIndexStillAnswers<T>(repo: Repository, counts: IndexCounts, answer: T)
    requires repo.connected
    ensures var stopped := Stop(Start(repo, Ok(counts)).state, false).state;
      && PageCount(stopped) == counts.pages
      && VersionCount(stopped) == counts.versions
      && Query(stopped, Ok(answer)) == Ok(answer)
  {
  }

  /**
   * The guard in front of `exists`, `findPages` and `getVersions`: a
   * repository that is not connected throws
   * IllegalStateException; a connected one forwards to the index, whose
   * I/O failures become repository failures. Without a loaded index the
   * forwarding dereferences null.
   */
  function Query<T>(repo: Repository, fromIndex: Result<T>): (r: Result<T>)
    ensures !repo.connected ==> r == Err(IllegalState)
    ensures repo.connected && repo.index.None? ==> r == Err(NullPointer)
    ensures r.Ok? ==> repo.connected && fromIndex.Ok? && r.value == fromIndex.value
    ensures repo.connected && repo.index.Some? && fromIndex == Err(IOFailure) ==> r == Err(RepositoryFailure)
  {
    if !repo.connected then Err(IllegalState)
    else if repo.index.None? then Err(NullPointer)
    else match fromIndex
      case Ok(v) => Ok(v)
      case Err(IOFailure) => Err(RepositoryFailure)
      case Err(e) => Err(e)
  }

  /**
   * `getPage(uri)`, with or without a user: the same connection guard, but
   * the page comes from `loadPage`, not from the index, so no index is
   * needed.
   */
  function GetPage<T>(repo: Repository, loaded: Result<T>): (r: Result<T>)
    ensures !repo.connected ==> r == Err(IllegalState)
    ensures r.Ok? <==> repo.connected && loaded.Ok?
    ensures r.Ok? ==> r.value == loaded.value
    ensures repo.connected && loaded == Err(IOFailure) ==> r == Err(RepositoryFailure)
  {
    if !repo.connected then Err(IllegalState)
    else match loaded
      case Ok(v) => Ok(v)
      case Err(IOFailure) => Err(RepositoryFailure)
      case Err(e) => Err(e)
  }

  /** Before `start`, pages load while index queries dereference null. */
  lemma PagesLoadWithoutIndex<T>(repo: Repository, site: string, page: T)
    requires repo.index.None?
    ensures var connected := Connect(repo, Some(site)).state;
      GetPage(connected, Ok(page)) == Ok(page) && Query(connected, Ok(page)) == Err(NullPointer)
  {
  }

  /** After `disconnect`, every query throws IllegalStateException. */
  lemma DisconnectedQueriesFail<T>(repo: Repository, fromIndex: Result<T>)
    ensures Query(Disconnect(repo), fromIndex) == Err(IllegalState)
  {
  }

  /** After a successful `connect` of a started repository, queries reach the index. */
  lemma ConnectedQueriesReachIndex<T>(repo: Repository, site: string, answer: T)
    requires repo.index.Some?
    ensures Query(Connect(repo, Some(site)).state, Ok(answer)) == Ok(answer)
  {
  }

  /**
   * `getVersions(uri)`: one URI per revision the index reports, in the
   * same order, each the given URI with its version replaced.
   */
  method GetVersionsOf(repo: Repository, uri: PageUri, revisions: Result<seq<int>>)
    returns (r: Result<seq<PageUri>>)
    ensures !repo.connected ==> r == Err(IllegalState)
    ensures r.Ok? <==> repo.connected && repo.index.Some? && revisions.Ok?
    ensures r.Ok? ==> |r.value| == |revisions.value|
    ensures r.Ok? ==> forall i :: 0 <= i < |r.value| ==>
      r.value[i] == uri.(version := revisions.value[i])
  {
    var checked := Query(repo, revisions);
    if checked.Err? {
      return Err(checked.error);
    }
    var revs := checked.value;
    var uris: seq<PageUri> := [];
    var i := 0;
    while i < |revs|
      invariant 0 <= i <= |revs|
      invariant |uris| == i
      invariant forall j :: 0 <= j < i ==> uris[j] == uri.(version := revs[j])
    {
      uris := uris + [uri.(version := revs[i])];
      i := i + 1;
    }
    return Ok(uris);
  }

  /** The arguments `listPages` hands to the index. */
  datatype ListRequest = ListRequest(uri: PageUri, level: int, version: int)

  /**
   * `listPages` in its four forms: the connection guard, then the request
   * handed to the index (null before `start`), where an omitted level means
   * every level (`Integer.MAX_VALUE`) and an omitted version means any
   * version (-1).
   */
  function ListPages(repo: Repository, uri: PageUri, level: Option<Int32>, version: Option<int>)
    : (r: Result<ListRequest>)
    ensures r.Ok? <==> repo.connected && repo.index.Some?
    ensures !repo.connected ==> r == Err(IllegalState)
    ensures repo.connected && repo.index.None? ==> r == Err(NullPointer)
    ensures r.Ok? ==> r.value.uri == uri
    ensures r.Ok? ==> (level.None? <==> r.value.level == INT_MAX) || level == Some(INT_MAX)
    ensures r.Ok? && level.Some? ==> r.value.level == level.value
    ensures r.Ok? && version.Some? ==> r.value.version == version.value
    ensures r.Ok? && version.None? ==> r.value.version == -1
  {
    if !repo.connected then Err(IllegalState)
    else if repo.index.None? then Err(NullPointer)
    else
      Ok(ListRequest(uri,
        match level case Some(l) => l case None => INT_MAX,
        match version case Some(v) => v case None => -1))
  }

  /** `getPages()`: the index's page count, or -1 before the index is loaded. */
  function PageCount(repo: Repository): (r: int)
    ensures repo.index.None? ==> r == -1
    ensures repo.index.Some? ==> r == repo.index.value.pages
  {
    match repo.index
    case None => -1
    case Some(counts) => counts.pages
  }

  /** `getVersions()`: the index's version count, or -1 before the index is loaded. */
  function VersionCount(repo: Repository): (r: int)
    ensures repo.index.None? ==> r == -1
    ensures repo.index.Some? ==> r == repo.index.value.versions
  {
    match repo.index
    case None => -1
    case Some(counts) => counts.versions
  }

  // ---------------------------------------------------------------------
  // Repository URI

  /**
   * `setURI(uri)`: refuses while connected, refuses null, and refuses a
   * value starting with "/"; otherwise stores it.
   */
  function SetUri(repo: Repository, uri: Option<string>): (r: Result<Repository>)
    ensures r.Ok? <==> !repo.connected && uri.Some? && !StartsWith(uri.value, "/")
    ensures repo.connected ==> r == Err(IllegalState)
    ensures !repo.connected && r.Err? ==> r.error == IllegalArgument
    ensures r.Ok? ==> r.value == repo.(rootUri := uri)
  {
    if repo.connected then Err(IllegalState)
    else if uri.None? then Err(IllegalArgument)
    else if StartsWith(uri.value, "/") then Err(IllegalArgument)
    else Ok(repo.(rootUri := uri))
  }

  /** `getURI()`: the root URI last accepted, whatever the connection state. */
  function GetUri(repo: Repository): (r: Option<string>)
    ensures r == repo.rootUri
  {
    repo.rootUri
  }

  /** A URI that was accepted is the one `getURI` returns, and connecting keeps it. */
  lemma SetThenGetUri(repo: Repository, uri: Option<string>, site: Option<string>)
    requires SetUri(repo, uri).Ok?
    ensures GetUri(SetUri(repo, uri).value) == uri
    ensures GetUri(Connect(SetUri(repo, uri).value, site).state) == uri
    ensures SetUri(Connect(SetUri(repo, uri).value, site).state, uri) ==
      (if site.Some? then Err(IllegalState) else Ok(Connect(SetUri(repo, uri).value, site).state))
  {
  }

  // ---------------------------------------------------------------------
  // Identifier buckets

  /**
   * The bucket of one identifier segment: the segment read as a
   * hexadecimal `long`, then Java's `%` by `modulus`.
   */
  function Bucket(segment: string, modulus: nat): (r: Result<int>)
    requires modulus > 0
    ensures r.Err? <==> ParseLong(Some(segment), 16).Err?
    ensures r.Err? ==> r.error == NumberFormat
    ensures r.Ok? && '-' !in segment ==> 0 <= r.value < modulus
    ensures r.Ok? ==> r.value == JavaRem(ParseLong(Some(segment), 16).value, modulus)
  {
    var v :- ParseLong(Some(segment), 16);
    Ok(JavaRem(v, modulus))
  }

  /**
   * The two buckets of an identifier: its first '-'-separated segment,
   * read as hexadecimal, modulo 100, and its second modulo 10; None when
   * there are fewer than two segments or one of them is not hexadecimal.
   */
  function BucketsOf(id: string): (r: Option<(int, int)>)
    ensures r.Some? ==> 0 <= r.value.0 < 100 && 0 <= r.value.1 < 10
  {
    var elements := Split(id, '-');
    if |elements| < 2 then None
    else if Bucket(elements[0], 100).Err? || Bucket(elements[1], 10).Err? then None
    else
      Some((Bucket(elements[0], 100).value, Bucket(elements[1], 10).value))
  }

  /** A directory of three components under the separator: "/a/b/c". */
  function Directory(a: string, b: string, c: string): string {
    [SEP] + a + [SEP] + b + [SEP] + c
  }

  /**
   * `idToDirectory(id)`: the identifier's first two '-'-separated
   * segments, read as hexadecimal, pick a bucket below 100 and a bucket
   * below 10; the directory is "/<bucket 1>/<bucket 2>/<id>". A null
   * identifier is an IllegalArgumentException; a missing segment indexes
   * past the end of the split, and a segment that is not hexadecimal
   * raises NumberFormatException.
   */
  function IdToDirectory(id: Option<string>): (r: Result<string>)
    ensures id.None? ==> r == Err(IllegalArgument)
    ensures r.Err? && id.Some? ==> r.error == NumberFormat || r.error == IndexOutOfBounds
    ensures r.Ok? ==> id.Some? && EndsWith(r.value, [SEP] + id.value)
    ensures r.Ok? ==> exists b1, b2 ::
      0 <= b1 < 100 && 0 <= b2 < 10 && r.value == Directory(LongToString(b1), LongToString(b2), id.value)
    ensures r.Ok? <==> id.Some? && BucketsOf(id.value).Some?
    ensures r.Ok? ==> var (b1, b2) := BucketsOf(id.value).value;
      r.value == Directory(LongToString(b1), LongToString(b2), id.value)
  {
    match id
    case None => Err(IllegalArgument)
    case Some(s) =>
      var elements := Split(s, '-');
      if |elements| < 1 then Err(IndexOutOfBounds)
      else
        var b1 :- Bucket(elements[0], 100);
        if |elements| < 2 then Err(IndexOutOfBounds)
        else
          var b2 :- Bucket(elements[1], 10);
          var d := Directory(LongToString(b1), LongToString(b2), s);
          assert d == ([SEP] + LongToString(b1) + [SEP] + LongToString(b2)) + ([SEP] + s);
          Ok(d)
  }

  /** The text before the first separator and the text after it. */
  function Component(s: string): (r: Option<(string, string)>)
    ensures r.None? <==> SEP !in s
    ensures r.Some? ==> SEP !in r.value.0 && s == r.value.0 + [SEP] + r.value.1
  {
    var i := IndexOf(s, SEP);
    if i < 0 then None
    else
      assert s == s[..i] + [s[i]] + s[i + 1..];
      Some((s[..i], s[i + 1..]))
  }

  /** Reading "x/rest" gives back `x` and `rest`. */
  lemma ComponentOf(x: string, rest: string)
    requires SEP !in x
    ensures Component(x + [SEP] + rest) == Some((x, rest))
  {
    var s := x + [SEP] + rest;
    IndexOfAfterPrefix(x, SEP, rest);
    assert s[..|x|] == x && s[|x| + 1..] == rest;
  }

  lemma Assemble(d: string, a: string, u: string, b: string, c: string)
    requires d != [] && d[0] == SEP
    requires d[1..] == a + [SEP] + u && u == b + [SEP] + c
    ensures d == Directory(a, b, c)
  {
    assert d == [SEP] + d[1..];
  }

  /**
   * The inverse reading of a directory: the first two components and the
   * rest after the third separator.
   */
  function DirectoryParts(d: string): (r: Option<(string, string, string)>)
    ensures r.Some? ==> SEP !in r.value.0 && SEP !in r.value.1
    ensures r.Some? ==> d == Directory(r.value.0, r.value.1, r.value.2)
  {
    if d == [] || d[0] != SEP then None
    else
      var first := Component(d[1..]);
      if first.None? then None
      else
        var second := Component(first.value.1);
        if second.None? then None
        else
          var a, b, c := first.value.0, second.value.0, second.value.1;
          Assemble(d, a, first.value.1, b, c);
          Some((a, b, c))
  }

  /** A decimal rendering holds no separator. */
  lemma DecimalHasNoSeparator(v: int)
    ensures SEP !in LongToString(v)
  {
    if v < 0 {
      assert LongToString(v) == "-" + Decimal(-v);
    }
  }

  /** Reading a directory built from separator-free components gives them back. */
  lemma DirectoryPartsOf(a: string, b: string, c: string)
    requires SEP !in a && SEP !in b
    ensures DirectoryParts(Directory(a, b, c)) == Some((a, b, c))
  {
    var d := Directory(a, b, c);
    var u := b + [SEP] + c;
    assert d[1..] == a + [SEP] + u;
    ComponentOf(a, u);
    ComponentOf(b, c);
  }

  /**
   * The directory names the identifier and its two buckets: reading it
   * back gives two decimal numbers below 100 and 10, and the identifier
   * itself.
   */
  lemma IdToDirectoryReadBack(id: Option<string>)
    requires IdToDirectory(id).Ok?
    ensures var parts := DirectoryParts(IdToDirectory(id).value);
      && parts.Some?
      && parts.value.2 == id.value
      && ParseLong(Some(parts.value.0), 10).Ok? && 0 <= ParseLong(Some(parts.value.0), 10).value < 100
      && ParseLong(Some(parts.value.1), 10).Ok? && 0 <= ParseLong(Some(parts.value.1), 10).value < 10
  {
    var d := IdToDirectory(id).value;
    var b1, b2 :| 0 <= b1 < 100 && 0 <= b2 < 10
      && d == Directory(LongToString(b1), LongToString(b2), id.value);
    DirectoryPartsOf(LongToString(b1), LongToString(b2), id.value);
    LongRoundTrip(b1);
    LongRoundTrip(b2);
  }

  /** Distinct identifiers map to distinct directories. */
  lemma IdToDirectoryInjective(a: Option<string>, b: Option<string>)
    requires IdToDirectory(a).Ok? && IdToDirectory(b).Ok?
    requires IdToDirectory(a).value == IdToDirectory(b).value
    ensures a == b
  {
    IdToDirectoryReadBack(a);
    IdToDirectoryReadBack(b);
  }

  function Pow16(n: nat): (p: nat)
    ensures p >= 1
  {
    if n == 0 then 1 else 16 * Pow16(n - 1)
  }

  lemma {:induction false} Pow16Bound(n: nat)
    requires n <= 15
    ensures Pow16(n) <= 0x1000_0000_0000_0000
    decreases 15 - n
  {
    if n < 15 {
      Pow16Bound(n + 1);
      assert Pow16(n + 1) == 16 * Pow16(n);
    } else {
      assert Pow16(15) == 0x1000_0000_0000_0000;
    }
  }

  /** The value of `n` hexadecimal digits is below 16^n. */
  lemma {:induction false} HexDigitsFit(s: string)
    requires AllDigits(s, 16)
    ensures DigitsValue(s, 16) < Pow16(|s|)
  {
    if s != [] {
      var init := s[..|s| - 1];
      assert AllDigits(init, 16);
      HexDigitsFit(init);
    }
  }

  /** A non-empty run of at most 15 hexadecimal digits parses as a `long`. */
  lemma HexSegmentParses(a: string)
    requires 1 <= |a| <= 15 && AllDigits(a, 16)
    ensures '-' !in a
    ensures ParseLong(Some(a), 16) == Ok(DigitsValue(a, 16))
  {
    assert DigitValue(a[0], 16).Some?;
    HexDigitsFit(a);
    Pow16Bound(|a|);
  }

  /** Splitting "a-b-rest" at '-' yields `a` and a non-empty `b` first. */
  lemma SplitUuid(a: string, b: string, rest: string)
    requires '-' !in a && '-' !in b && b != ""
    ensures var elements := Split(a + "-" + b + "-" + rest, '-');
      |elements| >= 2 && elements[0] == a && elements[1] == b
  {
    var s := a + "-" + b + "-" + rest;
    assert s == a + ['-'] + (b + ['-'] + rest);
    FieldsAfterPrefix(a, '-', b + ['-'] + rest);
    FieldsAfterPrefix(b, '-', rest);
    var fields := Fields(s, '-');
    assert fields == [a, b] + Fields(rest, '-');
    assert s[|a|] == '-';
    var elements := Split(s, '-');
    assert elements == DropTrailingEmpty(fields);
    assert fields[0] == a && fields[1] == b && b != "";
    assert |elements| >= 2;
    assert elements == fields[..|elements|];
  }

  /**
   * A UUID-shaped identifier, two non-empty hexadecimal segments of at
   * most 15 digits followed by anything after a '-', always has a
   * directory: the first segment's hexadecimal value modulo 100, the
   * second's modulo 10, then the identifier.
   */
  lemma UuidHasDirectory(a: string, b: string, rest: string)
    requires 1 <= |a| <= 15 && 1 <= |b| <= 15
    requires AllDigits(a, 16) && AllDigits(b, 16)
    ensures IdToDirectory(Some(a + "-" + b + "-" + rest)).Ok?
    ensures IdToDirectory(Some(a + "-" + b + "-" + rest)).value ==
      Directory(LongToString(DigitsValue(a, 16) % 100), LongToString(DigitsValue(b, 16) % 10), a + "-" + b + "-" + rest)
  {
    HexSegmentParses(a);
    HexSegmentParses(b);
    SplitUuid(a, b, rest);
  }

  /**
   * `appendIdToPath(id, path)`: the path followed by the identifier's
   * directory; a null identifier is an IllegalArgumentException.
   */
  function AppendIdToPath(id: Option<string>, path: string): (r: Result<string>)
    ensures id.None? ==> r == Err(IllegalArgument)
    ensures r.Ok? <==> IdToDirectory(id).Ok?
    ensures r.Ok? ==> StartsWith(r.value, path) && r.value[|path|..] == IdToDirectory(id).value
  {
    if id.None? then Err(IllegalArgument)
    else
      var d :- IdToDirectory(id);
      assert (path + d)[..|path|] == path;
      Ok(path + d)
  }
}

=== FILE: fs_repository.dfy ===
/**
 * The file-system content repository (class FileSystemContentRepository):
 * where a resource, its directory and its content files live on disk, the
 * filter used while indexing, the naming of the backup directory, and the
 * choice of a localized content file.
 *
 * The file system and the index enter as parameters: the set of names that
 * exist, a directory listing, and the identifier the index holds for a URI.
 */
module FileSystemRepository {
  import opened JavaErrors
  import opened JavaNumbers
  import opened JavaStrings
  import opened ResourceUtils
  import opened ContentRepository

  /** A resource URI: its type ("page", "file", ...), its identifier if known, and its version. */
  datatype ResourceUri = ResourceUri(kind: Option<string>, id: Option<string>, version: int)

  /** The name of the document every resource file is stored under. */
  const DOCUMENT: string := "index.xml"

  /** `root + "/" + type + "s"`: the directory of all resources of one type. */
  function TypeDirectory(root: string, kind: string): string {
    root + "/" + kind + "s"
  }

  /** The identifier to file a resource under: its own, or the one the index holds. */
  function IdentifierOf(uri: ResourceUri, indexed: Option<string>): (r: Option<string>)
    ensures uri.id.Some? ==> r == uri.id
    ensures uri.id.None? ==> r == indexed
  {
    if uri.id.Some? then uri.id else indexed
  }

  /**
   * `uriToFile(uri)`: "<root>/<type>s/<b1>/<b2>/<id>/<version>/index.xml",
   * the document name being the live one whatever the version. A URI
   * without a type is an IllegalArgumentException; a URI without an
   * identifier that the index does not know either yields null (None).
   */
  function UriToFile(m: Markers, root: string, uri: ResourceUri, indexed: Option<string>)
    : (r: Result<Option<string>>)
    ensures uri.kind.None? ==> r == Err(IllegalArgument)
    ensures uri.kind.Some? && IdentifierOf(uri, indexed).None? ==> r == Ok(None)
    ensures r.Ok? ==> (r.value.Some? <==> IdentifierOf(uri, indexed).Some?)
    ensures r.Ok? && r.value.Some? ==> EndsWith(r.value.value, "/" + DOCUMENT)
  {
    match uri.kind
    case None => Err(IllegalArgument)
    case Some(kind) =>
      var id := IdentifierOf(uri, indexed);
      if id.None? then Ok(None)
      else
        var dir :- AppendIdToPath(id, TypeDirectory(root, kind));
        assert GetDocument(m, m.live) == DOCUMENT;
        Ok(Some(VersionFile(dir, uri.version)))
  }

  /** "<dir>/<version>/index.xml" */
  function VersionFile(dir: string, version: int): (f: string)
    ensures EndsWith(f, "/" + DOCUMENT)
  {
    var head := dir + [SEP] + LongToString(version);
    EndsWithAppended(head, "/" + DOCUMENT);
    head + ("/" + DOCUMENT)
  }

  lemma VersionFileTail(dir: string, version: int)
    ensures VersionFile(dir, version) == dir + ([SEP] + (LongToString(version) + "/" + DOCUMENT))
  {
  }

  lemma EndsWithExtended(p: string, a: string, b: string)
    requires EndsWith(a, b)
    ensures EndsWith(p + a, b)
  {
    assert (p + a)[|p + a| - |b|..] == a[|a| - |b|..];
  }

  lemma EndsWithAppended(a: string, b: string)
    ensures EndsWith(a + b, b)
  {
    assert (a + b)[|a + b| - |b|..] == b;
  }

  lemma StartsWithAppended(a: string, b: string)
    ensures StartsWith(a + b, a) && (a + b)[|a|..] == b
  {
    assert (a + b)[..|a|] == a;
  }

  /** Text appended to a directory extends its last component. */
  lemma DirectoryAppend(a: string, b: string, c: string, t: string)
    ensures Directory(a, b, c) + t == Directory(a, b, c + t)
  {
  }

  /**
   * `uriToDirectory(uri)` AS WRITTEN: it looks the identifier up in the
   * index when the URI has none, but then passes the URI's own (null)
   * identifier on, so a URI without an identifier never has a directory.
   */
  function UriToDirectoryAsWritten(root: string, uri: ResourceUri, indexed: Option<string>)
    : (r: Result<Option<string>>)
    ensures uri.kind.None? ==> r == Err(IllegalArgument)
    ensures uri.kind.Some? && uri.id.None? ==> r.Err? || r.value.None?
  {
    match uri.kind
    case None => Err(IllegalArgument)
    case Some(kind) =>
      var id := IdentifierOf(uri, indexed);
      if id.None? then Ok(None)
      else
        var dir :- AppendIdToPath(uri.id, TypeDirectory(root, kind));
        Ok(Some(dir))
  }

  /**
   * `uriToDirectory(uri)` as intended: the directory of the identifier
   * `uriToFile` uses, "<root>/<type>s/<b1>/<b2>/<id>".
   */
  function UriToDirectory(root: string, uri: ResourceUri, indexed: Option<string>)
    : (r: Result<Option<string>>)
    ensures uri.kind.None? ==> r == Err(IllegalArgument)
    ensures uri.kind.Some? && IdentifierOf(uri, indexed).None? ==> r == Ok(None)
    ensures r.Ok? && r.value.Some? ==>
      StartsWith(r.value.value, TypeDirectory(root, uri.kind.value))
      && EndsWith(r.value.value, [SEP] + IdentifierOf(uri, indexed).value)
  {
    match uri.kind
    case None => Err(IllegalArgument)
    case Some(kind) =>
      var id := IdentifierOf(uri, indexed);
      if id.None? then Ok(None)
      else
        var prefix := TypeDirectory(root, kind);
        var dir :- AppendIdToPath(id, prefix);
        var d := IdToDirectory(id).value;
        assert dir == prefix + d by {
          assert dir == dir[..|prefix|] + dir[|prefix|..];
        }
        EndsWithExtended(prefix, d, [SEP] + id.value);
        Ok(Some(dir))
  }

  /**
   * A URI filed only in the index: the as-written directory lookup throws
   * where the intended one finds the directory `uriToFile` uses.
   */
  lemma IndexedUriHasNoDirectoryAsWritten(root: string, kind: string, id: string, version: int)
    requires IdToDirectory(Some(id)).Ok?
    ensures UriToDirectoryAsWritten(root, ResourceUri(Some(kind), None, version), Some(id))
      == Err(IllegalArgument)
    ensures UriToDirectory(root, ResourceUri(Some(kind), None, version), Some(id)).Ok?
    ensures UriToDirectory(root, ResourceUri(Some(kind), None, version), Some(id)).value.Some?
  {
  }

  /**
   * The resource file lies in the resource directory: directory, then
   * "/<version>/index.xml".
   */
  lemma FileInDirectory(m: Markers, root: string, uri: ResourceUri, indexed: Option<string>)
    requires UriToDirectory(root, uri, indexed).Ok?
    ensures UriToFile(m, root, uri, indexed).Ok?
    ensures UriToDirectory(root, uri, indexed).value.None? <==> UriToFile(m, root, uri, indexed).value.None?
    ensures UriToDirectory(root, uri, indexed).value.Some? ==>
      UriToFile(m, root, uri, indexed).value.value ==
        UriToDirectory(root, uri, indexed).value.value + "/" + LongToString(uri.version) + "/" + DOCUMENT
  {
  }

  /** The resource file of a URI that carries its identifier. */
  lemma UriToFileShape(m: Markers, root: string, kind: string, u: ResourceUri)
    requires u.kind == Some(kind) && u.id.Some?
    requires UriToFile(m, root, u, None).Ok?
    ensures AppendIdToPath(u.id, TypeDirectory(root, kind)).Ok?
    ensures UriToFile(m, root, u, None).value ==
      Some(VersionFile(AppendIdToPath(u.id, TypeDirectory(root, kind)).value, u.version))
  {
  }

  /**
   * Distinct identifiers or versions give distinct resource files, for
   * identifiers without a separator (UUIDs have none).
   */
  lemma UriToFileInjective(m: Markers, root: string, kind: string, a: ResourceUri, b: ResourceUri)
    requires a.kind == Some(kind) && b.kind == Some(kind)
    requires a.id.Some? && b.id.Some? && SEP !in a.id.value && SEP !in b.id.value
    requires IsLong(a.version) && IsLong(b.version)
    requires UriToFile(m, root, a, None).Ok? && UriToFile(m, root, b, None).Ok?
    requires UriToFile(m, root, a, None) == UriToFile(m, root, b, None)
    ensures a.id == b.id && a.version == b.version
  {
    var prefix := TypeDirectory(root, kind);
    UriToFileShape(m, root, kind, a);
    UriToFileShape(m, root, kind, b);
    var fa := VersionFile(AppendIdToPath(a.id, prefix).value, a.version);
    var fb := VersionFile(AppendIdToPath(b.id, prefix).value, b.version);
    assert fa == fb;
    ResourceTail(prefix, a.id.value, a.version);
    ResourceTail(prefix, b.id.value, b.version);
    var va := LongToString(a.version);
    var vb := LongToString(b.version);
    var ta := va + "/" + DOCUMENT;
    var tb := vb + "/" + DOCUMENT;
    assert a.id.value + [SEP] + ta == b.id.value + [SEP] + tb;
    ComponentOf(a.id.value, ta);
    ComponentOf(b.id.value, tb);
    DecimalHasNoSeparator(a.version);
    DecimalHasNoSeparator(b.version);
    TextBeforeSlash(va, vb, DOCUMENT);
    LongToStringInjective(a.version, b.version);
  }

  /** Decimal renderings hold no '/', so "<v>/<rest>" determines `v`. */
  lemma TextBeforeSlash(va: string, vb: string, rest: string)
    requires SEP !in va && SEP !in vb
    requires va + "/" + rest == vb + "/" + rest
    ensures va == vb
  {
    assert va + "/" + rest == va + [SEP] + rest;
    assert vb + "/" + rest == vb + [SEP] + rest;
    ComponentOf(va, rest);
    ComponentOf(vb, rest);
  }

  /**
   * The file of a resource read back below its type directory: two
   * buckets and, after the third separator, "<id>/<version>/index.xml".
   */
  lemma ResourceTail(prefix: string, id: string, version: int)
    requires AppendIdToPath(Some(id), prefix).Ok?
    ensures var path := VersionFile(AppendIdToPath(Some(id), prefix).value, version);
      && StartsWith(path, prefix)
      && DirectoryParts(path[|prefix|..]).Some?
      && DirectoryParts(path[|prefix|..]).value.2 == id + [SEP] + (LongToString(version) + "/" + DOCUMENT)
  {
    var d := IdToDirectory(Some(id)).value;
    var b1, b2 :| 0 <= b1 < 100 && 0 <= b2 < 10
      && d == Directory(LongToString(b1), LongToString(b2), id);
    var dir := AppendIdToPath(Some(id), prefix).value;
    assert dir == prefix + d by {
      assert dir == dir[..|prefix|] + dir[|prefix|..];
    }
    BucketedParts(d, id, b1, b2, [SEP] + (LongToString(version) + "/" + DOCUMENT));
    BucketedTail(prefix, d, id, version);
  }

  lemma BucketedTail(prefix: string, d: string, id: string, version: int)
    requires var tail := [SEP] + (LongToString(version) + "/" + DOCUMENT);
      DirectoryParts(d + tail).Some? && DirectoryParts(d + tail).value.2 == id + tail
    ensures var path := VersionFile(prefix + d, version);
      && StartsWith(path, prefix)
      && DirectoryParts(path[|prefix|..]).Some?
      && DirectoryParts(path[|prefix|..]).value.2 == id + [SEP] + (LongToString(version) + "/" + DOCUMENT)
  {
    var tail := [SEP] + (LongToString(version) + "/" + DOCUMENT);
    VersionFileTail(prefix + d, version);
    Regroup(prefix, d, tail);
    StartsWithAppended(prefix, d + tail);
    Regroup(id, [SEP], LongToString(version) + "/" + DOCUMENT);
  }

  lemma Regroup(a: string, b: string, c: string)
    ensures (a + b) + c == a + (b + c)
  {
  }

  /** A bucketed directory with anything after it still splits into its buckets. */
  lemma BucketedParts(d: string, id: string, b1: int, b2: int, tail: string)
    requires d == Directory(LongToString(b1), LongToString(b2), id)
    requires 0 <= b1 < 100 && 0 <= b2 < 10
    ensures DirectoryParts(d + tail).Some? && DirectoryParts(d + tail).value.2 == id + tail
  {
    DecimalHasNoSeparator(b1);
    DecimalHasNoSeparator(b2);
    DirectoryAppend(LongToString(b1), LongToString(b2), id, tail);
    DirectoryPartsOf(LongToString(b1), LongToString(b2), id + tail);
  }

  // ---------------------------------------------------------------------
  // Content files

  /**
   * `FilenameUtils.getExtension(name)`: the text after the last '.', or ""
   * when there is no '.' or a '/' or '\' follows the last one.
   */
  function Extension(name: string): (r: string)
    ensures '.' !in r && '/' !in r && '\\' !in r
    ensures r == "" || EndsWith(name, "." + r)
  {
    var dot := LastIndexOf(name, '.');
    var slash := LastIndexOf(name, '/');
    var backslash := LastIndexOf(name, '\\');
    if dot < 0 || slash > dot || backslash > dot then ""
    else
      var r := name[dot + 1..];
      assert name[|name| - |"." + r|..] == "." + r;
      assert forall j :: 0 <= j < |r| ==> r[j] == name[dot + 1 + j];
      r
  }

  /** A name ending in "." and a plain extension yields that extension. */
  lemma ExtensionOf(stem: string, ext: string)
    requires '.' !in ext && '/' !in ext && '\\' !in ext
    ensures Extension(stem + "." + ext) == ext
  {
    var name := stem + "." + ext;
    assert name[|stem|] == '.';
    assert forall j :: |stem| < j < |name| ==> name[j] == ext[j - |stem| - 1];
    assert LastIndexOf(name, '.') == |stem|;
    assert name[|stem| + 1..] == ext;
  }

  /**
   * The name of a content file: the language identifier, then "." and the
   * extension of the content's file name unless that extension is empty. A
   * content without a file name yields the extension null, which Java
   * appends as the text "null".
   */
  function ContentFileName(language: string, filename: Option<string>): (r: string)
    ensures StartsWith(r, language)
    ensures filename.None? ==> r == language + ".null"
    ensures filename.Some? && Extension(filename.value) == "" ==> r == language
    ensures filename.Some? && Extension(filename.value) != "" ==>
      r == language + "." + Extension(filename.value)
  {
    match filename
    case None => language + ".null"
    case Some(f) =>
      var ext := Extension(f);
      if ext == "" then language else language + "." + ext
  }

  /**
   * The content file "<name>" in the revision directory "<version>" of a
   * resource directory. Without a resource directory Java resolves the
   * version against no parent, and the path is relative.
   */
  function ContentFileIn(dir: Option<string>, version: int, name: string): (f: string)
    ensures EndsWith(f, [SEP] + name)
    ensures dir.Some? ==> f == dir.value + [SEP] + LongToString(version) + [SEP] + name
    ensures dir.None? ==> f == LongToString(version) + [SEP] + name
  {
    var revision := match dir
      case Some(d) => d + [SEP] + LongToString(version)
      case None => LongToString(version);
    EndsWithAppended(revision, [SEP] + name);
    revision + ([SEP] + name)
  }

  /**
   * `uriToContentFile(uri, content)` over the intended directory lookup:
   * "<resource directory>/<version>/<name>".
   */
  function UriToContentFile(root: string, uri: ResourceUri, indexed: Option<string>,
                            language: string, filename: Option<string>): (r: Result<string>)
    ensures r.Err? <==> UriToDirectory(root, uri, indexed).Err?
    ensures r.Err? ==> r.error == UriToDirectory(root, uri, indexed).error
    ensures r.Ok? ==> EndsWith(r.value, [SEP] + ContentFileName(language, filename))
    ensures r.Ok? && UriToDirectory(root, uri, indexed).value.Some? ==>
      r.value == UriToDirectory(root, uri, indexed).value.value + [SEP] + LongToString(uri.version)
        + [SEP] + ContentFileName(language, filename)
    ensures r.Ok? && UriToDirectory(root, uri, indexed).value.None? ==>
      r.value == LongToString(uri.version) + [SEP] + ContentFileName(language, filename)
  {
    var dir :- UriToDirectory(root, uri, indexed);
    Ok(ContentFileIn(dir, uri.version, ContentFileName(language, filename)))
  }

  /**
   * `uriToContentFile(uri, content)` AS WRITTEN: it asks the as-written
   * `uriToDirectory`, so it throws for a URI known only to the index.
   */
  function UriToContentFileAsWritten(root: string, uri: ResourceUri, indexed: Option<string>,
                                     language: string, filename: Option<string>): (r: Result<string>)
    ensures r.Err? <==> UriToDirectoryAsWritten(root, uri, indexed).Err?
    ensures uri.id.Some? ==> r == UriToContentFile(root, uri, indexed, language, filename)
  {
    var dir :- UriToDirectoryAsWritten(root, uri, indexed);
    Ok(ContentFileIn(dir, uri.version, ContentFileName(language, filename)))
  }

  /**
   * A URI filed only in the index: the as-written content file lookup
   * throws where the intended one names a file in the resource directory.
   */
  lemma IndexedUriHasNoContentFileAsWritten(root: string, kind: string, id: string, version: int,
                                            language: string, filename: Option<string>)
    requires IdToDirectory(Some(id)).Ok?
    ensures var uri := ResourceUri(Some(kind), None, version);
      && UriToContentFileAsWritten(root, uri, Some(id), language, filename) == Err(IllegalArgument)
      && UriToContentFile(root, uri, Some(id), language, filename).Ok?
  {
    IndexedUriHasNoDirectoryAsWritten(root, kind, id, version);
  }

  /**
   * Localized content is looked up by the prefix "<language>.", so a
   * content stored under a file name without extension, whose file is
   * named just "<language>", is never found.
   */
  lemma ExtensionlessContentIsNotLocalized(language: string, filename: string)
    requires Extension(filename) == ""
    ensures !StartsWith(ContentFileName(language, Some(filename)), language + ".")
  {
  }

  /** A content with an extension is stored where the localized lookup looks. */
  lemma ContentWithExtensionIsLocalized(language: string, filename: Option<string>)
    requires filename.None? || Extension(filename.value) != ""
    ensures StartsWith(ContentFileName(language, filename), language + ".")
  {
    var r := ContentFileName(language, filename);
    assert r[..|language| + 1] == language + ".";
  }

  /** A file in a directory listing. */
  datatype FileEntry = FileEntry(name: string, isFile: bool)

  predicate IsLocalized(f: FileEntry, language: string) {
    f.isFile && StartsWith(f.name, language + ".")
  }

  /**
   * The file `openStreamToResourceContent` opens: the first regular file in
   * the listing whose name starts with "<language>.", or null (None) when
   * there is none. A directory that cannot be listed gives a null listing,
   * and reading its length is a NullPointerException.
   */
  function LocalizedContent(listing: Option<seq<FileEntry>>, language: string): (r: Result<Option<FileEntry>>)
    ensures listing.None? <==> r == Err(NullPointer)
    ensures r.Ok? && r.value.None? ==>
      forall i :: 0 <= i < |listing.value| ==> !IsLocalized(listing.value[i], language)
    ensures r.Ok? && r.value.Some? ==> exists i ::
      && 0 <= i < |listing.value|
      && listing.value[i] == r.value.value && IsLocalized(r.value.value, language)
      && forall j :: 0 <= j < i ==> !IsLocalized(listing.value[j], language)
  {
    match listing
    case None => Err(NullPointer)
    case Some(files) => Ok(FirstLocalized(files, language))
  }

  function FirstLocalized(files: seq<FileEntry>, language: string): (r: Option<FileEntry>)
    ensures r.None? ==> forall i :: 0 <= i < |files| ==> !IsLocalized(files[i], language)
    ensures r.Some? ==> exists i ::
      && 0 <= i < |files|
      && files[i] == r.value && IsLocalized(r.value, language)
      && forall j :: 0 <= j < i ==> !IsLocalized(files[j], language)
  {
    if files == [] then None
    else if IsLocalized(files[0], language) then
      assert files[0] == files[0];
      Some(files[0])
    else
      var r := FirstLocalized(files[1..], language);
      if r.Some? then
        var i :| 0 <= i < |files[1..]| && files[1..][i] == r.value && IsLocalized(r.value, language)
          && forall j :: 0 <= j < i ==> !IsLocalized(files[1..][j], language);
        assert files[i + 1] == r.value;
        r
      else r
  }

  // ---------------------------------------------------------------------
  // Indexing

  /**
   * The filter applied while indexing a directory tree: hidden names are
   * skipped, directories are descended into, and only ".xml" files are read.
   */
  function IndexingFilter(name: string, isDirectory: bool): (r: bool)
    ensures r ==> name == [] || name[0] != '.'
    ensures r && !isDirectory ==> |name| >= 4 && name[|name| - 4..] == ".xml"
    ensures isDirectory && (name == [] || name[0] != '.') ==> r
    ensures !isDirectory && (name == [] || name[0] != '.') && |name| >= 4 && name[|name| - 4..] == ".xml" ==> r
  {
    !StartsWith(name, ".") && (isDirectory || EndsWith(name, ".xml"))
  }

  /**
   * Every document a resource version is stored under passes the filter,
   * and its hidden copy does not.
   */
  lemma DocumentsAreIndexed(m: Markers, version: int)
    ensures IndexingFilter(GetDocument(m, version), false)
    ensures !IndexingFilter("." + GetDocument(m, version), false)
    ensures IndexingFilter(DOCUMENT, false)
  {
    var d := GetDocument(m, version);
    if version != m.live && version != m.work {
      var t := LongToString(version);
      assert t[0] == '-' || DigitValue(t[0], 10).Some?;
      assert d[0] == t[0];
    }
    assert d[0] != '.';
    assert d[..1] != ".";
    assert ("." + d)[..1] == ".";
    assert DOCUMENT[|DOCUMENT| - 4..] == ".xml";
  }

  /** "<dir>-old <i>": the name tried for the i-th backup directory. */
  function BackupName(dir: string, i: int): string {
    dir + "-old " + LongToString(i)
  }

  /**
   * The directory the old resources are moved to when the index has been
   * restructured: "<dir>-old" if it does not exist, otherwise the first
   * "<dir>-old <i>", 1 <= i < Integer.MAX_VALUE, that does not exist. When
   * every candidate exists the last one is used. `attempt` is 0 for the
   * plain name and `i` otherwise.
   */
  method BackupDirectory(dir: string, existing: set<string>) returns (name: string, attempt: int)
    ensures attempt == 0 <==> dir + "-old" !in existing
    ensures attempt == 0 ==> name == dir + "-old"
    ensures attempt != 0 ==> 1 <= attempt < INT_MAX && name == BackupName(dir, attempt)
    ensures forall j :: 1 <= j < attempt ==> BackupName(dir, j) in existing
    ensures name !in existing || attempt == INT_MAX - 1
  {
    name := dir + "-old";
    attempt := 0;
    if name in existing {
      var i := 1;
      while i < INT_MAX
        invariant 1 <= i <= INT_MAX
        invariant forall j :: 1 <= j < i ==> BackupName(dir, j) in existing
        invariant i == 1 ==> name == dir + "-old" && attempt == 0
        invariant i > 1 ==> attempt == i - 1 && name == BackupName(dir, attempt)
        invariant name in existing
      {
        name := BackupName(dir, i);
        attempt := i;
        if name !in existing {
          break;
        }
        i := i + 1;
      }
      if attempt == 0 {
        // the loop runs at least once
        assert false;
      }
    }
  }

  /** The candidate backup names are pairwise distinct and distinct from the plain name. */
  lemma BackupNamesDistinct(dir: string, i: int, j: int)
    requires IsLong(i) && IsLong(j) && i != j
    ensures BackupName(dir, i) != BackupName(dir, j)
    ensures BackupName(dir, i) != dir + "-old"
  {
    var p := dir + "-old ";
    if BackupName(dir, i) == BackupName(dir, j) {
      assert BackupName(dir, i)[|p|..] == LongToString(i);
      assert BackupName(dir, j)[|p|..] == LongToString(j);
      LongToStringInjective(i, j);
    }
    assert |BackupName(dir, i)| > |dir + "-old"| by {
      assert |LongToString(i)| >= 1;
    }
  }
}

=== FILE: image_content.dfy ===
/**
 * Image contents (class ImageContentImpl): a file content with a width and
 * a height in pixels, where -1 means "not yet known". The dimensions are
 * validated by their setters and by XML serialization, not by the
 * constructors.
 */
module ImageContent {
  import opened JavaErrors
  import opened JavaNumbers
  import opened JavaStrings

  /** The state kept by the file-content superclass. */
  datatype FileContent = FileContent(
    filename: Option<string>,
    language: Option<string>,
    mimetype: Option<string>,
    size: int)

  datatype Image = Image(base: FileContent, width: Int32, height: Int32)

  /** The argument of `equals`: an image content or any other object. */
  datatype Other = AnImage(image: Image) | NotAnImage

  /** The full constructor: every argument is stored as given. */
  function Create(filename: Option<string>, language: Option<string>, mimetype: Option<string>,
                  width: Int32, height: Int32, filesize: int): (r: Image)
    ensures r.width == width && r.height == height
    ensures r.base == FileContent(filename, language, mimetype, filesize)
  {
    Image(FileContent(filename, language, mimetype, filesize), width, height)
  }

  /** The constructor without dimensions: width and height are -1. */
  function CreateUnsized(filename: Option<string>, language: Option<string>, mimetype: Option<string>): (r: Image)
    ensures r.width == -1 && r.height == -1 && r.base.size == -1
  {
    Create(filename, language, mimetype, -1, -1, -1)
  }

  /** The constructor without a file size: the size is -1. */
  function CreateSized(filename: Option<string>, language: Option<string>, mimetype: Option<string>,
                       width: Int32, height: Int32): (r: Image)
    ensures r.width == width && r.height == height && r.base.size == -1
  {
    Create(filename, language, mimetype, width, height, -1)
  }

  /** `setWidth(w)`: a width of 0 or less is refused and nothing changes. */
  function SetWidth(img: Image, w: Int32): (r: Result<Image>)
    ensures r.Err? <==> w <= 0
    ensures r.Err? ==> r.error == IllegalArgument
    ensures r.Ok? ==> r.value.width == w && r.value.height == img.height && r.value.base == img.base
  {
    if w <= 0 then Err(IllegalArgument) else Ok(img.(width := w))
  }

  /** `setHeight(h)`: a height of 0 or less is refused and nothing changes. */
  function SetHeight(img: Image, h: Int32): (r: Result<Image>)
    ensures r.Err? <==> h <= 0
    ensures r.Err? ==> r.error == IllegalArgument
    ensures r.Ok? ==> r.value.height == h && r.value.width == img.width && r.value.base == img.base
  {
    if h <= 0 then Err(IllegalArgument) else Ok(img.(height := h))
  }

  /** The fragment written after the superclass's XML. */
  function DimensionsXml(w: int, h: int): string {
    "<width>" + LongToString(w) + "</width>" + "<height>" + LongToString(h) + "</height>"
  }

  /**
   * Reads `open`, a decimal number and `close` from the front of `x`,
   * returning the number and what follows.
   */
  function ReadElement(x: string, open: string, close: string): Option<(int, string)> {
    if !StartsWith(x, open) then None
    else
      var a := x[|open|..];
      var i := IndexOf(a, '<');
      if i < 0 then None
      else
        var v := ParseLong(Some(a[..i]), 10);
        var b := a[i..];
        if v.Err? || !StartsWith(b, close) then None
        else Some((v.value, b[|close|..]))
  }

  /**
   * A reader for the fragment, independent of the writer: the numbers
   * inside the `<width>` and `<height>` elements, and nothing after them.
   */
  function ReadDimensions(x: string): Option<(int, int)> {
    match ReadElement(x, "<width>", "</width>")
    case None => None
    case Some((w, rest)) =>
      match ReadElement(rest, "<height>", "</height>")
      case None => None
      case Some((h, tail)) => if tail == [] then Some((w, h)) else None
  }

  lemma NoTagInNumber(v: int)
    ensures '<' !in LongToString(v)
  {
    if v < 0 {
      assert LongToString(v) == "-" + Decimal(-v);
    }
  }

  lemma SplitAt(p: string, q: string)
    ensures (p + q)[..|p|] == p && (p + q)[|p|..] == q
  {
  }

  /** A number followed by a tag: the first '<' is where the tag starts. */
  lemma NumberThenTag(v: int, close: string, tail: string)
    requires |close| > 0 && close[0] == '<'
    ensures var sv := LongToString(v);
      var a := sv + close + tail;
      && IndexOf(a, '<') == |sv|
      && a[..|sv|] == sv
      && a[|sv|..] == close + tail
  {
    var sv := LongToString(v);
    NoTagInNumber(v);
    assert sv + close + tail == sv + ['<'] + (close[1..] + tail);
    IndexOfAfterPrefix(sv, '<', close[1..] + tail);
    SplitAt(sv, close + tail);
  }

  /** One element written with a number is read back with that number. */
  lemma ElementRoundTrip(open: string, v: int, close: string, tail: string)
    requires IsLong(v) && |close| > 0 && close[0] == '<'
    ensures ReadElement(open + LongToString(v) + close + tail, open, close) == Some((v, tail))
  {
    var sv := LongToString(v);
    var x := open + sv + close + tail;
    assert x == open + (sv + close + tail);
    SplitAt(open, sv + close + tail);
    NumberThenTag(v, close, tail);
    LongRoundTrip(v);
    SplitAt(close, tail);
  }

  /** Reading the fragment back yields the dimensions that were written. */
  lemma DimensionsRoundTrip(w: int, h: int)
    requires IsLong(w) && IsLong(h)
    ensures ReadDimensions(DimensionsXml(w, h)) == Some((w, h))
  {
    var rest := "<height>" + LongToString(h) + "</height>" + "";
    assert DimensionsXml(w, h) == "<width>" + LongToString(w) + "</width>" + rest;
    ElementRoundTrip("<width>", w, "</width>", rest);
    ElementRoundTrip("<height>", h, "</height>", "");
  }

  /**
   * `extendXml(xml)`: refuses an image whose width or height is not
   * positive; otherwise appends the width and height elements to the
   * superclass's XML `superXml`, readable back by `ReadDimensions`.
   */
  function ExtendXml(img: Image, superXml: string): (r: Result<string>)
    ensures r.Ok? <==> img.width > 0 && img.height > 0
    ensures r.Err? ==> r.error == IllegalArgument
    ensures r.Ok? ==> StartsWith(r.value, superXml)
    ensures r.Ok? ==> ReadDimensions(r.value[|superXml|..]) == Some((img.width as int, img.height as int))
  {
    if img.width <= 0 then Err(IllegalArgument)
    else if img.height <= 0 then Err(IllegalArgument)
    else
      var x := superXml + DimensionsXml(img.width, img.height);
      DimensionsRoundTrip(img.width, img.height);
      assert x[..|superXml|] == superXml && x[|superXml|..] == DimensionsXml(img.width, img.height);
      Ok(x)
  }

  /** An image built without dimensions cannot be serialized. */
  lemma UnsizedImageIsNotSerializable(filename: Option<string>, language: Option<string>,
                                      mimetype: Option<string>, superXml: string)
    ensures ExtendXml(CreateUnsized(filename, language, mimetype), superXml).Err?
  {
  }

  /**
   * Setting a positive width and height makes any image serializable,
   * whatever the constructor stored.
   */
  lemma SettersEnableSerialization(img: Image, w: Int32, h: Int32, superXml: string)
    requires w > 0 && h > 0
    ensures SetWidth(img, w).Ok?
    ensures SetHeight(SetWidth(img, w).value, h).Ok?
    ensures ExtendXml(SetHeight(SetWidth(img, w).value, h).value, superXml).Ok?
  {
  }

  /**
   * `equals(obj)`: false for an object that is not an image content or
   * whose width or height differ; otherwise the superclass's verdict
   * `baseEquals` on the two file contents.
   */
  function Equals(img: Image, obj: Other, baseEquals: (FileContent, FileContent) -> bool): (r: bool)
    ensures obj.NotAnImage? ==> !r
    ensures r ==> obj.image.width == img.width && obj.image.height == img.height
    ensures r ==> baseEquals(img.base, obj.image.base)
    ensures (obj.AnImage? && obj.image.width == img.width && obj.image.height == img.height
             && baseEquals(img.base, obj.image.base)) ==> r
  {
    match obj
    case NotAnImage => false
    case AnImage(other) =>
      if img.width != other.width then false
      else if img.height != other.height then false
      else baseEquals(img.base, other.base)
  }

  /** Equality is symmetric when the superclass's equality is. */
  lemma EqualsSymmetric(a: Image, b: Image, baseEquals: (FileContent, FileContent) -> bool)
    requires forall x, y :: baseEquals(x, y) == baseEquals(y, x)
    ensures Equals(a, AnImage(b), baseEquals) == Equals(b, AnImage(a), baseEquals)
  {
  }

  /** Equality is reflexive when the superclass's equality is. */
  lemma EqualsReflexive(a: Image, baseEquals: (FileContent, FileContent) -> bool)
    requires forall x :: baseEquals(x, x)
    ensures Equals(a, AnImage(a), baseEquals)
  {
  }
}

=== FILE: java_errors.dfy ===
/**
 * The exceptions and null results of the modelled Java code, as values.
 *
 * Every operation that can throw returns a `Result`: `Err(e)` names the
 * exception class the source throws or lets escape, `Ok(v)` is a normal
 * return. A Java reference that may be `null` is an `Option`.
 */
module JavaErrors {

  /** The exception classes the modelled code throws or propagates. */
  datatype Exception =
    | IllegalArgument        // java.lang.IllegalArgumentException
    | IllegalState           // java.lang.IllegalStateException
    | NumberFormat           // java.lang.NumberFormatException
    | IndexOutOfBounds       // java.lang.ArrayIndexOutOfBoundsException and kin
    | NullPointer            // java.lang.NullPointerException
    | ClassCast              // java.lang.ClassCastException
    | IOFailure              // java.io.IOException
    | Security               // java.lang.SecurityException
    | RepositoryUnavailable  // ContentRepositoryUnavailableException
    | RepositoryFailure      // ContentRepositoryException

  /** A Java reference that may be `null`. */
  datatype Option<+T> = None | Some(value: T)

  /** A normal return or a thrown exception. */
  datatype Result<+T> = Ok(value: T) | Err(error: Exception) {

    predicate IsFailure() {
      Err?
    }

    function PropagateFailure<U>(): Result<U>
      requires Err?
    {
      Err(error)
    }

    function Extract(): T
      requires Ok?
    {
      value
    }
  }
}

=== FILE: java_numbers.dfy ===
/**
 * Java's 64-bit `long` arithmetic and text conversions used by the model:
 * `Long.toString`, `Long.parseLong` in radix 10 and 16, and the `%`
 * operator, whose remainder takes the sign of the dividend.
 */
module JavaNumbers {
  import opened JavaErrors

  const LONG_MIN: int := -0x8000_0000_0000_0000
  const LONG_MAX: int := 0x7fff_ffff_ffff_ffff
  const INT_MAX: int := 0x7fff_ffff

  /** A Java `int`. */
  type Int32 = x: int | -0x8000_0000 <= x < 0x8000_0000

  /** The values a Java `long` can hold. */
  predicate IsLong(x: int) {
    LONG_MIN <= x <= LONG_MAX
  }

  function Abs(x: int): nat {
    if x < 0 then -x else x
  }

  /** Java's `a / m` for a positive divisor: truncation toward zero. */
  function JavaQuot(a: int, m: nat): int
    requires m > 0
  {
    if a >= 0 then a / m else -((-a) / m)
  }

  /**
   * Java's `a % m` for a positive divisor: the remainder left by the
   * truncating quotient, so it has the sign of `a` (Dafny's own `%` is
   * Euclidean and never negative).
   */
  function JavaRem(a: int, m: nat): (r: int)
    requires m > 0
    ensures 0 <= a ==> 0 <= r < m
    ensures a < 0 ==> 0 - m < r <= 0
    ensures a == JavaQuot(a, m) * m + r
  {
    if a >= 0 then
      assert a == (a / m) * m + a % m;
      a % m
    else
      assert -a == ((-a) / m) * m + (-a) % m;
      -((-a) % m)
  }

  /** The character Java prints for digit `d`. */
  function DigitChar(d: nat): char
    requires d < 16
  {
    "0123456789abcdef"[d]
  }

  /**
   * `Character.digit(c, radix)` restricted to ASCII: the value of `c` as a
   * digit in `radix`, or `None` (Java's -1) when it is not one.
   */
  function DigitValue(c: char, radix: nat): (r: Option<nat>)
    ensures r.Some? ==> r.value < radix
  {
    var v :=
      if '0' <= c <= '9' then c as int - '0' as int
      else if 'a' <= c <= 'z' then c as int - 'a' as int + 10
      else if 'A' <= c <= 'Z' then c as int - 'A' as int + 10
      else radix;
    if 0 <= v < radix then Some(v) else None
  }

  predicate AllDigits(s: string, radix: nat) {
    forall i :: 0 <= i < |s| ==> DigitValue(s[i], radix).Some?
  }

  /** The value of a string of digits, most significant first. */
  function DigitsValue(s: string, radix: nat): nat
    requires AllDigits(s, radix)
  {
    if s == [] then 0
    else DigitsValue(s[..|s| - 1], radix) * radix + DigitValue(s[|s| - 1], radix).value
  }

  /** The decimal digits of `n`, without leading zeros. */
  function Decimal(n: nat): (s: string)
    ensures |s| >= 1
    ensures AllDigits(s, 10)
    ensures '-' !in s && '+' !in s && '/' !in s && '<' !in s
  {
    if n < 10 then [DigitChar(n)] else Decimal(n / 10) + [DigitChar(n % 10)]
  }

  /** `Long.toString(v)` (and `String.valueOf`, `StringBuffer.append`). */
  function LongToString(v: int): string {
    if v < 0 then "-" + Decimal(-v) else Decimal(v)
  }

  /**
   * `Long.parseLong(s, radix)`: an optional sign followed by at least one
   * digit, with a value inside the `long` range; anything else, `null`
   * included, raises NumberFormatException.
   */
  function ParseLong(s: Option<string>, radix: nat): (r: Result<int>)
    ensures r.Ok? ==> IsLong(r.value)
    ensures r.Err? ==> r.error == NumberFormat
    ensures s.None? || s.value == [] ==> r.Err?
    ensures r.Ok? && '-' !in s.value ==> r.value >= 0
  {
    match s
    case None => Err(NumberFormat)
    case Some(t) =>
      if t == [] then Err(NumberFormat)
      else
        var signed := t[0] == '-' || t[0] == '+';
        var digits := if signed then t[1..] else t;
        if digits == [] || !AllDigits(digits, radix) then Err(NumberFormat)
        else
          var magnitude := DigitsValue(digits, radix);
          var v: int := if t[0] == '-' then 0 - magnitude else magnitude;
          if IsLong(v) then Ok(v) else Err(NumberFormat)
  }

  /** Reading the decimal digits of `n` gives back `n`. */
  lemma {:induction false} DecimalValue(n: nat)
    ensures DigitsValue(Decimal(n), 10) == n
  {
    if n >= 10 {
      DecimalValue(n / 10);
      var s := Decimal(n);
      assert s[..|s| - 1] == Decimal(n / 10);
    }
  }

  /** `Long.parseLong(Long.toString(v)) == v` for every `long`. */
  lemma LongRoundTrip(v: int)
    requires IsLong(v)
    ensures ParseLong(Some(LongToString(v)), 10) == Ok(v)
  {
    var t := LongToString(v);
    if v < 0 {
      var d := Decimal(-v);
      DecimalValue(-v);
      assert t == "-" + d;
      assert t[0] == '-' && t[1..] == d;
      assert AllDigits(d, 10);
      assert DigitsValue(d, 10) == -v;
    } else {
      var d := Decimal(v);
      DecimalValue(v);
      assert t == d;
      assert DigitValue(d[0], 10).Some?;
      assert d[0] != '-' && d[0] != '+';
      assert DigitsValue(d, 10) == v;
    }
  }

  /** `Long.toString` is injective, so distinct versions print differently. */
  lemma LongToStringInjective(a: int, b: int)
    requires IsLong(a) && IsLong(b)
    requires LongToString(a) == LongToString(b)
    ensures a == b
  {
    LongRoundTrip(a);
    LongRoundTrip(b);
  }
}

=== FILE: java_strings.dfy ===
/**
 * The `java.lang.String` operations the modelled code relies on, over
 * `seq<char>`. Case mapping is restricted to ASCII letters.
 */
module JavaStrings {

  /** `s.startsWith(p)` */
  predicate StartsWith(s: string, p: string) {
    |p| <= |s| && s[..|p|] == p
  }

  /** `s.endsWith(p)` */
  predicate EndsWith(s: string, p: string) {
    |p| <= |s| && s[|s| - |p|..] == p
  }

  /** `s.indexOf(c)`: the first position of `c`, or -1. */
  function IndexOf(s: string, c: char): (k: int)
    ensures -1 <= k < |s|
    ensures k >= 0 ==> s[k] == c
    ensures k < 0 <==> c !in s
    ensures forall j :: 0 <= j < k ==> s[j] != c
    ensures k >= 0 ==> c !in s[..k]
  {
    if s == [] then -1
    else if s[0] == c then 0
    else
      var k := IndexOf(s[1..], c);
      if k < 0 then -1 else k + 1
  }

  /** `s.lastIndexOf(c)`: the last position of `c`, or -1. */
  function LastIndexOf(s: string, c: char): (k: int)
    ensures -1 <= k < |s|
    ensures k >= 0 ==> s[k] == c
    ensures k < 0 <==> c !in s
    ensures forall j :: k < j < |s| ==> s[j] != c
  {
    if s == [] then -1
    else if s[|s| - 1] == c then |s| - 1
    else LastIndexOf(s[..|s| - 1], c)
  }

  /** The first occurrence of `c` sits right after a prefix free of `c`. */
  lemma {:induction false} IndexOfAfterPrefix(a: string, c: char, b: string)
    requires c !in a
    ensures IndexOf(a + [c] + b, c) == |a|
  {
    var s := a + [c] + b;
    assert s[|a|] == c;
    assert forall j :: 0 <= j < |a| ==> s[j] == a[j];
  }

  /** Every field between separators `c`, empty ones included. */
  function Fields(s: string, c: char): (r: seq<string>)
    ensures |r| >= 1
    ensures forall i :: 0 <= i < |r| ==> c !in r[i]
    ensures c !in s ==> r == [s]
  {
    if s == [] then [""]
    else
      var rest := Fields(s[1..], c);
      if s[0] == c then [""] + rest
      else
        assert c !in s ==> c !in s[1..] && [s[0]] + s[1..] == s;
        [[s[0]] + rest[0]] + rest[1..]
  }

  /** A leading field free of the separator is split off whole. */
  lemma {:induction false} FieldsAfterPrefix(a: string, c: char, b: string)
    requires c !in a
    ensures Fields(a + [c] + b, c) == [a] + Fields(b, c)
  {
    var s := a + [c] + b;
    if a == [] {
      assert s[1..] == b;
    } else {
      FieldsAfterPrefix(a[1..], c, b);
      assert s[1..] == a[1..] + [c] + b;
      assert [a[0]] + a[1..] == a;
    }
  }

  /** `String.join(c, fields)` */
  function Join(fields: seq<string>, c: char): string
    requires |fields| >= 1
  {
    if |fields| == 1 then fields[0] else fields[0] + [c] + Join(fields[1..], c)
  }

  /** Joining the fields with the separator gives back the string. */
  lemma {:induction false} JoinFields(s: string, c: char)
    ensures Join(Fields(s, c), c) == s
  {
    if s != [] {
      JoinFields(s[1..], c);
      var rest := Fields(s[1..], c);
      if s[0] != c {
        if |rest| == 1 {
          assert Join(rest, c) == rest[0];
        } else {
          assert Join(rest, c) == rest[0] + [c] + Join(rest[1..], c);
        }
      }
    }
  }

  /** The fields without the trailing empty ones. */
  function DropTrailingEmpty(fields: seq<string>): (r: seq<string>)
    ensures |r| <= |fields| && r == fields[..|r|]
    ensures |r| > 0 ==> r[|r| - 1] != ""
    ensures forall i :: |r| <= i < |fields| ==> fields[i] == ""
  {
    if fields == [] then []
    else if fields[|fields| - 1] == "" then DropTrailingEmpty(fields[..|fields| - 1])
    else fields
  }

  /**
   * `s.split(c)` for a separator that is not a regular-expression
   * metacharacter: when `c` does not occur the result is `[s]` (even for
   * the empty string); otherwise the fields, trailing empty ones removed.
   */
  function Split(s: string, c: char): (r: seq<string>)
    ensures forall i :: 0 <= i < |r| ==> c !in r[i]
    ensures c !in s ==> r == [s]
  {
    if c !in s then [s] else DropTrailingEmpty(Fields(s, c))
  }

  /** `Character.toLowerCase` on ASCII letters; other characters are kept. */
  function LowerChar(c: char): char {
    if 'A' <= c <= 'Z' then (c as int - 'A' as int + 'a' as int) as char else c
  }

  /** `s.toLowerCase()` on ASCII letters. */
  function Lower(s: string): (r: string)
    ensures |r| == |s|
    ensures forall i :: 0 <= i < |s| ==> r[i] == LowerChar(s[i])
  {
    seq(|s|, i requires 0 <= i < |s| => LowerChar(s[i]))
  }
}

=== FILE: movie_serializer.dfy ===
/**
 * The serializer for audio and video resources (class
 * MovieResourceSerializer): which mime types it claims, which metadata item
 * it rebuilds a resource from, and how a search hit is turned into a
 * result item with a path.
 */
module MovieSerializer {
  import opened JavaErrors
  import opened JavaStrings
  import opened JavaNumbers

  /** Prefix of the path given to a movie that has no path of its own. */
  const URI_PREFIX: string := "/weblounge-movies/"

  /**
   * `supports(mimeType)`: true exactly for a non-null mime type that starts
   * with "audio/" or "video/", ignoring case.
   */
  function Supports(mimeType: Option<string>): (r: bool)
    ensures mimeType.None? ==> !r
  {
    match mimeType
    case None => false
    case Some(m) => StartsWith(Lower(m), "audio/") || StartsWith(Lower(m), "video/")
  }

  /**
   * Supports, stated on the first six characters alone: a mime type is
   * claimed iff it is at least six characters long and its first six
   * characters lower-case to "audio/" or "video/".
   */
  lemma SupportsByPrefix(m: string)
    ensures Supports(Some(m)) <==> |m| >= 6 && (Lower(m[..6]) == "audio/" || Lower(m[..6]) == "video/")
  {
    if |m| >= 6 {
      assert Lower(m)[..6] == Lower(m[..6]);
    }
  }

  /** Lower-casing the mime type first does not change the verdict. */
  lemma SupportsIgnoresCase(m: string)
    ensures Supports(Some(Lower(m))) == Supports(Some(m))
  {
    assert Lower(Lower(m)) == Lower(m);
  }

  /** The names of the metadata fields the serializer reads. */
  datatype Field = Xml | HeaderXml | Path | ResourceId | Version | OtherField(name: string)

  /** A metadata value: a string, a `Long`, or anything else. */
  datatype Value = Text(text: string) | LongValue(n: int) | OtherValue

  datatype Metadata = Metadata(name: Field, values: seq<Value>)

  /** `(String) item.getValues().get(0)` */
  function FirstText(item: Metadata): (r: Result<string>)
    ensures r.Ok? <==> |item.values| > 0 && item.values[0].Text?
    ensures r.Ok? ==> r.value == item.values[0].text
  {
    if |item.values| == 0 then Err(IndexOutOfBounds)
    else if !item.values[0].Text? then Err(ClassCast)
    else Ok(item.values[0].text)
  }

  /** `(Long) item.getValues().get(0)` */
  function FirstLong(item: Metadata): (r: Result<int>)
    ensures r.Ok? <==> |item.values| > 0 && item.values[0].LongValue?
    ensures r.Ok? ==> r.value == item.values[0].n
  {
    if |item.values| == 0 then Err(IndexOutOfBounds)
    else if !item.values[0].LongValue? then Err(ClassCast)
    else Ok(item.values[0].n)
  }

  /** The position of the first item named `f`, or -1. */
  function FirstNamed(md: seq<Metadata>, f: Field): (k: int)
    ensures -1 <= k < |md|
    ensures k >= 0 ==> md[k].name == f
    ensures forall j :: 0 <= j < |md| && (k < 0 || j < k) ==> md[j].name != f
  {
    if md == [] then -1
    else if md[0].name == f then 0
    else
      var k := FirstNamed(md[1..], f);
      if k < 0 then -1 else k + 1
  }

  /**
   * The position of the last item named `f`, or -1: the item a `HashMap`
   * filled in list order keeps for that name.
   */
  function LastNamed(md: seq<Metadata>, f: Field): (k: int)
    ensures -1 <= k < |md|
    ensures k >= 0 ==> md[k].name == f
    ensures forall j :: k < j < |md| ==> md[j].name != f
  {
    if md == [] then -1
    else if md[|md| - 1].name == f then |md| - 1
    else LastNamed(md[..|md| - 1], f)
  }

  /**
   * `toResource(site, metadata)`, up to the XML reader: `None` (a null
   * resource) when no item is named XML, otherwise the first value of the
   * FIRST such item, which is what the reader parses.
   */
  function ResourceXml(md: seq<Metadata>): (r: Result<Option<string>>)
    ensures r == Ok(None) <==> forall j :: 0 <= j < |md| ==> md[j].name != Xml
    ensures r.Ok? && r.value.Some? ==>
      exists k :: 0 <= k < |md| && md[k].name == Xml && FirstText(md[k]) == Ok(r.value.value)
        && forall j :: 0 <= j < k ==> md[j].name != Xml
    ensures r.Ok? <==> FirstNamed(md, Xml) < 0 || FirstText(md[FirstNamed(md, Xml)]).Ok?
    ensures r.Err? ==> r.error == FirstText(md[FirstNamed(md, Xml)]).error
  {
    var k := FirstNamed(md, Xml);
    if k < 0 then Ok(None)
    else
      var xml :- FirstText(md[k]);
      Ok(Some(xml))
  }

  /**
   * The `for` loop of `toResource` over the list: the first item named XML
   * ends it with its first value; a list without one gives null.
   */
  function ScanForXml(md: seq<Metadata>): Result<Option<string>> {
    if md == [] then Ok(None)
    else if md[0].name == Xml then
      var xml :- FirstText(md[0]);
      Ok(Some(xml))
    else ScanForXml(md[1..])
  }

  /** Reading the first XML item is the loop of `toResource`. */
  lemma {:induction false} ResourceXmlIsScan(md: seq<Metadata>)
    ensures ResourceXml(md) == ScanForXml(md)
  {
    if md != [] && md[0].name != Xml {
      ResourceXmlIsScan(md[1..]);
      var k := FirstNamed(md[1..], Xml);
      if k >= 0 {
        assert md[k + 1] == md[1..][k];
      }
    }
  }

  /** What a search hit becomes. */
  datatype SearchItem = SearchItem(
    id: string,
    version: int,
    path: string,
    resourceXml: Option<string>,
    headerXml: Option<string>)

  /** The first value of the item the map keeps for `f`, if there is one. */
  function OptionalText(md: seq<Metadata>, f: Field): Result<Option<string>> {
    var k := LastNamed(md, f);
    if k < 0 then Ok(None)
    else
      var t :- FirstText(md[k]);
      Ok(Some(t))
  }

  /** The item kept for `f` is absent, or its first value is a string. */
  predicate TextOrAbsent(md: seq<Metadata>, f: Field) {
    LastNamed(md, f) < 0 || FirstText(md[LastNamed(md, f)]).Ok?
  }

  /**
   * What `toSearchResultItem` needs to succeed: a resource id item whose
   * first value is a string, a version item whose first value is a `Long`,
   * and a string first value in each path, XML and header XML item kept.
   */
  predicate Readable(md: seq<Metadata>) {
    && LastNamed(md, ResourceId) >= 0 && FirstText(md[LastNamed(md, ResourceId)]).Ok?
    && LastNamed(md, Version) >= 0 && FirstLong(md[LastNamed(md, Version)]).Ok?
    && TextOrAbsent(md, Path) && TextOrAbsent(md, Xml) && TextOrAbsent(md, HeaderXml)
  }

  /**
   * `toSearchResultItem(site, relevance, metadata)`: the metadata is put in
   * a map by name, so for each name the last item wins. The resource id and
   * version must be present; the path is the PATH item's first value or,
   * without one, the movie prefix, a "/" and the id.
   */
  function ToSearchResultItem(md: seq<Metadata>): (r: Result<SearchItem>)
    ensures LastNamed(md, ResourceId) < 0 ==> r == Err(NullPointer)
    ensures r.Ok? ==> LastNamed(md, ResourceId) >= 0 && LastNamed(md, Version) >= 0
    ensures r.Ok? ==> Ok(r.value.id) == FirstText(md[LastNamed(md, ResourceId)])
    ensures r.Ok? ==> Ok(r.value.version) == FirstLong(md[LastNamed(md, Version)])
    ensures r.Ok? && LastNamed(md, Path) < 0 ==> r.value.path == URI_PREFIX + "/" + r.value.id
    ensures r.Ok? && LastNamed(md, Path) >= 0 ==> Ok(r.value.path) == FirstText(md[LastNamed(md, Path)])
    ensures r.Ok? ==> (r.value.resourceXml.None? <==> LastNamed(md, Xml) < 0)
    ensures r.Ok? && r.value.resourceXml.Some? ==>
      Ok(r.value.resourceXml.value) == FirstText(md[LastNamed(md, Xml)])
    ensures r.Ok? ==> (r.value.headerXml.None? <==> LastNamed(md, HeaderXml) < 0)
    ensures r.Ok? && r.value.headerXml.Some? ==>
      Ok(r.value.headerXml.value) == FirstText(md[LastNamed(md, HeaderXml)])
    ensures r.Ok? <==> Readable(md)
  {
    var ki := LastNamed(md, ResourceId);
    if ki < 0 then Err(NullPointer)
    else
      var id :- FirstText(md[ki]);
      var kv := LastNamed(md, Version);
      if kv < 0 then Err(NullPointer)
      else
        var version :- FirstLong(md[kv]);
        var kp := LastNamed(md, Path);
        var path :- if kp >= 0 then FirstText(md[kp]) else Ok(URI_PREFIX + "/" + id);
        var xml :- OptionalText(md, Xml);
        var header :- OptionalText(md, HeaderXml);
        Ok(SearchItem(id, version, path, xml, header))
  }

  /** The `HashMap` filled by `put(item.getName(), item)` in list order. */
  function MapOf(md: seq<Metadata>): map<Field, Metadata> {
    if md == [] then map[]
    else MapOf(md[..|md| - 1])[md[|md| - 1].name := md[|md| - 1]]
  }

  /** The map holds, for each name, the last item of that name. */
  lemma {:induction false} MapOfKeepsLast(md: seq<Metadata>, f: Field)
    ensures f in MapOf(md) <==> LastNamed(md, f) >= 0
    ensures f in MapOf(md) ==> MapOf(md)[f] == md[LastNamed(md, f)]
  {
    if md != [] && md[|md| - 1].name != f {
      MapOfKeepsLast(md[..|md| - 1], f);
      var k := LastNamed(md[..|md| - 1], f);
      if k >= 0 {
        assert md[..|md| - 1][k] == md[k];
      }
    }
  }

  /** `(String) map.get(f).getValues().get(0)`, or null when `f` is absent. */
  function OptionalEntry(m: map<Field, Metadata>, f: Field): Result<Option<string>> {
    if f !in m then Ok(None)
    else
      var t :- FirstText(m[f]);
      Ok(Some(t))
  }

  /**
   * `toSearchResultItem` read off the map, statement by statement: a
   * missing id or version is a NullPointerException on `get(...)`.
   */
  function FromMap(m: map<Field, Metadata>): Result<SearchItem> {
    if ResourceId !in m then Err(NullPointer)
    else
      var id :- FirstText(m[ResourceId]);
      if Version !in m then Err(NullPointer)
      else
        var version :- FirstLong(m[Version]);
        var path :- if Path in m then FirstText(m[Path]) else Ok(URI_PREFIX + "/" + id);
        var xml :- OptionalEntry(m, Xml);
        var header :- OptionalEntry(m, HeaderXml);
        Ok(SearchItem(id, version, path, xml, header))
  }

  /** The search result item is what the method reads from its map. */
  lemma ToSearchResultItemReadsMap(md: seq<Metadata>)
    ensures ToSearchResultItem(md) == FromMap(MapOf(md))
  {
    MapOfKeepsLast(md, ResourceId);
    MapOfKeepsLast(md, Version);
    MapOfKeepsLast(md, Path);
    MapOfKeepsLast(md, Xml);
    MapOfKeepsLast(md, HeaderXml);
  }

  /** The default path has a doubled slash between the prefix and the id. */
  lemma DefaultPathHasDoubleSlash(md: seq<Metadata>)
    requires ToSearchResultItem(md).Ok? && LastNamed(md, Path) < 0
    ensures var p := ToSearchResultItem(md).value.path;
      StartsWith(p, "/weblounge-movies//") && p[19..] == ToSearchResultItem(md).value.id
  {
  }

  /**
   * With two XML items, the resource is rebuilt from the first while the
   * search result item carries the second.
   */
  lemma FirstAndLastXmlDiffer()
    ensures var md := [Metadata(Xml, [Text("a")]), Metadata(Xml, [Text("b")]),
                       Metadata(ResourceId, [Text("i")]), Metadata(Version, [LongValue(0)])];
      ResourceXml(md) == Ok(Some("a")) && ToSearchResultItem(md).Ok?
      && ToSearchResultItem(md).value.resourceXml == Some("b")
  {
    var md := [Metadata(Xml, [Text("a")]), Metadata(Xml, [Text("b")]),
               Metadata(ResourceId, [Text("i")]), Metadata(Version, [LongValue(0)])];
    assert FirstNamed(md, Xml) == 0;
    assert LastNamed(md, Xml) == 1 by {
      assert md[..3][..2] == md[..2];
    }
    assert OptionalText(md, Xml) == Ok(Some("b"));
  }
}

=== FILE: resource_utils.dfy ===
/**
 * Version names and document names of resources (class ResourceUtils).
 *
 * A version is a `long`. Two of them are distinguished: `Resource.LIVE`,
 * named "live" (or "index") with document "index.xml", and
 * `Resource.WORK`, named "work" with document "work.xml". Every other
 * version is named by its decimal value and its document is that value
 * followed by ".xml".
 */
module ResourceUtils {
  import opened JavaErrors
  import opened JavaNumbers

  /**
   * The values of `Resource.LIVE` and `Resource.WORK`. The interface that
   * defines them is not part of this model, so every operation takes them
   * as a parameter and every property holds for any choice of them.
   */
  datatype Markers = Markers(live: int, work: int)

  /** Two distinct `long` constants. */
  predicate WellFormed(m: Markers) {
    IsLong(m.live) && IsLong(m.work) && m.live != m.work
  }

  /** A decimal rendering is never one of the reserved words. */
  lemma LongToStringNotReserved(v: int)
    ensures LongToString(v) != "live" && LongToString(v) != "index" && LongToString(v) != "work"
  {
    var t := LongToString(v);
    assert t[0] == '-' || DigitValue(t[0], 10).Some?;
  }

  /** The names `getVersion` reads as a marker. */
  predicate Reserved(name: string) {
    name == "live" || name == "index" || name == "work"
  }

  /**
   * `getVersion(version)`: "live" and "index" name LIVE, "work" names WORK,
   * a `long` in decimal names itself, and anything else (null included)
   * yields -1.
   */
  function GetVersion(m: Markers, version: Option<string>): (r: int)
    ensures version == Some("live") || version == Some("index") ==> r == m.live
    ensures version == Some("work") ==> r == m.work
    ensures version.None? ==> r == -1
    ensures WellFormed(m) ==> IsLong(r)
    ensures version.Some? && !Reserved(version.value) ==>
      r == (if ParseLong(version, 10).Ok? then ParseLong(version, 10).value else -1)
  {
    if version == Some("live") || version == Some("index") then m.live
    else if version == Some("work") then m.work
    else
      match ParseLong(version, 10)
      case Ok(v) => v
      case Err(_) => -1
  }

  /** `getDocument(version)`: the name of the XML document holding a version. */
  function GetDocument(m: Markers, version: int): (r: string)
    ensures |r| > 4 && r[|r| - 4..] == ".xml"
    ensures version == m.live ==> r == "index.xml"
  {
    if version == m.live then "index.xml"
    else if version == m.work then "work.xml"
    else LongToString(version) + ".xml"
  }

  /** `getVersionString(version)`: the name of a version. */
  function GetVersionString(m: Markers, version: int): (r: string)
    ensures r == "live" <==> version == m.live
    ensures r == "work" <==> version == m.work && version != m.live
    ensures r != "index"
    ensures version != m.live && version != m.work ==> r == LongToString(version)
  {
    LongToStringNotReserved(version);
    if version == m.live then "live"
    else if version == m.work then "work"
    else LongToString(version)
  }

  /** Naming a version and reading the name back gives the version. */
  lemma VersionRoundTrip(m: Markers, v: int)
    requires IsLong(v)
    ensures GetVersion(m, Some(GetVersionString(m, v))) == v
  {
    if v != m.live && v != m.work {
      LongToStringNotReserved(v);
      LongRoundTrip(v);
    }
  }

  /**
   * The converse round trip fails: "index" names LIVE, whose name is
   * "live".
   */
  lemma IndexNameIsNotKept(m: Markers)
    ensures GetVersionString(m, GetVersion(m, Some("index"))) == "live"
  {
  }

  /**
   * An unparseable name and the name "-1" both yield -1, so -1 cannot tell
   * an error from a genuine version -1.
   */
  lemma UnparseableCollidesWithMinusOne(m: Markers)
    ensures GetVersion(m, Some("abc")) == -1
    ensures GetVersion(m, Some("-1")) == -1
  {
    assert ParseLong(Some("abc"), 10).Err? by {
      assert DigitValue('a', 10).None?;
    }
    assert DigitsValue("1", 10) == 1 by {
      assert DigitsValue("", 10) == 0;
    }
  }

  /**
   * A decimal numeral, optionally signed, names the version it spells: its
   * digits' value, negated after a '-'.
   */
  lemma DecimalNamesItsValue(m: Markers, sign: string, digits: string)
    requires sign == "" || sign == "-" || sign == "+"
    requires digits != [] && AllDigits(digits, 10)
    requires IsLong(if sign == "-" then 0 - (DigitsValue(digits, 10) as int) else DigitsValue(digits, 10) as int)
    ensures GetVersion(m, Some(sign + digits)) ==
      (if sign == "-" then 0 - (DigitsValue(digits, 10) as int) else DigitsValue(digits, 10) as int)
  {
    var t := sign + digits;
    assert DigitValue(digits[0], 10).Some?;
    assert t[0] == (if sign == "" then digits[0] else sign[0]);
    if sign != "" {
      assert t[1..] == digits;
    } else {
      assert t == digits;
      assert t[0] != '-' && t[0] != '+';
    }
    assert ParseLong(Some(t), 10).Ok?;
  }

  /**
   * A name that is not a marker and has a character that is no decimal
   * digit, other than a leading sign, reads as -1; so does the empty name.
   */
  lemma NonNumeralNamesMinusOne(m: Markers, name: string, i: int)
    requires !Reserved(name)
    requires 0 <= i < |name| && DigitValue(name[i], 10).None?
    requires i == 0 ==> name[0] != '-' && name[0] != '+'
    ensures GetVersion(m, Some(name)) == -1
    ensures GetVersion(m, Some("")) == -1
  {
    if name[0] == '-' || name[0] == '+' {
      assert name[1..][i - 1] == name[i];
    }
  }

  /** Distinct versions are stored in distinct documents. */
  lemma GetDocumentInjective(m: Markers, a: int, b: int)
    requires WellFormed(m) && IsLong(a) && IsLong(b)
    requires GetDocument(m, a) == GetDocument(m, b)
    ensures a == b
  {
    var da, db := GetDocument(m, a), GetDocument(m, b);
    StemOfDocument(m, a);
    StemOfDocument(m, b);
    LongToStringNotReserved(a);
    LongToStringNotReserved(b);
    assert da[..|da| - 4] == db[..|db| - 4];
    if a != m.live && a != m.work && b != m.live && b != m.work {
      LongToStringInjective(a, b);
    }
  }

  /** The document name without ".xml". */
  lemma StemOfDocument(m: Markers, v: int)
    ensures var d := GetDocument(m, v);
      d[..|d| - 4] == (if v == m.live then "index" else if v == m.work then "work" else LongToString(v))
  {
    LongToStringNotReserved(v);
    var d := GetDocument(m, v);
    if v != m.live && v != m.work {
      assert d == LongToString(v) + ".xml";
      assert d[..|d| - 4] == LongToString(v);
    }
  }
}

=== FILE: uri_index.dfy ===
/**
 * The URI index (class URIIndex): a file of fixed-width slots mapping
 * resource identifiers to paths, behind a 24-byte header.
 *
 * Slot `e` starts at byte 24 + e * (bytesPerId + bytesPerPath). An occupied
 * slot holds the identifier (exactly `bytesPerId` bytes) followed by the
 * path, a '\n' terminator and zero padding up to `bytesPerPath` bytes. A
 * free slot starts with a '\n'.
 *
 * This module models the index at slot level: `cells` maps every occupied
 * slot number to its entry, and every other slot number is free. Strings
 * stand for byte strings, one character per byte. The byte-level code
 * departs from this design in a few places; the functions ending in
 * `AsWritten` model those places and the lemmas next to them exhibit the
 * difference.
 */
module UriIndex {
  import opened JavaErrors
  import opened JavaStrings

  /** Size of the file header in bytes. */
  const HEADER_SIZE: nat := 24

  /** Default widths of the identifier and path fields (a UUID, 128 bytes). */
  const DEFAULT_BYTES_PER_ID: nat := 36
  const DEFAULT_BYTES_PER_PATH: nat := 128

  /** The path terminator and free-slot marker. */
  const NL: char := '\n'

  /** The identifier and path stored in an occupied slot. */
  datatype Entry = Entry(id: string, path: string)

  datatype Index = Index(
    cells: map<nat, Entry>,  // the occupied slots
    entries: int,            // the `entries` counter
    slots: int,              // the `slots` counter (occupied and free slots)
    bytesPerId: int,
    bytesPerPath: int,
    readOnly: bool)

  /**
   * The design invariant: the entry counter is the number of occupied
   * slots, every occupied slot lies below the slot counter, and every path
   * leaves room for its terminator.
   */
  predicate Valid(ix: Index) {
    && ix.bytesPerId > 0
    && ix.bytesPerPath > 0
    && ix.slots >= 0
    && ix.entries == |ix.cells|
    && (forall k :: k in ix.cells ==> k < ix.slots)
    && (forall k :: k in ix.cells ==> |ix.cells[k].path| < ix.bytesPerPath)
  }

  /** A freshly initialized index file. */
  function Create(bytesPerId: int, bytesPerPath: int, readOnly: bool): (ix: Index)
    ensures bytesPerId > 0 && bytesPerPath > 0 ==> Valid(ix)
    ensures ix.entries == 0 && ix.slots == 0
  {
    Index(map[], 0, 0, bytesPerId, bytesPerPath, readOnly)
  }

  /**
   * `size()`: the file size in bytes implied by the slot counter, with the
   * entry width `init` and `resize` set.
   */
  function Size(ix: Index): (n: int)
    ensures ix.slots == 0 ==> n == HEADER_SIZE
    ensures ix.slots >= 0 && ix.bytesPerId > 0 && ix.bytesPerPath > 0 ==> n >= HEADER_SIZE + ix.slots
  {
    HEADER_SIZE + ix.slots * (ix.bytesPerId + ix.bytesPerPath)
  }

  // ---------------------------------------------------------------------
  // Counting slots

  /** A set of slot numbers all below `n` has at most `n` members. */
  lemma {:induction false} BoundedCard(s: set<nat>, n: nat)
    requires forall k :: k in s ==> k < n
    ensures |s| <= n
  {
    if n == 0 {
      assert s == {} by {
        if k :| k in s {
          assert false;
        }
      }
    } else {
      var s' := s - {n - 1};
      BoundedCard(s', n - 1);
      assert s <= s' + {n - 1};
    }
  }

  /** A set holding every slot number below `n` has at least `n` members. */
  lemma {:induction false} CoveringCard(s: set<nat>, n: nat)
    requires forall j :: 0 <= j < n ==> j in s
    ensures |s| >= n
  {
    if n > 0 {
      var s' := s - {n - 1};
      CoveringCard(s', n - 1);
      assert s == s' + {n - 1};
    }
  }

  /** In a valid index there are no more entries than slots. */
  lemma EntriesBelowSlots(ix: Index)
    requires Valid(ix)
    ensures 0 <= ix.entries <= ix.slots
  {
    BoundedCard(ix.cells.Keys, ix.slots);
  }

  /**
   * If the `n` slots below `n` are all occupied and there are exactly `n`
   * occupied slots, slot `n` is free.
   */
  lemma PackedBelow(cells: map<nat, Entry>, n: nat)
    requires |cells| == n
    requires forall j :: 0 <= j < n ==> j in cells
    ensures n !in cells
  {
    if n in cells {
      CoveringCard(cells.Keys, n + 1);
    }
  }

  // ---------------------------------------------------------------------
  // Path widths

  function Pow2(k: nat): (r: nat)
    ensures r >= 1
  {
    if k == 0 then 1 else 2 * Pow2(k - 1)
  }

  /** The number of doublings that take a width `w` to at least `len`. */
  function Doublings(w: nat, len: int): (k: nat)
    requires w > 0
    ensures w * Pow2(k) >= len
    ensures k > 0 ==> w * Pow2(k - 1) < len
    decreases len - w
  {
    if w < len then
      var k := Doublings(2 * w, len);
      assert w * Pow2(k + 1) == 2 * w * Pow2(k);
      k + 1
    else 0
  }

  lemma ScaleDoublings(b: nat, k: nat)
    ensures 2 * b * Pow2(k) == b * Pow2(k + 1)
    ensures k > 0 ==> 2 * b * Pow2(k) == 2 * (2 * b * Pow2(k - 1))
  {
    assert Pow2(k + 1) == 2 * Pow2(k);
    if k > 0 {
      assert Pow2(k) == 2 * Pow2(k - 1);
    }
  }

  /**
   * The path width `add` and `update` switch to when a path of `len` bytes
   * does not fit, AS WRITTEN: double the width, then keep doubling while it
   * is below `len`. The result can EQUAL `len`, leaving no byte for the
   * terminator.
   */
  function WidenAsWritten(bytesPerPath: nat, len: int): (w: nat)
    requires bytesPerPath > 0
    ensures w >= len && w >= 2 * bytesPerPath
    ensures exists k: nat :: k >= 1 && w == bytesPerPath * Pow2(k)
    ensures w == 2 * bytesPerPath || w < 2 * len
  {
    var k := Doublings(2 * bytesPerPath, len);
    ScaleDoublings(bytesPerPath, k);
    2 * bytesPerPath * Pow2(k)
  }

  /**
   * The intended widening: the smallest width `bytesPerPath * 2^k`, k >= 1,
   * that holds the path AND its terminator.
   */
  function Widen(bytesPerPath: nat, len: int): (w: nat)
    requires bytesPerPath > 0
    ensures w > len && w >= 2 * bytesPerPath
    ensures exists k: nat :: k >= 1 && w == bytesPerPath * Pow2(k)
    ensures w == 2 * bytesPerPath || w <= 2 * len
  {
    WidenAsWritten(bytesPerPath, len + 1)
  }

  /** A 256-byte path in a 128-byte field is widened to exactly 256 bytes. */
  lemma WidenAsWrittenFillsField()
    ensures WidenAsWritten(128, 256) == 256
    ensures Widen(128, 256) == 512
  {
    assert Doublings(256, 256) == 0;
    assert Doublings(512, 257) == 0;
    assert Doublings(256, 257) == 1;
  }

  // ---------------------------------------------------------------------
  // Resizing

  /**
   * `resize(newBytesPerId, newBytesPerPath)`: refuses to narrow a field
   * while the index has entries, and refuses on a read-only index;
   * otherwise every slot is copied into the new layout, so the entries,
   * the counters and the read-only flag are kept.
   */
  function Resize(ix: Index, newBytesPerId: int, newBytesPerPath: int): (r: Result<Index>)
    ensures r.Err? <==>
      (ix.bytesPerId > newBytesPerId && ix.entries > 0)
      || (ix.bytesPerPath > newBytesPerPath && ix.entries > 0)
      || ix.readOnly
    ensures r.Err? ==> r.error == IllegalState
    ensures r.Ok? ==> r.value.bytesPerId == newBytesPerId && r.value.bytesPerPath == newBytesPerPath
    ensures r.Ok? ==> r.value.cells == ix.cells && r.value.entries == ix.entries
    ensures r.Ok? ==> r.value.slots == ix.slots && r.value.readOnly == ix.readOnly
  {
    if ix.bytesPerId > newBytesPerId && ix.entries > 0 then Err(IllegalState)
    else if ix.bytesPerPath > newBytesPerPath && ix.entries > 0 then Err(IllegalState)
    else if ix.readOnly then Err(IllegalState)
    else Ok(ix.(bytesPerId := newBytesPerId, bytesPerPath := newBytesPerPath))
  }

  /** Resizing to positive widths that do not narrow keeps a valid index valid. */
  lemma ResizePreservesValid(ix: Index, newBytesPerId: int, newBytesPerPath: int)
    requires Valid(ix) && newBytesPerId > 0 && newBytesPerPath > 0
    requires Resize(ix, newBytesPerId, newBytesPerPath).Ok?
    ensures Valid(Resize(ix, newBytesPerId, newBytesPerPath).value)
  {
    if ix.entries == 0 {
      assert ix.cells == map[];
    }
  }

  /**
   * `resize` AS WRITTEN: the copy loop runs `entries` times, so only slots
   * below the entry counter survive; an occupied slot above it is lost.
   */
  function ResizeAsWritten(ix: Index, newBytesPerId: int, newBytesPerPath: int): (r: Result<Index>)
    ensures r.Ok? ==> forall k :: k in r.value.cells <==> k in ix.cells && k < ix.entries
    ensures r.Ok? ==> r.value.entries == ix.entries && r.value.slots == ix.slots
  {
    var resized :- Resize(ix, newBytesPerId, newBytesPerPath);
    Ok(resized.(cells := map k | k in ix.cells && k < ix.entries :: ix.cells[k]))
  }

  /**
   * After slot 0 of two is deleted, the entry in slot 1 lies above the
   * entry counter, and the as-written resize drops it.
   */
  lemma ResizeAsWrittenDropsEntry()
    ensures var ix := Index(map[1 := Entry("b", "/b")], 1, 2, 1, 4, false);
      && Valid(ix)
      && ResizeAsWritten(ix, 1, 8).Ok?
      && ResizeAsWritten(ix, 1, 8).value.cells == map[]
      && Resize(ix, 1, 8).value.cells == ix.cells
  {
    var ix := Index(map[1 := Entry("b", "/b")], 1, 2, 1, 4, false);
    assert ResizeAsWritten(ix, 1, 8).value.cells.Keys == {};
  }

  // ---------------------------------------------------------------------
  // Adding

  /**
   * The slot the reuse scan settles on: the first free slot below `n`, or
   * `n` itself when every slot below it is occupied.
   */
  function FirstFree(cells: map<nat, Entry>, n: nat): (k: nat)
    ensures k <= n
    ensures forall j :: 0 <= j < k ==> j in cells
    ensures k < n ==> k !in cells
  {
    FirstFreeFrom(cells, 0, n)
  }

  function FirstFreeFrom(cells: map<nat, Entry>, i: nat, n: nat): (k: nat)
    requires i <= n
    requires forall j :: 0 <= j < i ==> j in cells
    ensures i <= k <= n
    ensures forall j :: 0 <= j < k ==> j in cells
    ensures k < n ==> k !in cells
    decreases n - i
  {
    if i == n || i !in cells then i else FirstFreeFrom(cells, i + 1, n)
  }

  /**
   * Writes the entry into slot `slot` and bumps the counters; the slot
   * counter grows only when the slot was not reused.
   */
  function Place(ix: Index, slot: nat, e: Entry): (r: Index)
    requires ix.entries >= 0
  {
    ix.(cells := ix.cells[slot := e],
        entries := ix.entries + 1,
        slots := if slot < ix.entries then ix.slots else ix.slots + 1)
  }

  /**
   * `add(id, path)`: refuses an identifier whose length is not the id
   * width; widens the path field first when the path does not fit; then
   * writes the entry into the first free slot below the entry counter, or
   * into slot `entries` if there is none, and returns the slot number.
   * A read-only index refuses the write (and a widening) before anything
   * changes.
   */
  function Add(ix: Index, id: string, path: string): (r: Result<(Index, nat)>)
    ensures |id| != ix.bytesPerId ==> r == Err(IllegalArgument)
    ensures r.Ok? <==> |id| == ix.bytesPerId && !ix.readOnly && ix.entries >= 0 && ix.bytesPerPath > 0
    ensures r.Ok? ==> var (ix', s) := r.value;
      && ix'.cells == ix.cells[s := Entry(id, path)]
      && ix'.entries == ix.entries + 1
      && (ix'.slots == ix.slots <==> s < ix.entries)
      && (ix'.slots == ix.slots || ix'.slots == ix.slots + 1)
      && s <= ix.entries
      && (forall j :: 0 <= j < s ==> j in ix.cells)
      && (s < ix.entries ==> s !in ix.cells)
      && ix'.bytesPerId == ix.bytesPerId && ix'.readOnly == ix.readOnly
      && ix'.bytesPerPath == (if |path| >= ix.bytesPerPath then Widen(ix.bytesPerPath, |path|) else ix.bytesPerPath)
  {
    if |id| != ix.bytesPerId then Err(IllegalArgument)
    else if ix.bytesPerPath <= 0 then Err(IllegalState)
    else
      var widened :-
        if |path| >= ix.bytesPerPath then Resize(ix, ix.bytesPerId, Widen(ix.bytesPerPath, |path|))
        else Ok(ix);
      if widened.readOnly then Err(IOFailure)
      else if widened.entries < 0 then Err(IOFailure)
      else
        var s := FirstFree(widened.cells, widened.entries);
        Ok((Place(widened, s, Entry(id, path)), s))
  }

  /** `add` keeps the index valid and never overwrites an occupied slot. */
  lemma AddPreservesValid(ix: Index, id: string, path: string)
    requires Valid(ix) && Add(ix, id, path).Ok?
    ensures Valid(Add(ix, id, path).value.0)
    ensures Add(ix, id, path).value.1 !in ix.cells
  {
    var (ix', s) := Add(ix, id, path).value;
    EntriesBelowSlots(ix);
    if s == ix.entries {
      PackedBelow(ix.cells, ix.entries);
    }
    assert s !in ix.cells;
    assert |ix'.cells| == |ix.cells| + 1;
    forall k | k in ix'.cells
      ensures k < ix'.slots && |ix'.cells[k].path| < ix'.bytesPerPath
    {
      if k != s {
        assert k in ix.cells;
      }
    }
  }

  /** Reusing a slot is what keeps `size()` unchanged. */
  lemma AddSize(ix: Index, id: string, path: string)
    requires Valid(ix) && Add(ix, id, path).Ok? && |path| < ix.bytesPerPath
    ensures var (ix', s) := Add(ix, id, path).value;
      Size(ix') == Size(ix) + (if s < ix.entries then 0 else ix.bytesPerId + ix.bytesPerPath)
  {
  }

  /**
   * `add` AS WRITTEN at byte level: the reuse scan reads two bytes with
   * `readChar()` and compares them with '\n', but a free slot starts with
   * the bytes '\n', 0, which read as the character 0x0A00. The scan never
   * finds a free slot, so the entry always goes to slot `entries` and the
   * slot counter always grows.
   */
  function AddAsWritten(ix: Index, id: string, path: string): (r: Result<(Index, nat)>)
    ensures r.Ok? ==> r.value.1 == ix.entries && r.value.0.slots == ix.slots + 1
    ensures r.Ok? ==> r.value.0.cells == ix.cells[r.value.1 := Entry(id, path)]
  {
    if |id| != ix.bytesPerId then Err(IllegalArgument)
    else if ix.bytesPerPath <= 0 then Err(IllegalState)
    else
      var widened :-
        if |path| >= ix.bytesPerPath then Resize(ix, ix.bytesPerId, WidenAsWritten(ix.bytesPerPath, |path|))
        else Ok(ix);
      if widened.readOnly || widened.entries < 0 then Err(IOFailure)
      else
        Ok((widened.(cells := widened.cells[widened.entries := Entry(id, path)],
                     entries := widened.entries + 1,
                     slots := widened.slots + 1), widened.entries))
  }

  /**
   * Two entries are added and the first is deleted. The as-written add
   * then writes into slot 1 and destroys the live entry "b", where the
   * reuse rule picks the freed slot 0.
   */
  lemma AddAsWrittenOverwritesLiveEntry()
    ensures var ix := Index(map[1 := Entry("b", "/b")], 1, 2, 1, 4, false);
      && Valid(ix)
      && AddAsWritten(ix, "c", "/c") == Ok((Index(map[1 := Entry("c", "/c")], 2, 3, 1, 4, false), 1))
      && Add(ix, "c", "/c") == Ok((Index(map[0 := Entry("c", "/c"), 1 := Entry("b", "/b")], 2, 2, 1, 4, false), 0))
  {
    var ix := Index(map[1 := Entry("b", "/b")], 1, 2, 1, 4, false);
    assert 0 !in ix.cells;
    assert FirstFree(ix.cells, 1) == 0;
    assert ix.cells[1 := Entry("c", "/c")] == map[1 := Entry("c", "/c")];
    assert ix.cells[0 := Entry("c", "/c")] == map[0 := Entry("c", "/c"), 1 := Entry("b", "/b")];
  }

  // ---------------------------------------------------------------------
  // Reading

  /** The bytes of the path field: the path, its terminator, cut to the width. */
  function PathField(path: string, width: int): (f: string)
    ensures |f| <= |path| + 1
    ensures f == (path + [NL])[..|f|]
  {
    var full := path + [NL];
    if width < 0 then [] else if width < |full| then full[..width] else full
  }

  /**
   * `getId(entry)`: the identifier of an occupied slot. A negative slot
   * number is an I/O error here (the source may land in the header, see
   * README); a free slot, or one whose first byte is '\n', raises
   * IllegalStateException.
   */
  function GetId(ix: Index, e: int): (r: Result<string>)
    ensures e < 0 ==> r == Err(IOFailure)
    ensures e >= 0 && e !in ix.cells ==> r == Err(IllegalState)
    ensures r.Ok? ==> e >= 0 && e in ix.cells && r.value == ix.cells[e].id
    ensures r.Ok? ==> !StartsWith(r.value, [NL])
  {
    if e < 0 then Err(IOFailure)
    else if e !in ix.cells then Err(IllegalState)
    else if StartsWith(ix.cells[e].id, [NL]) then Err(IllegalState)
    else Ok(ix.cells[e].id)
  }

  /**
   * `getPath(entry)`: the bytes of the path field up to the first '\n'.
   * A negative slot number is an I/O error here, as for `getId`; a free
   * slot, or a field without a '\n', raises IllegalStateException.
   */
  function GetPath(ix: Index, e: int): (r: Result<string>)
    ensures e < 0 ==> r == Err(IOFailure)
    ensures e >= 0 && e !in ix.cells ==> r == Err(IllegalState)
    ensures r.Ok? ==> e >= 0 && e in ix.cells && StartsWith(ix.cells[e].path + [NL], r.value + [NL])
    ensures r.Ok? ==> NL !in r.value
  {
    if e < 0 then Err(IOFailure)
    else if e !in ix.cells then Err(IllegalState)
    else
      var field := PathField(ix.cells[e].path, ix.bytesPerPath);
      var k := IndexOf(field, NL);
      if k < 0 then Err(IllegalState)
      else
        assert field[..k + 1] == field[..k] + [NL];
        Ok(field[..k])
  }

  /** A path that fits its field reads back whole iff it holds no '\n'. */
  lemma ReadBackPath(ix: Index, e: nat)
    requires e in ix.cells && |ix.cells[e].path| < ix.bytesPerPath
    ensures GetPath(ix, e) == Ok(ix.cells[e].path) <==> NL !in ix.cells[e].path
    ensures GetPath(ix, e).Ok?
  {
    var p := ix.cells[e].path;
    assert PathField(p, ix.bytesPerPath) == p + [NL];
    if NL !in p {
      IndexOfAfterPrefix(p, NL, []);
      assert (p + [NL])[..|p|] == p;
    } else {
      var k := IndexOf(p + [NL], NL);
      assert (p + [NL])[k] == NL;
      assert k < |p| by {
        var i := IndexOf(p, NL);
        assert (p + [NL])[i] == NL;
      }
      assert |(p + [NL])[..k]| < |p|;
    }
  }

  /**
   * A path added with the intended widening reads back from its slot
   * exactly when it holds no '\n'; the identifier reads back unless its
   * first byte is the free marker.
   */
  lemma AddThenRead(ix: Index, id: string, path: string)
    requires Valid(ix) && Add(ix, id, path).Ok?
    ensures var (ix', s) := Add(ix, id, path).value;
      && (GetPath(ix', s) == Ok(path) <==> NL !in path)
      && (GetId(ix', s) == Ok(id) <==> !StartsWith(id, [NL]))
  {
    var (ix', s) := Add(ix, id, path).value;
    ReadBackPath(ix', s);
  }

  /** `add` leaves what every other slot reads unchanged. */
  lemma AddKeepsOtherSlots(ix: Index, id: string, path: string, j: int)
    requires Valid(ix) && Add(ix, id, path).Ok? && j != Add(ix, id, path).value.1
    ensures GetId(Add(ix, id, path).value.0, j) == GetId(ix, j)
    ensures GetPath(Add(ix, id, path).value.0, j) == GetPath(ix, j)
  {
    var ix' := Add(ix, id, path).value.0;
    if j >= 0 && j in ix.cells {
      var p := ix.cells[j].path;
      assert PathField(p, ix.bytesPerPath) == p + [NL];
      assert PathField(p, ix'.bytesPerPath) == p + [NL];
    }
  }

  /**
   * `add` with the as-written widening: a 256-byte path in a 128-byte
   * field widens to 256 bytes, the terminator does not fit, and the path
   * cannot be read back.
   */
  lemma AddWithUnterminatedPath()
    ensures var ix := Create(1, 128, false);
      var path := seq(256, _ => 'a');
      var widened := Resize(ix, 1, WidenAsWritten(128, 256)).value;
      var ix' := Place(widened, 0, Entry("i", path));
      && widened.bytesPerPath == 256
      && GetPath(ix', 0) == Err(IllegalState)
      && GetPath(Add(ix, "i", path).value.0, 0) == Ok(path)
  {
    var ix := Create(1, 128, false);
    var path := seq(256, _ => 'a');
    WidenAsWrittenFillsField();
    var widened := Resize(ix, 1, WidenAsWritten(128, 256)).value;
    var ix' := Place(widened, 0, Entry("i", path));
    assert PathField(path, 256) == path;
    assert NL !in path;
    var ixa := Add(ix, "i", path).value.0;
    assert ixa.bytesPerPath == 512;
    assert FirstFree(ix.cells, 0) == 0;
    ReadBackPath(ixa, 0);
  }

  // ---------------------------------------------------------------------
  // Deleting, updating, clearing

  /**
   * `delete(entry)`: frees the slot and decrements the entry counter,
   * WITHOUT checking that the slot was occupied. The slot counter and all
   * other slots are kept.
   */
  function Delete(ix: Index, e: int): (r: Result<Index>)
    ensures r.Ok? <==> e >= 0 && !ix.readOnly
    ensures r.Err? ==> r.error == IOFailure
    ensures r.Ok? ==> r.value.entries == ix.entries - 1 && r.value.slots == ix.slots
    ensures r.Ok? ==> e !in r.value.cells
    ensures r.Ok? ==> forall k :: k != e ==> (k in r.value.cells <==> k in ix.cells)
    ensures r.Ok? ==> forall k :: k != e && k in ix.cells ==> r.value.cells[k] == ix.cells[k]
    ensures r.Ok? ==> r.value.bytesPerId == ix.bytesPerId && r.value.bytesPerPath == ix.bytesPerPath
  {
    if e < 0 || ix.readOnly then Err(IOFailure)
    else Ok(ix.(cells := ix.cells - {e}, entries := ix.entries - 1))
  }

  /** Deleting an occupied slot keeps the index valid, and frees that slot. */
  lemma DeletePreservesValid(ix: Index, e: nat)
    requires Valid(ix) && e in ix.cells && !ix.readOnly
    ensures Valid(Delete(ix, e).value)
    ensures GetId(Delete(ix, e).value, e) == Err(IllegalState)
  {
    assert Delete(ix, e).value.cells.Keys == ix.cells.Keys - {e};
  }

  /** Deleting a slot that is already free breaks the entry count. */
  lemma DeleteFreeSlotBreaksCount(ix: Index, e: nat)
    requires Valid(ix) && e !in ix.cells && !ix.readOnly
    ensures !Valid(Delete(ix, e).value)
  {
    assert Delete(ix, e).value.cells == ix.cells;
  }

  /**
   * The zero fill after the '\n' in `delete` and `update` AS WRITTEN: the
   * loop runs `bytesPerEntry - 1` times but writes a `long` (8 bytes) each
   * time, so it writes this many bytes from the start of the slot.
   */
  function FillLengthAsWritten(bytesPerEntry: nat): (n: nat)
    ensures n >= 1 && n % 8 == 1
    ensures n <= bytesPerEntry <==> bytesPerEntry == 1
  {
    if bytesPerEntry == 0 then 1 else 1 + 8 * (bytesPerEntry - 1)
  }

  /**
   * The bytes `add` writes from the start of its slot AS WRITTEN: the
   * identifier, the path, the '\n', then `bytesPerEntry - 36 -
   * pathLength - 1` zeros, where 36 is the default identifier width
   * (`IDX_BYTES_PER_ID`) and not the index's own. A negative count writes
   * no zeros.
   */
  function AddWriteLengthAsWritten(bytesPerId: nat, bytesPerPath: nat, pathLength: nat): (n: nat)
    ensures n >= bytesPerId + pathLength + 1
    ensures pathLength < bytesPerPath && bytesPerId >= 36 ==>
      n == (bytesPerId + bytesPerPath) + (bytesPerId - 36)
    ensures pathLength < bytesPerPath ==> (n <= bytesPerId + bytesPerPath <==> bytesPerId <= 36)
  {
    var padding := (bytesPerId + bytesPerPath) - 36 - pathLength - 1;
    bytesPerId + pathLength + 1 + (if padding > 0 then padding else 0)
  }

  /**
   * With an identifier wider than 36 bytes every `add` writes that many
   * extra bytes past its slot, into the identifier of the next one.
   */
  lemma AddOverrunsSlot(bytesPerId: nat, bytesPerPath: nat, pathLength: nat)
    requires bytesPerId > 36 && pathLength < bytesPerPath
    ensures AddWriteLengthAsWritten(bytesPerId, bytesPerPath, pathLength) - (bytesPerId + bytesPerPath) == bytesPerId - 36 > 0
  {
  }

  /**
   * The fill runs past the end of its slot whenever a slot is wider than
   * one byte, and for slots of 8 bytes or more it reaches into the seventh
   * slot after it.
   */
  lemma FillOverrunsSlot(bytesPerEntry: nat)
    requires bytesPerEntry >= 2
    ensures FillLengthAsWritten(bytesPerEntry) > bytesPerEntry
    ensures bytesPerEntry >= 8 ==> FillLengthAsWritten(bytesPerEntry) > 7 * bytesPerEntry
  {
  }

  /**
   * `update(entry, path)`: widens the path field first when the path does
   * not fit, then replaces the path of an occupied slot and keeps its
   * identifier. The model keeps a free slot free, where the source writes
   * the path into it (see README).
   */
  function Update(ix: Index, e: int, path: string): (r: Result<Index>)
    ensures e < 0 && !(|path| >= ix.bytesPerPath > 0) ==> r.Err?
    ensures r.Ok? ==> e >= 0 && !ix.readOnly
    ensures r.Ok? && e in ix.cells ==> r.value.cells == ix.cells[e := Entry(ix.cells[e].id, path)]
    ensures r.Ok? && e !in ix.cells ==> r.value.cells == ix.cells
    ensures r.Ok? ==> r.value.entries == ix.entries && r.value.slots == ix.slots
    ensures r.Ok? ==> r.value.bytesPerId == ix.bytesPerId
    ensures r.Ok? && |path| >= ix.bytesPerPath > 0 ==> r.value.bytesPerPath == Widen(ix.bytesPerPath, |path|)
    ensures r.Ok? && |path| < ix.bytesPerPath ==> r.value.bytesPerPath == ix.bytesPerPath
  {
    var widened :-
      if |path| >= ix.bytesPerPath > 0 then Resize(ix, ix.bytesPerId, Widen(ix.bytesPerPath, |path|))
      else Ok(ix);
    if e < 0 || widened.readOnly then Err(IOFailure)
    else if e !in widened.cells then Ok(widened)
    else Ok(widened.(cells := widened.cells[e := Entry(widened.cells[e].id, path)]))
  }

  /**
   * `update` keeps a valid index valid; afterwards the slot keeps its
   * identifier and reads back the new path when it holds no '\n'.
   */
  lemma UpdatePreservesValid(ix: Index, e: nat, path: string)
    requires Valid(ix) && e in ix.cells && Update(ix, e, path).Ok?
    ensures Valid(Update(ix, e, path).value)
    ensures GetId(Update(ix, e, path).value, e) == GetId(ix, e)
    ensures GetPath(Update(ix, e, path).value, e) == Ok(path) <==> NL !in path
  {
    var ix' := Update(ix, e, path).value;
    assert ix'.cells.Keys == ix.cells.Keys;
    forall k | k in ix'.cells
      ensures |ix'.cells[k].path| < ix'.bytesPerPath
    {
      if k != e {
        assert ix'.cells[k] == ix.cells[k];
      }
    }
    ReadBackPath(ix', e);
  }

  /**
   * `clear()`: re-initializes the file with the same widths, so every
   * slot is free and the entry counter is 0. The in-memory slot counter is
   * not reset (only the header's copy is).
   */
  function Clear(ix: Index): (r: Result<Index>)
    ensures r.Ok? <==> !ix.readOnly
    ensures r.Err? ==> r.error == IOFailure
    ensures r.Ok? ==> r.value.entries == 0 && r.value.cells == map[]
    ensures r.Ok? ==> r.value.bytesPerId == ix.bytesPerId && r.value.bytesPerPath == ix.bytesPerPath
    ensures r.Ok? ==> r.value.slots == ix.slots
  {
    if ix.readOnly then Err(IOFailure) else Ok(ix.(cells := map[], entries := 0))
  }

  /** After `clear`, a valid index stays valid and every slot reads as free. */
  lemma ClearFreesAll(ix: Index, e: nat)
    requires Valid(ix) && !ix.readOnly
    ensures Valid(Clear(ix).value)
    ensures GetId(Clear(ix).value, e) == Err(IllegalState)
    ensures GetPath(Clear(ix).value, e) == Err(IllegalState)
  {
  }
}

=== FILE: uri_index_header.dfy ===
/**
 * The 24-byte header of the URI index file: the id width and the path width
 * as 4-byte integers, then the slot counter and the entry counter as 8-byte
 * integers, all big-endian two's complement as `RandomAccessFile` writes
 * them.
 */
module UriIndexHeader {
  import opened JavaErrors
  import opened JavaNumbers

  type Byte = b: int | 0 <= b < 256

  datatype Header = Header(bytesPerId: int, bytesPerPath: int, slots: int, entries: int)

  /** The fields as the index stores them: two `int`s and two `long`s. */
  predicate InRange(h: Header) {
    IsInt(h.bytesPerId) && IsInt(h.bytesPerPath) && IsLong(h.slots) && IsLong(h.entries)
  }

  predicate IsInt(v: int) {
    0 - 0x8000_0000 <= v < 0x8000_0000
  }

  function Pow256(n: nat): (p: nat)
    ensures p >= 1
  {
    if n == 0 then 1 else 256 * Pow256(n - 1)
  }

  /** The low `n` bytes of `u`, most significant first. */
  function EncodeBE(u: nat, n: nat): (bs: seq<Byte>)
    ensures |bs| == n
  {
    if n == 0 then [] else EncodeBE(u / 256, n - 1) + [u % 256]
  }

  /** The unsigned value of a big-endian byte string. */
  function DecodeBE(bs: seq<Byte>): (u: nat)
    ensures u < Pow256(|bs|)
  {
    if |bs| == 0 then 0 else DecodeBE(bs[..|bs| - 1]) * 256 + bs[|bs| - 1]
  }

  lemma DecodeSnoc(bs: seq<Byte>, b: Byte)
    ensures DecodeBE(bs + [b]) == DecodeBE(bs) * 256 + b
  {
    assert (bs + [b])[..|bs|] == bs;
  }

  /** Decoding the `n` bytes written for `u < 256^n` recovers `u`. */
  lemma {:induction false} DecodeEncode(u: nat, n: nat)
    requires u < Pow256(n)
    ensures DecodeBE(EncodeBE(u, n)) == u
  {
    if n > 0 {
      assert u / 256 < Pow256(n - 1);
      DecodeEncode(u / 256, n - 1);
      DecodeSnoc(EncodeBE(u / 256, n - 1), u % 256);
    }
  }

  /** Two's complement in `n` bytes. */
  function ToUnsigned(v: int, n: nat): nat
    requires 0 - Pow256(n) <= v
  {
    if v < 0 then v + Pow256(n) else v
  }

  function FromUnsigned(u: nat, n: nat): int {
    if 2 * u >= Pow256(n) then u - Pow256(n) else u
  }

  /** `writeInt`/`writeLong`: the `n` big-endian bytes of `v`. */
  function EncodeSigned(v: int, n: nat): (bs: seq<Byte>)
    requires 0 - Pow256(n) <= v
    ensures |bs| == n
  {
    EncodeBE(ToUnsigned(v, n), n)
  }

  /** `readInt`/`readLong` at offset `at`. */
  function DecodeSigned(bs: seq<Byte>, at: nat, n: nat): int
    requires at + n <= |bs|
  {
    FromUnsigned(DecodeBE(bs[at..at + n]), n)
  }

  /** A value representable in `n` bytes reads back from its encoding. */
  lemma SignedRoundTrip(v: int, n: nat)
    requires 0 - Pow256(n) <= 2 * v < Pow256(n)
    ensures DecodeSigned(EncodeSigned(v, n), 0, n) == v
  {
    var bs := EncodeSigned(v, n);
    assert bs[0..n] == bs;
    DecodeEncode(ToUnsigned(v, n), n);
  }

  lemma Widths()
    ensures Pow256(4) == 0x1_0000_0000
    ensures Pow256(8) == 0x1_0000_0000_0000_0000
  {
  }

  /** The header `init` and `resize` write. */
  function WriteHeader(h: Header): (bs: seq<Byte>)
    requires InRange(h)
    ensures |bs| == 24
  {
    Widths();
    EncodeSigned(h.bytesPerId, 4) + EncodeSigned(h.bytesPerPath, 4)
      + EncodeSigned(h.slots, 8) + EncodeSigned(h.entries, 8)
  }

  /** Reading the four header fields from their own offsets (0, 4, 8, 16). */
  function ReadHeader(bs: seq<Byte>): (r: Option<Header>)
    ensures r.Some? <==> |bs| >= 24
    ensures r.Some? ==> InRange(r.value)
  {
    if |bs| < 24 then None
    else
      Widths();
      var h := Header(DecodeSigned(bs, 0, 4), DecodeSigned(bs, 4, 4),
                      DecodeSigned(bs, 8, 8), DecodeSigned(bs, 16, 8));
      Some(h)
  }

  /** Every header the index writes reads back field by field. */
  lemma HeaderRoundTrip(h: Header)
    requires InRange(h)
    ensures ReadHeader(WriteHeader(h)) == Some(h)
  {
    Widths();
    var a := EncodeSigned(h.bytesPerId, 4);
    var b := EncodeSigned(h.bytesPerPath, 4);
    var c := EncodeSigned(h.slots, 8);
    var d := EncodeSigned(h.entries, 8);
    var bs := WriteHeader(h);
    assert bs[0..4] == a;
    assert bs[4..8] == b;
    assert bs[8..16] == c;
    assert bs[16..24] == d;
    SignedRoundTrip(h.bytesPerId, 4);
    SignedRoundTrip(h.bytesPerPath, 4);
    SignedRoundTrip(h.slots, 8);
    SignedRoundTrip(h.entries, 8);
    assert a[0..4] == a && b[0..4] == b && c[0..8] == c && d[0..8] == d;
  }

  /**
   * The constructor AS WRITTEN: it reads an `int` from offset 0 into the
   * path width and a `long` from offset 4 into the entry counter; the id
   * width and the slot counter keep their initial values 36 and 0. A file
   * shorter than those 12 bytes ends the read and the index is initialized
   * instead (None).
   */
  function ReadHeaderAsWritten(bs: seq<Byte>): (r: Option<Header>)
    ensures r.Some? <==> |bs| >= 12
    ensures r.Some? ==> r.value.bytesPerId == 36 && r.value.slots == 0
    ensures r.Some? ==> IsInt(r.value.bytesPerPath) && IsLong(r.value.entries)
  {
    if |bs| < 12 then None
    else
      Widths();
      Some(Header(36, DecodeSigned(bs, 0, 4), 0, DecodeSigned(bs, 4, 8)))
  }

  /** The as-written read takes the stored id width for the path width. */
  lemma MisreadPathWidth(h: Header)
    requires InRange(h)
    ensures ReadHeaderAsWritten(WriteHeader(h)).value.bytesPerPath == h.bytesPerId
  {
    Widths();
    var bs := WriteHeader(h);
    var a := EncodeSigned(h.bytesPerId, 4);
    assert bs[0..4] == a;
    assert a[0..4] == a;
    SignedRoundTrip(h.bytesPerId, 4);
  }

  /**
   * Reopening a freshly initialized default index (widths 36 and 128, no
   * slots, no entries) yields a path width of 36 and 128 * 2^32 entries.
   */
  lemma MisreadDefaultIndex()
    ensures ReadHeaderAsWritten(WriteHeader(Header(36, 128, 0, 0)))
      == Some(Header(36, 36, 0, 549_755_813_888))
    ensures ReadHeader(WriteHeader(Header(36, 128, 0, 0))) == Some(Header(36, 128, 0, 0))
  {
    Widths();
    var h := Header(36, 128, 0, 0);
    var bs := WriteHeader(h);
    MisreadPathWidth(h);
    var b := EncodeSigned(128, 4);
    var c := EncodeSigned(0, 8);
    assert b == [0, 0, 0, 128];
    assert c == [0, 0, 0, 0, 0, 0, 0, 0];
    assert bs == EncodeSigned(36, 4) + b + c + EncodeSigned(0, 8);
    assert bs[4..12] == b + c[..4];
    var s4: seq<Byte> := [0, 0, 0, 128];
    assert DecodeBE(s4) == 128 by {
      DecodeSnoc([], 0);
      assert [0] == [] + [0];
      DecodeSnoc([0], 0);
      assert [0, 0] == [0] + [0];
      DecodeSnoc([0, 0], 0);
      assert [0, 0, 0] == [0, 0] + [0];
      DecodeSnoc([0, 0, 0], 128);
      assert s4 == [0, 0, 0] + [128];
    }
    var s5 := s4 + [0];
    var s6 := s5 + [0];
    var s7 := s6 + [0];
    var s8 := s7 + [0];
    DecodeSnoc(s4, 0);
    DecodeSnoc(s5, 0);
    DecodeSnoc(s6, 0);
    DecodeSnoc(s7, 0);
    assert bs[4..12] == s8;
    HeaderRoundTrip(h);
  }
}
